=== FILE: README.md ===
# Finance dashboard: a verified model of the transaction aggregators and their neighbours

This project models, in Dafny, the data logic of a personal-finance dashboard. The
dashboard has a React frontend and a Django backend that stores bank items, accounts and
transactions. Its core is the client-side transaction aggregator. From a list of
transactions it builds three things:

- month buckets of inflow and outflow, sorted chronologically;
- per-category totals, sorted largest first;
- a summary: count, total inflow and outflow, net cash flow, average and largest
  transaction.

The aggregator exists in five near-copies. The chart helpers are the canonical one. The
overview tab, the monthly-spending tab, the balance overview and the categories tab hold
the others. Each copy is modelled on its own. Lemmas then relate the copies to each
other and to independent reference definitions.

Around the aggregator the model covers these smaller pieces:

- the transactions page's filter, sort, sort toggle, page slice, control handlers,
  category list and category colours;
- the dashboard's total balance, its checking-account click guard and dialog reset;
- the hue hash behind account gradients;
- the card lock toggle and the rewards display choice;
- the analytics page's series choice and totals;
- the "all transactions" table rows;
- the registration form's submit handler and error formatting;
- the frontend API helpers: query strings, the session token in browser storage, and the
  token refresh on a 401 (modelled as the corrected one-time refresh; as written, a
  rejected refresh can loop, see "## Findings");
- the backend's transaction listing, the two unlink endpoints, the import rule for bank
  transactions and the token-exchange guard.

Conventions used throughout:

- Amounts are integer cents (`Ledger.Txn`). A NEGATIVE amount is inflow. Any other
  amount, zero included, is outflow.
- Dates arrive already parsed as (year, month, day).
- A JavaScript object used as a dictionary is an association list in first-seen key
  order. It starts empty, so keys inherited from `Object.prototype` are not modelled
  (see "## Left out"). `Array.prototype.sort` is stable, and it is modelled as a stable insertion sort.
- Browser storage is a `map<string, string>`. The backend database is three maps from
  primary keys to rows.
- I/O is not modelled. The backend's and the bank's replies become parameters: the
  registration reply, the login reply, the refresh reply, and the map of the item's
  accounts when importing.

Files: `ledger.dfy` holds the transaction record and the sign rules. `month_buckets.dfy`,
`category_tally.dfy` and `summary.dfy` hold the shared folds. `chart_helpers.dfy`,
`overview_tab.dfy`, `monthly_spending_tab.dfy`, `categories_tab.dfy` and
`balance_overview.dfy` hold one copy each. The remaining files follow the source
component they name. `strings.dfy` and `wrappers.dfy` are support.

## Model

| member | source | states |
|---|---|---|
| Ledger.Abs | frontend/src/utils/chartHelpers.js:107 | `Math.abs` is non-negative and equals the value or its negation |
| Ledger.InflowPart | frontend/src/utils/chartHelpers.js:36-37 | a transaction's inflow contribution is never negative, and is positive exactly when the amount is negative |
| Ledger.OutflowPart | frontend/src/utils/chartHelpers.js:38-39 | the outflow contribution is never negative, and is positive exactly when the amount is positive; a zero amount takes the outflow branch and adds nothing |
| Ledger.PartsSplitAmount | frontend/src/utils/chartHelpers.js:36-40 | outflow part minus inflow part gives back the amount; their sum is its absolute value |
| Ledger.TotalsSplitSignedSum | frontend/src/utils/chartHelpers.js:100-104 | both running totals are non-negative, and outflow minus inflow is the signed sum of all amounts |
| Ledger.DateLeTotal | frontend/src/components/Transactions.js:267-270 | any two dates are comparable, so the date comparator orders every pair |
| Ledger.DateLeTransitive | frontend/src/components/Transactions.js:267-270 | the date order is transitive |
| Ledger.ParseMonthNameRoundTrip | frontend/src/utils/chartHelpers.js:44-47 | the sort comparator, which splits a `"M/YYYY"` label and reads both halves as numbers, recovers exactly the (month, year) the label was built from |
| Ledger.MonthName | frontend/src/utils/chartHelpers.js:26 | the `"M/YYYY"` label of a month reads back, through the comparator's parser, as that same month |
| Ledger.MonthNameInjective | frontend/src/utils/chartHelpers.js:26-28 | two months get the same label only when they are the same month, so each label names one bucket |
| Summary.Track | frontend/src/utils/chartHelpers.js:106-108 | one step of the scan keeps the current pick or takes the transaction, ends with the larger absolute amount of the two, and keeps the current pick on a tie (the strict `>`) |
| Summary.Scan | frontend/src/utils/chartHelpers.js:97-109 | the largest-transaction scan stays on the `{amount: 0}` placeholder exactly when every amount is zero; otherwise it picks the FIRST transaction of greatest absolute amount, and no amount exceeds it |
| Summary.AverageNonNegative | frontend/src/utils/chartHelpers.js:118 | the average of two non-negative totals over a positive count is non-negative |
| ChartHelpers.ProcessMonthlyData | frontend/src/utils/chartHelpers.js:16-49 | no input gives `[]`; otherwise there is one bucket per month of the input and no other, strictly chronological, each equal to the independent per-month inflow and outflow sums, both non-negative |
| ChartHelpers.ProcessCategoryData | frontend/src/utils/chartHelpers.js:56-76 | no input gives `[]`; otherwise entries are largest first with distinct names, the names are exactly the first-element keys of the input, and each value is the independent sum of absolute amounts under its key, never negative |
| ChartHelpers.FirstElementKeyMerges | frontend/src/utils/chartHelpers.js:65 | on a string category, `category?.[0]` is taken as its first Unicode scalar (JavaScript reads the first UTF-16 code unit; see Left out), so two categories that begin alike share one total |
| ChartHelpers.SummaryLoop | frontend/src/utils/chartHelpers.js:95-110 | the loop's running inflow, outflow and largest transaction equal the separate total-inflow, total-outflow and scan definitions |
| ChartHelpers.CalculateTransactionSummary | frontend/src/utils/chartHelpers.js:83-120 | no input gives the zeroed summary with a null largest transaction; otherwise count, totals, net flow, largest and average agree with the separate folds |
| ChartHelpers.SummaryIsReference | frontend/src/utils/chartHelpers.js:112-118 | on a non-empty list the summary equals the reference summary built from the independent folds |
| ChartHelpers.SummaryMatchesMonthlyBuckets | frontend/src/utils/chartHelpers.js:100-104 | the summary's total inflow and outflow equal the sums of the monthly buckets' inflows and outflows over the same input, and are non-negative |
| ChartHelpers.CategoryDataMatchesTotals | frontend/src/utils/chartHelpers.js:69 | the category values add up to total inflow plus total outflow: every amount is counted once, by magnitude |
| ChartHelpers.AverageNonNegative | frontend/src/utils/chartHelpers.js:118 | the summary's average is never negative |
| MonthBuckets.Credit | frontend/src/utils/chartHelpers.js:36-40 | crediting an amount raises the bucket's inflow by its inflow part and its outflow by its outflow part, whichever way the outflow update is spelled |
| MonthBuckets.Lookup | frontend/src/utils/chartHelpers.js:28-34 | a month seen for the first time reads as a fresh zero bucket |
| MonthBuckets.AddTxn | frontend/src/utils/chartHelpers.js:24-41 | one callback step adds the transaction's month to the key set, keeps keys distinct, credits that month's bucket and leaves every other month's bucket as it was |
| MonthBuckets.MonthInflow | frontend/src/utils/chartHelpers.js:36-37 | the reference inflow of a month is non-negative |
| MonthBuckets.MonthOutflow | frontend/src/utils/chartHelpers.js:38-39 | the reference outflow of a month is non-negative |
| MonthBuckets.Group | frontend/src/utils/chartHelpers.js:22-41 | the grouping pass has distinct keys, exactly the months of the input, and each month's bucket equals the reference bucket |
| MonthBuckets.InsertByMonth | frontend/src/utils/chartHelpers.js:44-48 | inserting a bucket of a new month into a chronological list keeps it chronological and adds exactly that bucket |
| MonthBuckets.SortByMonth | frontend/src/utils/chartHelpers.js:44-48 | the chronological sort is a permutation of its input and strictly ascending by (year, month) |
| MonthBuckets.MonthlySpec | frontend/src/utils/chartHelpers.js:22-48 | every copy's monthly series is strictly chronological, has one bucket per month of the input and no other, and each bucket holds that month's inflow and outflow sums, both non-negative |
| MonthBuckets.GroupSpellingIrrelevant | frontend/src/components/dashboard/transactions-tabs/MonthlySpendingTab.jsx:40-44 | writing the outflow update as `-= -amount` instead of `+= amount` gives the same buckets for numeric amounts |
| MonthBuckets.AddTxnSpellingIrrelevant | frontend/src/components/dashboard/transactions-tabs/MonthlySpendingTab.jsx:40-44 | the same holds for a single callback step |
| MonthBuckets.AddTxnSums | frontend/src/utils/chartHelpers.js:36-40 | one step raises the bucket sums by exactly the transaction's inflow and outflow parts |
| MonthBuckets.GroupSums | frontend/src/utils/chartHelpers.js:24-41 | the grouped buckets' inflows and outflows add up to the list's totals |
| MonthBuckets.InsertSums | frontend/src/utils/chartHelpers.js:44-48 | an insertion step adds exactly the inserted bucket to the sums |
| MonthBuckets.SortSums | frontend/src/utils/chartHelpers.js:44-48 | sorting does not change the sums |
| MonthBuckets.MonthlySums | frontend/src/utils/chartHelpers.js:22-48 | the finished monthly series counts every transaction exactly once |
| CategoryTally.Bump | frontend/src/utils/chartHelpers.js:66-69 | `if (!totals[k]) totals[k] = 0; totals[k] += delta` adds the key if new, keeps names distinct and moves only that key's total, by `delta` |
| CategoryTally.Tally | frontend/src/utils/chartHelpers.js:64-70 | the totals object has distinct names, exactly the keys of the input, and each total equals the independent per-key sum |
| CategoryTally.InsertByValue | frontend/src/utils/chartHelpers.js:75 | inserting a new entry into a descending list keeps it descending with distinct names and adds exactly that entry |
| CategoryTally.SortByValue | frontend/src/utils/chartHelpers.js:73-75 | the descending sort is a permutation of its input with the same names, sorted largest first |
| CategoryTally.SortedTallySpec | frontend/src/utils/chartHelpers.js:62-75 | a sorted category chart is descending, has one entry per key of the input and no other, and each value is exactly that key's sum |
| CategoryTally.BumpSum | frontend/src/utils/chartHelpers.js:69 | a bump raises the sum of all values by exactly `delta` |
| CategoryTally.InsertSum | frontend/src/utils/chartHelpers.js:75 | an insertion step adds exactly the inserted value to the sum |
| CategoryTally.TallySum | frontend/src/utils/chartHelpers.js:64-70 | the totals add up to the sum of all increments |
| CategoryTally.SortSum | frontend/src/utils/chartHelpers.js:73-75 | sorting does not change the sum |
| CategoryTally.SortedTallySum | frontend/src/utils/chartHelpers.js:62-75 | the sorted chart's values add up to the sum of all increments |
| CategoryTally.OutflowOnlyTotal | frontend/src/components/dashboard/transactions-tabs/OverviewTab.jsx:71-73 | the outflow-only increments add up to the total outflow |
| CategoryTally.SignedDeltaTotal | frontend/src/components/dashboard/transactions-tabs/OverviewTab.jsx:74 | the signed increments add up to the signed sum of the amounts |
| CategoryTally.AbsDeltaTotal | frontend/src/utils/chartHelpers.js:69 | the absolute increments add up to total inflow plus total outflow |
| CategoryTally.NonNegativeSums | frontend/src/utils/chartHelpers.js:69 | per-key sums of absolute or outflow-only increments are never negative |
| CategoryTally.SignedAndOutflowKeysAgree | frontend/src/components/dashboard/transactions-tabs/OverviewTab.jsx:64-70 | the signed and the outflow-only totals have the same keys, since both keys are created for every transaction |
| CategoryTally.Take | frontend/src/components/dashboard/transactions-tabs/CategoriesTab.jsx:44 | `slice(0, n)` is a prefix of at most `n` entries, and is the whole list when it is shorter |
| CategoryTally.TakeKeeps | frontend/src/components/dashboard/transactions-tabs/CategoriesTab.jsx:41-44 | cutting a chart keeps it descending, keeps its names distinct and adds no entry |
| OverviewTab.Step | frontend/src/components/dashboard/transactions-tabs/OverviewTab.jsx:43-81 | one transaction adds its `-= -amount` to its month, bumps both category totals under their keys by the signed and outflow-only increments, adds its inflow and outflow parts, and keeps the largest or takes the transaction, whichever has the larger absolute amount, keeping the current one on a tie |
| OverviewTab.Pass | frontend/src/components/dashboard/transactions-tabs/OverviewTab.jsx:43-81 | the whole `forEach` pass equals, component by component, the month grouping, the two category tallies, the total inflow and outflow, and the largest-transaction scan (see PassMatchesSeparateFolds) |
| OverviewTab.StepExtendsFolds | frontend/src/components/dashboard/transactions-tabs/OverviewTab.jsx:43-81 | a step applied to the separate folds of a prefix gives the separate folds of the prefix extended by one transaction |
| OverviewTab.PassMonths | frontend/src/components/dashboard/transactions-tabs/OverviewTab.jsx:43-62 | the single pass's month buckets are the `-= -amount` grouping |
| OverviewTab.PassSignedTotals | frontend/src/components/dashboard/transactions-tabs/OverviewTab.jsx:64-74 | the pass's `categoryTotals` are the signed tally keyed by the category or 'Uncategorized' |
| OverviewTab.PassPositiveTotals | frontend/src/components/dashboard/transactions-tabs/OverviewTab.jsx:68-73 | the pass's `positiveCategoryTotals` are the outflow-only tally, including zero entries for categories with no positive amount |
| OverviewTab.PassRunning | frontend/src/components/dashboard/transactions-tabs/OverviewTab.jsx:56-80 | the pass's running inflow, outflow and largest transaction are the separate totals and the scan |
| OverviewTab.PassFlows | frontend/src/components/dashboard/transactions-tabs/OverviewTab.jsx:56-62 | the running inflow and outflow equal the total-inflow and total-outflow folds |
| OverviewTab.PassLargest | frontend/src/components/dashboard/transactions-tabs/OverviewTab.jsx:78-80 | the running largest transaction equals the scan |
| OverviewTab.PassMatchesSeparateFolds | frontend/src/components/dashboard/transactions-tabs/OverviewTab.jsx:43-81 | the single `forEach` pass computes, component by component, the separate folds the other copies use |
| OverviewTab.Process | frontend/src/components/dashboard/transactions-tabs/OverviewTab.jsx:32-111 | empty input gives empty arrays and the empty `summary: {}`; otherwise a summary is present, the months are chronological and both category arrays are descending with distinct names |
| OverviewTab.CategoryArraysAreSortedTallies | frontend/src/components/dashboard/transactions-tabs/OverviewTab.jsx:90-96 | on a non-empty list the two category arrays are the sorted signed and outflow-only tallies |
| OverviewTab.MonthlyMatchesChartHelpers | frontend/src/components/dashboard/transactions-tabs/OverviewTab.jsx:84-88 | the overview's monthly series is the chart helpers' series for the same input |
| OverviewTab.SummaryMatchesChartHelpers | frontend/src/components/dashboard/transactions-tabs/OverviewTab.jsx:102-109 | on a non-empty list the overview's summary is the chart helpers' summary |
| OverviewTab.SummaryIsReference | frontend/src/components/dashboard/transactions-tabs/OverviewTab.jsx:102-109 | on a non-empty list the summary is the reference summary of the independent folds |
| OverviewTab.PassStatsAreReference | frontend/src/components/dashboard/transactions-tabs/OverviewTab.jsx:102-109 | the summary object built from the pass's running values is the reference summary |
| OverviewTab.CategoryArraysSpec | frontend/src/components/dashboard/transactions-tabs/OverviewTab.jsx:90-96 | each category array is a permutation of its totals object, and both are keyed by exactly the categories of the input |
| OverviewTab.CategoryNames | frontend/src/components/dashboard/transactions-tabs/OverviewTab.jsx:64-70 | both sorted tallies are keyed by the input's categories |
| OverviewTab.CategoryValuesSpec | frontend/src/components/dashboard/transactions-tabs/OverviewTab.jsx:68-74 | each signed value is its category's signed sum; each positive value is its category's sum of positive amounts and is never negative |
| OverviewTab.PositiveCategoriesSumToOutflow | frontend/src/components/dashboard/transactions-tabs/OverviewTab.jsx:59-73 | the positive category values add up to `summary.totalOutflow` |
| OverviewTab.SignedCategoriesSumToNegatedNetFlow | frontend/src/components/dashboard/transactions-tabs/OverviewTab.jsx:57-74 | the signed category values add up to minus `summary.netCashFlow` |
| OverviewTab.SummarySpec | frontend/src/components/dashboard/transactions-tabs/OverviewTab.jsx:102-109 | count is the list length, net flow is inflow minus outflow, the average divides by a positive count, the largest is the scan, and the monthly sums equal the summary totals |
| OverviewTab.SignedCategoryCanBeNegative | frontend/src/components/dashboard/transactions-tabs/OverviewTab.jsx:74 | a single income transaction gives its category a negative signed value and a zero positive value |
| MonthlySpendingTab.MonthlyData | frontend/src/components/dashboard/transactions-tabs/MonthlySpendingTab.jsx:22-53 | empty input gives `[]`; the series is chronological, has one bucket per month of the input, each holding the reference sums, both non-negative |
| MonthlySpendingTab.MatchesChartHelpers | frontend/src/components/dashboard/transactions-tabs/MonthlySpendingTab.jsx:28-52 | for numeric amounts the tab's series equals the chart helpers' series |
| CategoriesTab.CategoryData | frontend/src/components/dashboard/transactions-tabs/CategoriesTab.jsx:25-45 | empty input gives `[]`; at most eight entries, descending, distinct names, each a category of the input holding its signed sum |
| CategoriesTab.TopOfOverview | frontend/src/components/dashboard/transactions-tabs/CategoriesTab.jsx:31-44 | the tab shows exactly the first `min(8, n)` entries of the overview's `categoryData` for the same input |
| CategoriesTab.TopOfSorted | frontend/src/components/dashboard/transactions-tabs/CategoriesTab.jsx:41-44 | the tab's array is the first `min(8, n)` entries of the sorted signed tally |
| CategoriesTab.NothingCutForFewCategories | frontend/src/components/dashboard/transactions-tabs/CategoriesTab.jsx:44 | with at most eight categories in the input every category is shown |
| BalanceOverview.ChartData | frontend/src/components/dashboard/BalanceOverview.jsx:32-67 | no transactions gives the five-month sample; otherwise one bucket per month of the input holding the reference sums; chronological and non-negative either way |
| BalanceOverview.MatchesChartHelpers | frontend/src/components/dashboard/BalanceOverview.jsx:39-66 | with transactions present the chart equals the chart helpers' series |
| BalanceOverview.SampleLabels | frontend/src/components/dashboard/BalanceOverview.jsx:23-29 | the sample has five points, January to May 2024, the first labelled "1/2024" |
| TransactionsView.KeepIffShown | frontend/src/components/Transactions.js:245-264 | the filter callback keeps a transaction exactly when the search text occurs in its name ignoring case, its category is the chosen one (or the filter is empty or 'all'), and its date lies inside the inclusive range |
| TransactionsView.Keep | frontend/src/components/Transactions.js:245-264 | the filter callback holds exactly when `Shown` does: the search text occurs in the name ignoring case, the category matches, and the date lies inside the range (see KeepIffShown) |
| TransactionsView.Filter | frontend/src/components/Transactions.js:245-264 | the filter returns a sub-multiset of the input holding exactly the kept transactions, each kept one as many times as it occurs in the input and every other one not at all |
| TransactionsView.FilterAppend | frontend/src/components/Transactions.js:245-264 | filtering two lists side by side gives the two filtered lists side by side, so the input order is kept |
| TransactionsView.FilterSingle | frontend/src/components/Transactions.js:245-264 | a one-element list filters to itself when the transaction is kept and to nothing otherwise |
| TransactionsView.BeforeTotal | frontend/src/components/Transactions.js:265-281 | for every field and direction the comparator orders any two transactions |
| TransactionsView.BeforeTransitive | frontend/src/components/Transactions.js:265-281 | the comparator is transitive for every field and direction |
| TransactionsView.Insert | frontend/src/components/Transactions.js:265-281 | an insertion step keeps the list sorted and adds exactly the inserted transaction |
| TransactionsView.Sort | frontend/src/components/Transactions.js:265-281 | the sort is a permutation of its input, ordered by the chosen field and direction |
| TransactionsView.FilteredTransactions | frontend/src/components/Transactions.js:244-282 | `filteredTransactions` is sorted, is a rearrangement of part of the input and holds each kept transaction as many times as the input does and no other |
| TransactionsView.Displayed | frontend/src/components/Transactions.js:866-867 | the table shows at most one page of rows, each a kept transaction of the input, and nothing once the page starts past the filtered list |
| TransactionsView.HandleSortChange | frontend/src/components/Transactions.js:303-312 | the current field flips its direction; a new field becomes the field, descending |
| TransactionsView.SortChangeTwice | frontend/src/components/Transactions.js:303-312 | two clicks on a header restore the sort exactly when it was already the sort field; from another field they leave it ascending |
| TransactionsView.PageOf | frontend/src/components/Transactions.js:866-867 | a page has at most `rowsPerPage` rows, is empty past the end, and shows only filtered transactions |
| TransactionsView.PagesTile | frontend/src/components/Transactions.js:866-867 | consecutive pages tile the filtered list with no gap and no overlap |
| TransactionsView.AllPagesShowEverything | frontend/src/components/Transactions.js:866-867 | enough pages show every filtered transaction, in order |
| TransactionsView.Initial | frontend/src/components/Transactions.js:142-149 | the table starts on page 0, ten rows, newest first, with the account from the URL or 'all' |
| TransactionsView.ChangeSearch | frontend/src/components/Transactions.js:285-287 | a search change sets the text and changes nothing else, the page included |
| TransactionsView.ChangeAccount | frontend/src/components/Transactions.js:290-294 | an account change sets the account, resets the page and changes nothing else |
| TransactionsView.ChangeCategory | frontend/src/components/Transactions.js:297-300 | a category change sets the filter, resets the page and changes nothing else |
| TransactionsView.ChangeDates | frontend/src/components/Transactions.js:693-710 | the date pickers set the bounds and change nothing else, the page included |
| TransactionsView.ChangeSort | frontend/src/components/Transactions.js:303-312 | a header click changes only the sort state |
| TransactionsView.ChangePage | frontend/src/components/Transactions.js:315-317 | a page change sets the page and nothing else |
| TransactionsView.ChangeRowsPerPage | frontend/src/components/Transactions.js:319-322 | a rows-per-page change sets the row count, resets the page and changes nothing else |
| TransactionsView.ToggleMockData | frontend/src/components/Transactions.js:236-241 | toggling the data source flips it, resets the page and clears the error, and changes nothing else |
| TransactionsView.ResetShowsFirstRows | frontend/src/components/Transactions.js:290-322 | after an account, category or rows-per-page change the table shows the first rows of the filtered list |
| TransactionsView.SearchCanEmptyTheTable | frontend/src/components/Transactions.js:285-287 | because a search does not reset the page, a search on a later page can show an empty table although a transaction matches |
| TransactionsView.UniqueCategories | frontend/src/components/Transactions.js:336-339 | the category list has no duplicates and holds exactly the categories of the transactions |
| TransactionsView.CategoryColor | frontend/src/components/Transactions.js:106-120 | a category in the colour table gets its colour; any other category, or none, gets '#6993FF' |
| Dashboard.Contribution | frontend/src/components/dashboard/Dashboard.jsx:124-125 | only a balance that parses to a number adds to the total; a falsy or unparsable one adds 0 |
| Dashboard.TotalBalance | frontend/src/components/dashboard/Dashboard.jsx:121-127 | no accounts give a total of 0 |
| Dashboard.TotalBalanceAppend | frontend/src/components/dashboard/Dashboard.jsx:121-127 | the total of two account lists side by side is the sum of their totals |
| Dashboard.TotalIsSumOfNumeric | frontend/src/components/dashboard/Dashboard.jsx:121-127 | the total is the plain sum of the balances that parse, the others being skipped |
| Dashboard.AccountClick | frontend/src/components/dashboard/Dashboard.jsx:145-151 | a checking account (any letter case) opens the dialog and is selected; any other click leaves the state unchanged |
| Dashboard.CloseTransactionsDialog | frontend/src/components/dashboard/Dashboard.jsx:153-158 | closing leaves the dialog shut, nothing selected, no transactions and the first tab |
| Dashboard.CloseForgetsClick | frontend/src/components/dashboard/Dashboard.jsx:145-158 | closing after any click gives the same state as closing straight away |
| Dashboard.IsChecking | frontend/src/components/dashboard/Dashboard.jsx:147 | an account counts as checking exactly when it has a subtype of eight characters that lower-case letter by letter to "checking" |
| Dashboard.CheckingIgnoresCase | frontend/src/components/dashboard/Dashboard.jsx:147 | the subtype "CHECKING" counts as checking |
| Dashboard.OnlyCheckingOpens | frontend/src/components/dashboard/Dashboard.jsx:147 | a savings subtype and a missing subtype do not count as checking |
| Dashboard.OpenPlaidLink | frontend/src/components/dashboard/Dashboard.jsx:114-118 | the page navigates to '/link-account' exactly when a non-empty link token is present |
| Gradient.CharSum | frontend/src/utils/formatters.js:34 | the empty name hashes to 0 |
| Gradient.Hue | frontend/src/utils/formatters.js:34-35 | the hue lies in [0, 360), is 0 for the empty name, and differs from the character-code sum by a multiple of 360 |
| Gradient.GradientByName | frontend/src/utils/formatters.js:33-48 | every hue used lies in [0, 360); the icon, the first background stop and the first border stop share the name's hue; the second stops are shifted by 30 and 40 |
| Gradient.CharSumAppend | frontend/src/utils/formatters.js:34 | the hash of a concatenation is the sum of the hashes |
| Gradient.CharSumPermutation | frontend/src/utils/formatters.js:34 | the hash depends only on the multiset of characters |
| Gradient.GradientPermutationInvariant | frontend/src/utils/formatters.js:33-48 | names that are rearrangements of each other get the same colours |
| Gradient.HueAppend | frontend/src/utils/formatters.js:34-35 | the hue of a concatenation is the sum of the parts' hues modulo 360 |
| Cards.Toggled | frontend/src/components/Cards.js:201 | only an active card becomes locked; any other status becomes active |
| Cards.ToggleCardLock | frontend/src/components/Cards.js:198-204 | length and order are kept, cards with another id are unchanged, and each card with the id has its status toggled and nothing else changed |
| Cards.UnknownIdChangesNothing | frontend/src/components/Cards.js:199-203 | an id matching no card leaves the list as it was |
| Cards.ToggleTwice | frontend/src/components/Cards.js:201 | toggling twice restores the list exactly when every toggled card was active or locked; a card in any other status comes back locked |
| Cards.ShowRewards | frontend/src/components/Cards.js:692-695 | points are shown exactly when they are positive; otherwise the cashback is shown |
| Analytics.ChartData | frontend/src/components/Analytics.js:212-214 | 'monthly' selects the twelve-point series; any other range the seven-point weekly series |
| Analytics.TimeRangeChange | frontend/src/components/Analytics.js:195-199 | a null selection keeps the range; any other value becomes the range |
| Analytics.ComputeTotals | frontend/src/components/Analytics.js:217-225 | net cash is income minus expenses, and an empty series gives zero totals |
| Analytics.NetCashIsSumOfNets | frontend/src/components/Analytics.js:217-225 | net cash equals the sum of the per-point differences |
| Analytics.MonthlyTotals | frontend/src/components/Analytics.js:101-114 | worked example on the fixed sample: the monthly view shows income 54270, expenses 46250 and net 8020 |
| Analytics.WeeklyTotals | frontend/src/components/Analytics.js:116-124 | worked example on the fixed sample: the weekly view shows income 5990, expenses 5700 and net 290 |
| AllTransactionsTab.ColorIndex | frontend/src/components/dashboard/transactions-tabs/AllTransactionsTab.jsx:99-103 | the chip colour index is the first character's code modulo 8, or 0, and always a valid index into the palette |
| AllTransactionsTab.Description | frontend/src/components/dashboard/transactions-tabs/AllTransactionsTab.jsx:90 | the description is the merchant name when present, else the name |
| AllTransactionsTab.ChipOf | frontend/src/components/dashboard/transactions-tabs/AllTransactionsTab.jsx:93-122 | a transaction gets a coloured chip with its own label exactly when its category is non-empty; otherwise the chip reads "Uncategorized" |
| AllTransactionsTab.RowOf | frontend/src/components/dashboard/transactions-tabs/AllTransactionsTab.jsx:124-139 | the figure shown is non-negative, and the inflow colour and down arrow appear exactly for negative amounts |
| AllTransactionsTab.RowKeepsAmount | frontend/src/components/dashboard/transactions-tabs/AllTransactionsTab.jsx:127-139 | the figure and the arrow together give back the signed amount |
| AllTransactionsTab.Rows | frontend/src/components/dashboard/transactions-tabs/AllTransactionsTab.jsx:77 | there is one row per transaction, in input order |
| AllTransactionsTab.RowsKeepAmounts | frontend/src/components/dashboard/transactions-tabs/AllTransactionsTab.jsx:77-139 | reading the rows back gives the input amounts in input order |
| AllTransactionsTab.ChipColorByFirstChar | frontend/src/components/dashboard/transactions-tabs/AllTransactionsTab.jsx:99-103 | categories with the same first character get the same chip colour |
| Register.Line | frontend/src/components/Register.js:55 | each error line starts with its key followed by ": " |
| Register.Lines | frontend/src/components/Register.js:54-55 | one line per error entry, in entry order |
| Register.ErrorMessage | frontend/src/components/Register.js:50-59 | an absent or empty error shows 'Registration failed'; a non-empty text is shown as is; an empty object shows "" |
| Register.ErrorLinesRoundTrip | frontend/src/components/Register.js:53-56 | an object error's message splits on newlines back into its lines, one per entry, when no key or value contains a newline |
| Register.Submit | frontend/src/components/Register.js:27-64 | mismatched passwords set 'Passwords do not match' without calling register; a success navigates to '/dashboard' with tokens or '/login' without; a failure shows the formatted error and stops loading |
| Register.SubmitNavigatesIffSuccess | frontend/src/components/Register.js:31-63 | a submit navigates exactly when the passwords agree and registration succeeds; otherwise an error is shown and loading is off, unless the password check stopped the submit first |
| Register.TwoEntryFormat | frontend/src/components/Register.js:54-56 | a two-entry object error reads `k1: a, b` newline `k2: c` |
| ApiClient.EncodeChar | frontend/src/utils/api.js:155-160 | unreserved characters are written unchanged, a space as '+', anything else as '%' triples; only encoded-alphabet characters appear, and the output reads back (DecodeFirst: '%XX' triples taken as UTF-8 bytes) as exactly that character over exactly its own length |
| ApiClient.Utf8RoundTrip | frontend/src/utils/api.js:155-160 | the bytes behind the '%XX' triples are the character's UTF-8 encoding: the lead byte gives the sequence length and the bytes spell the code point |
| ApiClient.Encode | frontend/src/utils/api.js:155-160 | an encoding uses only the encoded alphabet, is empty exactly when the input is, and decodes back to the input |
| ApiClient.EncodeInjective | frontend/src/utils/api.js:155-160 | two different values never share an encoding |
| ApiClient.EncodeUnreserved | frontend/src/utils/api.js:157 | a string of unreserved characters is its own encoding |
| ApiClient.EncodePair | frontend/src/utils/api.js:157-160 | an encoded `key=value` pair contains '=' and neither '&' nor '?' |
| ApiClient.EncodePairs | frontend/src/utils/api.js:156-160 | one encoded pair per parameter, in order |
| ApiClient.QueryStringSplits | frontend/src/utils/api.js:160 | a non-empty query string splits on '&' back into one piece per parameter |
| ApiClient.KeptFilters | frontend/src/utils/api.js:156-158 | exactly the filters with a non-empty value are kept, each as many times as it occurs, and no other |
| ApiClient.KeptFiltersAppend | frontend/src/utils/api.js:156-158 | keeping filters from two lists side by side gives the two kept lists side by side, so the order of `Object.entries` is kept |
| ApiClient.KeptFiltersSingle | frontend/src/utils/api.js:156-158 | a single filter is kept exactly when its value is non-empty |
| ApiClient.TransactionsUrl | frontend/src/utils/api.js:152-161 | the URL starts with the transactions path and carries a '?' exactly when some filter has a value (the query's content is in TransactionsUrlSpec) |
| ApiClient.QueryStringShape | frontend/src/utils/api.js:160-161 | the query string is empty exactly when there are no parameters, and never contains '?' |
| ApiClient.TransactionsUrlSpec | frontend/src/utils/api.js:155-161 | the URL has a '?' exactly when some filter has a value, and the query then lists exactly the kept filters in order |
| ApiClient.SingleParameterQuery | frontend/src/utils/api.js:173-178 | a one-parameter query with a plain key is `key=` followed by the encoded value |
| ApiClient.MockTransactionsUrl | frontend/src/utils/api.js:170-179 | the mock URL starts with the mock path and carries a '?' exactly when an account id is given |
| ApiClient.MockTransactionsUrlWithoutId | frontend/src/utils/api.js:170-179 | without an account id the mock URL has no query |
| ApiClient.MockTransactionsUrlWithId | frontend/src/utils/api.js:173-179 | with an account id the mock URL carries `account_id=` and the encoded id, and nothing else |
| ApiClient.SetAuthToken | frontend/src/utils/api.js:7-15 | a non-empty token is stored and sent as "Bearer " + token; anything else removes both |
| ApiClient.LogoutUser | frontend/src/utils/api.js:93-96 | logout leaves no token, no refresh token and no header, and keeps every other stored key |
| ApiClient.CheckUserAuth | frontend/src/utils/api.js:98-103 | the user counts as authenticated exactly when a non-empty token is stored |
| ApiClient.LogoutUnauthenticates | frontend/src/utils/api.js:93-103 | after a logout the user is never authenticated |
| ApiClient.LoginUser | frontend/src/utils/api.js:26-79 | a successful login stores both tokens and sets the header; a failure the interceptor leaves alone changes nothing and reports the detail or 'Login failed'; with the corrected interceptor (see Left out), a 401 while a refresh token is stored removes both tokens and returns the '/login' redirect, unless the refresh answers 2xx but not 200, which changes nothing and reports 'Login failed'; no other case redirects |
| ApiClient.FailedLoginCanLogOut | frontend/src/utils/api.js:26-79 | a wrong password while both tokens are stored leaves the user logged out and redirected to '/login' once the refresh succeeds and the repeated login fails |
| ApiClient.LoginThenLogout | frontend/src/utils/api.js:62-103 | after a login the user is authenticated, and a logout afterwards removes both tokens and the header |
| ApiClient.OnError | frontend/src/utils/api.js:26-56 | with the refresh request left out of the interceptor: a refresh is tried only on a 401 for a request not yet retried while a refresh token is stored; a 200 refresh with a successful retry stores the new token, sets the new header on both the session and the marked request; a 2xx refresh other than 200 changes nothing; a rejected refresh, whatever its status, or a failed retry removes both tokens, keeps every other key and redirects to '/login' |
| ApiClient.RefreshAtMostOnce | frontend/src/utils/api.js:31-32 | the retried request never qualifies for a second refresh |
| ApiClient.RefreshOnlyOn401 | frontend/src/utils/api.js:31-54 | the interceptor does anything other than pass the error on exactly when status is 401, the request is not yet retried and is not the refresh itself, and a refresh token is stored |
| ApiClient.RejectedRefreshLogsOut | frontend/src/utils/api.js:34-52 | the refresh request's own rejection passes the interceptor untouched, so a refresh rejected with any status, 401 included, removes both tokens and redirects |
| ApiClient.RefreshChainAsWritten | frontend/src/utils/api.js:26-56 | as written, with the refresh request inside the interceptor: the session is logged out exactly when some refresh answer is not a 401, and is otherwise unchanged |
| ApiClient.RefreshLoopsOn401 | frontend/src/utils/api.js:31-36 | as written, any number of 401 refresh answers leave the tokens in place and another refresh pending |
| Strings.NatToString | frontend/src/utils/chartHelpers.js:26 | a decimal rendering is non-empty and all digits, and has one digit exactly for numbers below ten |
| Strings.ParseNatOfNatToString | frontend/src/utils/chartHelpers.js:45-47 | reading a rendered number back gives the number |
| Strings.NatToStringInjective | frontend/src/utils/chartHelpers.js:26 | distinct numbers render differently |
| Strings.Split | frontend/src/utils/chartHelpers.js:45 | `split` always returns at least one piece |
| Strings.SplitJoin | frontend/src/components/Register.js:54-56 | splitting a join on a separator that no piece contains gives the pieces back |
| Strings.ToLower | frontend/src/components/Transactions.js:247 | ASCII lower-casing: it keeps the length, turns 'A'-'Z' into 'a'-'z' and leaves every other character alone |
| Strings.ContainsIff | frontend/src/components/Transactions.js:247 | `includes` holds exactly when the needle occurs at some position |
| Strings.StrLeTotal | frontend/src/components/Transactions.js:276-279 | any two names are ordered one way or the other |
| Strings.StrLeTransitive | frontend/src/components/Transactions.js:276-279 | the name order is transitive |
| FinanceViews.UserAccounts | backend/finances/views.py:188-189 | a user's accounts are exactly the accounts whose item belongs to that user |
| FinanceViews.TransactionsList | backend/finances/views.py:179-204 | the listing holds exactly the user's transactions, narrowed by account id, inclusive start and end dates and category when each is given |
| FinanceViews.DropAccount | backend/finances/views.py:231-235 | removing an account removes it and exactly its transactions, and keeps every other row unchanged |
| FinanceViews.UnlinkAccount | backend/finances/views.py:209-254 | a missing account is 404 and another user's is 403, both changing nothing; otherwise the account and its transactions go, and its item goes exactly when that was its only account |
| FinanceViews.UnlinkAccountKeepsValid | backend/finances/views.py:224-249 | unlinking keeps every foreign key pointing at an existing row |
| FinanceViews.UnlinkedAccountListsNothing | backend/finances/views.py:232-235 | after a successful unlink the listing for that account is empty |
| FinanceViews.UnlinkAllAccounts | backend/finances/views.py:259-284 | with no items the store is unchanged and the answer is "No accounts to unlink"; otherwise exactly the user's items, accounts and transactions go, everything else is unchanged, and the message counts the user's accounts before the delete |
| FinanceViews.UnlinkAllEmptiesListing | backend/finances/views.py:273-279 | unlinking everything keeps the store consistent and leaves the user nothing to list, whatever the filters |
| FinanceViews.UnlinkAllSparesOthers | backend/finances/views.py:265-279 | another user's listing is the same before and after |
| FinanceViews.ImportedCategory | backend/finances/views.py:159 | an imported row's category is the first element of the bank's category path, or 'Uncategorized' when the path is empty |
| FinanceViews.ImportRows | backend/finances/views.py:147-161 | at most one row per bank transaction, each pointing at one of the item's accounts and carrying a category |
| FinanceViews.ImportRowsSpec | backend/finances/views.py:150-160 | exactly the transactions of known accounts are imported, one row each, in order, with the mapped account, the bank's id, amount, date and name, and the first category |
| FinanceViews.ExchangeGuard | backend/finances/views.py:64-67 | a missing or empty public token is answered 400 "Missing public_token" and nothing changes; otherwise the request goes on |

## Left out

- Rendering: all React and MUI layout, charts, dialogs, drawers and styling. `formatCurrency`, `formatDate` and `toLocaleString` are locale formatting and are not modelled.
- The bank API: link-token creation, the public-token exchange itself, and the account and transaction fetches. These are network calls. Only the guard before them and the rule that turns fetched transactions into rows are modelled. The import takes the item's accounts, keyed by the bank's account id, as a parameter.
- Frameworks: axios, the ORM, the REST framework's serializers, authentication and URL routing. The database is three maps. Browser storage is a map. The `window.location` redirect becomes a returned path.
- Floating point: amounts are integer cents, matching the two-decimal database field. JavaScript float sums, percentages and `toFixed` are not modelled. The average is a Dafny `real`. The analytics sample series are kept in whole dollars, as written.
- Amounts sent as strings: numeric amounts are assumed throughout. That is why the `-= -amount` and `+= amount` spellings agree (MonthBuckets.GroupSpellingIrrelevant).
- Date handling: dates arrive parsed as (year, month, day). Time zones, `new Date` month arithmetic and the time of day a date picker attaches to its bound are not modelled.
- Asynchrony: timers, effect scheduling and the mounted-component guards are not modelled. The backend's and bank's replies are parameters.
- The duplicate response interceptor installed by the app's entry module is not modelled; the one in the API helpers is.
- The copies of `getGradientByName` in the accounts page, the accounts section and the unlink dialog are verbatim copies of the one modelled.
- UnlinkAllAccounts' 500 answer on an unexpected exception, and the 400 answers the exchange endpoint gives when the bank call fails, are not modelled.
- CategoryTally.Tally: keeps keys in first-seen order. JavaScript lists integer-like keys first. Only the order after sorting by value is claimed, plus the permutation of the totals. The order among equal values is not.
- TransactionsView.Sort: names are compared by character code where the source uses `localeCompare`.
- TransactionsView.Filter: `toLowerCase` is modelled on ASCII letters only.
- Strings.ToLower: lower-cases ASCII letters only. JavaScript's `toLowerCase` also maps other letters, and not always one character to one: 'İ' (U+0130) becomes two characters.
- Dashboard.AccountClick: relies on the ASCII `toLowerCase`. A subtype spelled with the Kelvin sign (U+212A), which JavaScript lower-cases to 'k', opens the dialog in the dashboard but not in the model; Dashboard.IsChecking has the same gap.
- CategoryTally.Tally: a category named after an `Object.prototype` member is not modelled. For "constructor" the `!totals[category]` test finds the inherited function, so the total is never set to 0 and becomes NaN, and the outflow-only object may lack the key, contrary to CategoryTally.SignedAndOutflowKeysAgree; "__proto__" is dropped. The overview tab and the categories tab share this; the chart helpers' one-character keys do not.
- TransactionsView.CategoryColor: the colour table is likewise an object, so `categoryMap["constructor"]` yields a function rather than '#6993FF'; the model looks names up in the listed entries only.
- TransactionsView.UniqueCategories: `null` and `undefined` categories are one value (None), where a JavaScript `Set` keeps both.
- TransactionsView.ChangeDates: both pickers are set in one call; each picker sets its own bound in the source.
- TransactionsView.ChangeRowsPerPage: the value arrives already parsed; `parseInt` of the selected string is not modelled.
- AllTransactionsTab.ColorIndex: uses the character's scalar value. `charCodeAt` reads a UTF-16 code unit, and the two differ outside the Basic Multilingual Plane.
- Gradient.CharSum: the same UTF-16 difference applies.
- ApiClient.Encode: a lone surrogate is not distinguished; characters are Unicode scalar values.
- Dashboard.TotalBalance: `parseFloat` is not modelled; a balance arrives already classified as falsy, a number in cents, or unparsable.
- Register.ErrorMessage: an error that is a number, an array or another non-string, non-object value is not modelled.
- ApiClient.OnError: a 200 refresh reply without an `access` field, which would store the text "undefined", is not modelled.
- ApiClient.OnError: models the interceptor with the refresh request left out of it (see "## Findings"). As written, a refresh answered with 401 re-enters the interceptor; ApiClient.RefreshChainAsWritten models that chain for rejected refreshes only, not a nested refresh that succeeds and retries the refresh request.
- ApiClient.LoginUser: the repeated login carries the same credentials and is taken to fail as the first did. The login is modelled over the corrected interceptor `OnError`: a refresh rejected with 401 logs out and redirects to '/login' in the model, while the program as written (frontend/src/utils/api.js:31-52) sends that 401 back through the interceptor, keeps posting refreshes, and the login never settles (`RefreshLoopsOn401`).
- FinanceViews.TransactionsList: the listing is a set of keys. The order the database returns rows in is not modelled, nor is an account id that is not a number.
- FinanceViews.ImportRows: two accounts of one item sharing a bank id (the dictionary keeps the last) is outside the model, since the map is a parameter.
- ChartHelpers.ProcessCategoryData: the category is a string as the backend sends it. An array-valued category, where `category?.[0]` would be its first element, is not modelled. The key is the first Unicode scalar, while JavaScript takes the first UTF-16 code unit: "😀 Fun" and "😎 Cool" share the key "\uD83D" in JavaScript (a lone surrogate) but get two keys in the model.

## Findings

| source | as written | input that shows it | evidently intended | confidence | as-written member | corrected member |
|---|---|---|---|---|---|---|
| frontend/src/utils/api.js:31-52 | the refresh POST goes through the same global interceptor, so its rejection is seen there before the `.catch` that logs out; a 401 from the refresh endpoint is an unmarked 401 while 'refreshToken' is still stored, and posts another refresh | a stored refresh token that has expired, so that every refresh answers 401 | a failed refresh, whatever its status, removes both tokens and redirects to '/login' | medium, not executed | ApiClient.RefreshLoopsOn401 | ApiClient.RejectedRefreshLogsOut |

=== FILE: all_transactions_tab.dfy ===
/** The "all transactions" tab: one table row per transaction, with the description,
    category chip and amount styling rules. */
module AllTransactionsTab {
  import opened Wrappers
  import opened Ledger

  const Colors: seq<string> := ["#6993FF", "#69E7FF", "#86D9B9", "#B5A8FF", "#FFC677", "#FF9C9C", "#A3A1FB", "#76EEF1"]

  const UncategorizedLabel: string := "Uncategorized"
  const InflowColor: string := "#4E8CB8"
  const OutflowColor: string := "#B84E6C"

  /** A category chip: its own text and a palette colour, or the grey fallback. */
  datatype Chip = CategoryChip(text: string, color: string) | UncategorizedChip

  /** The text a chip displays. */
  function ChipLabel(c: Chip): string
  {
    match c
    case CategoryChip(text, _) => text
    case UncategorizedChip => UncategorizedLabel
  }

  datatype Row = Row(
    date: Date,
    description: string,
    chip: Chip,
    displayAmount: int,
    amountColor: string,
    arrowDown: bool)

  /** `category[0].charCodeAt(0) % COLORS.length`, or 0 without a first character. */
  function ColorIndex(category: string): (r: nat)
    ensures r < |Colors|
    ensures |category| > 0 ==> r == (category[0] as int) % |Colors|
    ensures |category| == 0 ==> r == 0
  {
    if |category| > 0 then (category[0] as int) % |Colors| else 0
  }

  /** `merchant_name || name`. */
  function Description(t: Txn): (r: string)
    ensures t.merchantName != "" ==> r == t.merchantName
    ensures t.merchantName == "" ==> r == t.name
  {
    if t.merchantName != "" then t.merchantName else t.name
  }

  function ChipOf(t: Txn): (r: Chip)
    ensures r.CategoryChip? <==> HasCategory(t)
    ensures r.CategoryChip? ==> r.color in Colors
    ensures ChipLabel(r) == if HasCategory(t) then t.category.value else UncategorizedLabel
  {
    if HasCategory(t) then CategoryChip(t.category.value, Colors[ColorIndex(t.category.value)])
    else UncategorizedChip
  }

  /** The row shown for one transaction. */
  function RowOf(t: Txn): (r: Row)
    ensures r.displayAmount >= 0
    ensures r.arrowDown <==> t.amount < 0
    ensures r.amountColor == (if t.amount < 0 then InflowColor else OutflowColor)
  {
    Row(t.date, Description(t), ChipOf(t), Abs(t.amount), if t.amount < 0 then InflowColor else OutflowColor,
        t.amount < 0)
  }

  /** The signed amount a reader recovers from the figure and the arrow. */
  function SignedAmount(r: Row): int
  {
    if r.arrowDown then -r.displayAmount else r.displayAmount
  }

  /** The figure and the arrow together lose nothing: the signed amount comes back. */
  lemma {:induction false} RowKeepsAmount(t: Txn)
    ensures SignedAmount(RowOf(t)) == t.amount
  {
  }

  /** The `map` over the transactions. */
  function Rows(ts: seq<Txn>): (r: seq<Row>)
    ensures |r| == |ts|
    ensures forall i | 0 <= i < |ts| :: r[i] == RowOf(ts[i])
  {
    if |ts| == 0 then [] else [RowOf(ts[0])] + Rows(ts[1..])
  }

  /** Reading every row back gives the input amounts in input order. */
  lemma {:induction false} RowsKeepAmounts(ts: seq<Txn>)
    ensures forall i | 0 <= i < |ts| :: SignedAmount(Rows(ts)[i]) == ts[i].amount
  {
  }

  /** The chip a first character picks does not depend on the rest of the label. */
  lemma {:induction false} ChipColorByFirstChar(a: Txn, b: Txn)
    requires HasCategory(a) && HasCategory(b)
    requires a.category.value[0] == b.category.value[0]
    ensures ChipOf(a).color == ChipOf(b).color
  {
  }
}

=== FILE: analytics.dfy ===
/** The analytics page's income/expense chart: the series chosen by the time-range
    toggle and the totals shown above it. The series are fixed sample data in whole
    dollars. */
module Analytics {
  import opened Wrappers

  datatype Point = Point(name: string, income: int, expenses: int)

  const MonthlySeries: seq<Point> := [
    Point("Jan", 4200, 3800), Point("Feb", 4300, 3600), Point("Mar", 4250, 3900),
    Point("Apr", 4500, 3950), Point("May", 4320, 3850), Point("Jun", 4650, 3700),
    Point("Jul", 4800, 4100), Point("Aug", 4700, 4000), Point("Sep", 4550, 3800),
    Point("Oct", 4400, 3600), Point("Nov", 4600, 3750), Point("Dec", 5000, 4200)]

  const WeeklySeries: seq<Point> := [
    Point("Mon", 950, 820), Point("Tue", 890, 750), Point("Wed", 920, 880),
    Point("Thu", 980, 840), Point("Fri", 1100, 950), Point("Sat", 650, 780),
    Point("Sun", 500, 680)]

  /** The toggle starts on the monthly view. */
  const InitialRange: string := "monthly"

  /** `chartData`: anything but "monthly" selects the weekly series. */
  function ChartData(timeRange: string): (r: seq<Point>)
    ensures timeRange == "monthly" ==> |r| == 12 && r == MonthlySeries
    ensures timeRange != "monthly" ==> |r| == 7 && r == WeeklySeries
  {
    if timeRange == "monthly" then MonthlySeries else WeeklySeries
  }

  /** `handleTimeRangeChange`: a click that deselects the toggle delivers null, which
      is ignored. */
  function TimeRangeChange(current: string, newRange: Option<string>): (r: string)
    ensures newRange.None? ==> r == current
    ensures newRange.Some? ==> r == newRange.value
  {
    match newRange
    case None => current
    case Some(v) => v
  }

  function SumIncome(ps: seq<Point>): int
  {
    if |ps| == 0 then 0 else SumIncome(ps[..|ps| - 1]) + ps[|ps| - 1].income
  }

  function SumExpenses(ps: seq<Point>): int
  {
    if |ps| == 0 then 0 else SumExpenses(ps[..|ps| - 1]) + ps[|ps| - 1].expenses
  }

  datatype Totals = Totals(income: int, expenses: int, netCash: int)

  /** `totals`: the two `reduce` sums and their difference. */
  function ComputeTotals(ps: seq<Point>): (r: Totals)
    ensures r.netCash == r.income - r.expenses
    ensures |ps| == 0 ==> r == Totals(0, 0, 0)
  {
    var income := SumIncome(ps);
    var expenses := SumExpenses(ps);
    Totals(income, expenses, income - expenses)
  }

  /** The net of a series is the sum of the per-point nets. */
  function SumNet(ps: seq<Point>): int
  {
    if |ps| == 0 then 0 else ps[0].income - ps[0].expenses + SumNet(ps[1..])
  }

  lemma {:induction false} SumIncomeAppend(a: seq<Point>, b: seq<Point>)
    ensures SumIncome(a + b) == SumIncome(a) + SumIncome(b)
  {
    if |b| == 0 {
      assert a + b == a;
    } else {
      assert (a + b)[..|a + b| - 1] == a + b[..|b| - 1];
      SumIncomeAppend(a, b[..|b| - 1]);
    }
  }

  lemma {:induction false} SumExpensesAppend(a: seq<Point>, b: seq<Point>)
    ensures SumExpenses(a + b) == SumExpenses(a) + SumExpenses(b)
  {
    if |b| == 0 {
      assert a + b == a;
    } else {
      assert (a + b)[..|a + b| - 1] == a + b[..|b| - 1];
      SumExpensesAppend(a, b[..|b| - 1]);
    }
  }

  /** `netCash` adds up the per-point differences: the two separate sums agree with
      a single pass over the points. */
  lemma {:induction false} NetCashIsSumOfNets(ps: seq<Point>)
    ensures ComputeTotals(ps).netCash == SumNet(ps)
  {
    if |ps| > 0 {
      NetCashIsSumOfNets(ps[1..]);
      assert ps == [ps[0]] + ps[1..];
      SumIncomeAppend([ps[0]], ps[1..]);
      SumExpensesAppend([ps[0]], ps[1..]);
      assert [ps[0]][..0] == [];
    }
  }

  /** The sums of a three-point series, written out. */
  lemma {:induction false} SumsOfThree(ps: seq<Point>)
    requires |ps| == 3
    ensures SumIncome(ps) == ps[0].income + ps[1].income + ps[2].income
    ensures SumExpenses(ps) == ps[0].expenses + ps[1].expenses + ps[2].expenses
  {
    var one, two := ps[..1], ps[..2];
    assert one[..0] == [] && one[0] == ps[0];
    assert SumIncome(one) == ps[0].income && SumExpenses(one) == ps[0].expenses;
    assert two[..1] == one && two[1] == ps[1];
    assert SumIncome(two) == ps[0].income + ps[1].income;
    assert SumExpenses(two) == ps[0].expenses + ps[1].expenses;
    assert ps[..2] == two;
  }

  /** The sums of a series cut into three-point pieces. */
  lemma {:induction false} SumsOfPieces(a: seq<Point>, b: seq<Point>, c: seq<Point>, d: seq<Point>)
    ensures SumIncome(a + b + c + d) == SumIncome(a) + SumIncome(b) + SumIncome(c) + SumIncome(d)
    ensures SumExpenses(a + b + c + d) == SumExpenses(a) + SumExpenses(b) + SumExpenses(c) + SumExpenses(d)
  {
    SumIncomeAppend(a, b);
    SumIncomeAppend(a + b, c);
    SumIncomeAppend(a + b + c, d);
    SumExpensesAppend(a, b);
    SumExpensesAppend(a + b, c);
    SumExpensesAppend(a + b + c, d);
  }

  /** Worked example: the figures the page shows for its fixed monthly sample. */
  lemma {:induction false} MonthlyTotals()
    ensures ComputeTotals(ChartData("monthly")) == Totals(54270, 46250, 8020)
  {
    var s := MonthlySeries;
    assert s == s[..3] + s[3..6] + s[6..9] + s[9..];
    SumsOfPieces(s[..3], s[3..6], s[6..9], s[9..]);
    SumsOfThree(s[..3]);
    SumsOfThree(s[3..6]);
    SumsOfThree(s[6..9]);
    SumsOfThree(s[9..]);
  }

  /** Worked example: the figures the page shows for its fixed weekly sample. */
  lemma {:induction false} WeeklyTotals()
    ensures ComputeTotals(ChartData("weekly")) == Totals(5990, 5700, 290)
  {
    var s := WeeklySeries;
    assert s == s[..3] + s[3..6] + s[6..] + [];
    SumsOfPieces(s[..3], s[3..6], s[6..], []);
    SumsOfThree(s[..3]);
    SumsOfThree(s[3..6]);
    assert s[6..] == [s[6]];
  }
}

=== FILE: api_client.dfy ===
/** The frontend's API helpers: the query strings of the transaction requests, the
    session token kept in the browser's storage and the request header, and the rule
    that refreshes an expired token once. The browser's `localStorage` is a map from
    keys to strings; the shared `Authorization` header is an optional string. */
module ApiClient {
  import opened Wrappers
  import opened Strings

  // ---------------------------------------------------------------------------
  // Query strings
  // ---------------------------------------------------------------------------

  predicate IsAsciiAlnum(c: char)
  {
    ('a' <= c <= 'z') || ('A' <= c <= 'Z') || ('0' <= c <= '9')
  }

  /** Characters `URLSearchParams` writes unchanged. */
  predicate Unreserved(c: char)
  {
    IsAsciiAlnum(c) || c == '*' || c == '-' || c == '.' || c == '_'
  }

  /** Characters that can appear in an encoded key or value. */
  predicate EncodedChar(c: char)
  {
    Unreserved(c) || c == '+' || c == '%'
  }

  function HexDigit(n: nat): (c: char)
    requires n < 16
    ensures IsAsciiAlnum(c)
  {
    "0123456789ABCDEF"[n]
  }

  /** `%XX` for one byte, upper-case hex. */
  function PercentByte(b: nat): (r: string)
    requires b < 256
    ensures |r| == 3 && r[0] == '%'
    ensures forall i | 0 <= i < |r| :: EncodedChar(r[i])
  {
    ['%', HexDigit(b / 16), HexDigit(b % 16)]
  }

  /** The UTF-8 bytes of one character. */
  function Utf8(c: char): (r: seq<nat>)
    ensures 1 <= |r| <= 4
    ensures forall i | 0 <= i < |r| :: r[i] < 256
    ensures (c as int < 0x80) <==> |r| == 1
  {
    var n := c as int;
    if n < 0x80 then [n]
    else if n < 0x800 then [0xC0 + n / 64, 0x80 + n % 64]
    else if n < 0x10000 then [0xE0 + n / 4096, 0x80 + (n / 64) % 64, 0x80 + n % 64]
    else [0xF0 + n / 262144, 0x80 + (n / 4096) % 64, 0x80 + (n / 64) % 64, 0x80 + n % 64]
  }

  function PercentBytes(bs: seq<nat>): (r: string)
    requires forall i | 0 <= i < |bs| :: bs[i] < 256
    ensures |r| == 3 * |bs|
    ensures forall i | 0 <= i < |r| :: EncodedChar(r[i])
  {
    if |bs| == 0 then "" else PercentByte(bs[0]) + PercentBytes(bs[1..])
  }

  /** The `application/x-www-form-urlencoded` form of one character: it reads back as
      exactly that character, and nothing more. */
  function EncodeChar(c: char): (r: string)
    ensures Unreserved(c) ==> r == [c]
    ensures c == ' ' ==> r == "+"
    ensures !Unreserved(c) && c != ' ' ==> |r| >= 3 && r[0] == '%'
    ensures forall i | 0 <= i < |r| :: EncodedChar(r[i])
    ensures DecodeFirst(r) == Some((c, |r|))
  {
    var r := if Unreserved(c) then [c] else if c == ' ' then "+" else PercentBytes(Utf8(c));
    assert DecodeFirst(r) == Some((c, |r|)) by {
      DecodeEncodeChar(c, "");
      assert r + "" == r;
    }
    r
  }

  /** The encoding of a string reads back as that string, so two different filter
      values never share an encoding (EncodeInjective). */
  function Encode(s: string): (r: string)
    ensures forall i | 0 <= i < |r| :: EncodedChar(r[i])
    ensures |s| == 0 <==> |r| == 0
    ensures Decode(r) == Some(s)
    decreases |s|
  {
    if |s| == 0 then ""
    else
      var head := EncodeChar(s[0]);
      var rest := Encode(s[1..]);
      DecodeEncodeChar(s[0], rest);
      assert (head + rest)[|head|..] == rest;
      assert [s[0]] + s[1..] == s;
      head + rest
  }

  lemma {:induction false} EncodeInjective(s: string, t: string)
    requires Encode(s) == Encode(t)
    ensures s == t
  {
  }

  // ---------------------------------------------------------------------------
  // Reading an encoding back
  // ---------------------------------------------------------------------------

  /** The value of one hexadecimal digit, either case. */
  function HexValue(c: char): (r: Option<nat>)
    ensures r.Some? ==> r.value < 16
  {
    if '0' <= c <= '9' then Some(c as nat - '0' as nat)
    else if 'A' <= c <= 'F' then Some(c as nat - 'A' as nat + 10)
    else if 'a' <= c <= 'f' then Some(c as nat - 'a' as nat + 10)
    else None
  }

  lemma {:induction false} HexRoundTrip(n: nat)
    requires n < 16
    ensures HexValue(HexDigit(n)) == Some(n)
  {
    var digits := "0123456789ABCDEF";
    if n < 10 {
      assert digits[n] as nat == '0' as nat + n by {
        assert digits[0] == '0' && digits[1] == '1' && digits[2] == '2' && digits[3] == '3' && digits[4] == '4';
        assert digits[5] == '5' && digits[6] == '6' && digits[7] == '7' && digits[8] == '8' && digits[9] == '9';
      }
    } else {
      assert digits[n] as nat == 'A' as nat + n - 10 by {
        assert digits[10] == 'A' && digits[11] == 'B' && digits[12] == 'C';
        assert digits[13] == 'D' && digits[14] == 'E' && digits[15] == 'F';
      }
    }
  }

  /** The byte written as `%XX` at position `i`, if one is there. */
  function ByteAt(s: string, i: nat): (r: Option<nat>)
    ensures r.Some? ==> r.value < 256 && i + 3 <= |s|
  {
    if i + 3 <= |s| && s[i] == '%' then
      match (HexValue(s[i + 1]), HexValue(s[i + 2]))
      case (Some(hi), Some(lo)) => Some(16 * hi + lo)
      case _ => None
    else None
  }

  /** `k` consecutive `%XX` bytes from the start of `s`. */
  function Bytes(s: string, k: nat): (r: Option<seq<nat>>)
    ensures r.Some? ==> |r.value| == k && 3 * k <= |s|
    ensures r.Some? ==> forall i | 0 <= i < k :: r.value[i] < 256
  {
    if k == 0 then Some([])
    else
      match Bytes(s, k - 1)
      case None => None
      case Some(front) =>
        match ByteAt(s, 3 * (k - 1))
        case None => None
        case Some(b) => Some(front + [b])
  }

  /** How many bytes a UTF-8 sequence with this leading byte has; 0 for a byte that
      cannot lead one. */
  function SequenceLength(lead: nat): nat
  {
    if lead < 0x80 then 1
    else if 0xC0 <= lead < 0xE0 then 2
    else if 0xE0 <= lead < 0xF0 then 3
    else if 0xF0 <= lead < 0xF8 then 4
    else 0
  }

  /** The code point a UTF-8 sequence of one to four bytes stands for. */
  function CodePoint(bs: seq<nat>): int
    requires 1 <= |bs| <= 4
  {
    var b: seq<int> := bs;
    if |b| == 1 then b[0]
    else if |b| == 2 then (b[0] - 0xC0) * 64 + (b[1] - 0x80)
    else if |b| == 3 then (b[0] - 0xE0) * 4096 + (b[1] - 0x80) * 64 + (b[2] - 0x80)
    else (b[0] - 0xF0) * 262144 + (b[1] - 0x80) * 4096 + (b[2] - 0x80) * 64 + (b[3] - 0x80)
  }

  predicate IsScalar(n: int)
  {
    (0 <= n < 0xD800) || (0xE000 <= n < 0x11_0000)
  }

  /** The first character of an encoding and how many characters of it it took: a
      '+' is a space, an unreserved character stands for itself, and `%XX` triples
      spell the UTF-8 bytes of one character. */
  function DecodeFirst(s: string): (r: Option<(char, nat)>)
    ensures r.Some? ==> 1 <= r.value.1 <= |s|
  {
    if |s| == 0 then None
    else if s[0] == '+' then Some((' ', 1))
    else if Unreserved(s[0]) then Some((s[0], 1))
    else
      match ByteAt(s, 0)
      case None => None
      case Some(lead) =>
        var len := SequenceLength(lead);
        if len == 0 then None
        else
          match Bytes(s, len)
          case None => None
          case Some(bs) =>
            var n := CodePoint(bs);
            if IsScalar(n) then Some((n as char, 3 * len)) else None
  }

  /** The whole of an encoding read back, or None when it is not one. */
  function Decode(s: string): Option<string>
    decreases |s|
  {
    if |s| == 0 then Some("")
    else
      match DecodeFirst(s)
      case None => None
      case Some((c, n)) =>
        match Decode(s[n..])
        case None => None
        case Some(t) => Some([c] + t)
  }

  /** The UTF-8 bytes of a character lead with their own length and spell its code
      point. */
  lemma {:induction false} Utf8RoundTrip(c: char)
    ensures SequenceLength(Utf8(c)[0]) == |Utf8(c)|
    ensures CodePoint(Utf8(c)) == c as int
  {
    var n := c as int;
    if n < 0x80 {
    } else if n < 0x800 {
      TwoByteSplit(n);
    } else if n < 0x10000 {
      ThreeByteSplit(n);
    } else {
      FourByteSplit(n);
    }
  }

  lemma {:induction false} TwoByteSplit(n: int)
    requires 0x80 <= n < 0x800
    ensures 0xC0 <= 0xC0 + n / 64 < 0xE0
    ensures (n / 64) * 64 + n % 64 == n
  {
  }

  lemma {:induction false} ThreeByteSplit(n: int)
    requires 0x800 <= n < 0x10000
    ensures 0xE0 <= 0xE0 + n / 4096 < 0xF0
    ensures (n / 4096) * 4096 + ((n / 64) % 64) * 64 + n % 64 == n
  {
    SplitBase64(n);
  }

  lemma {:induction false} FourByteSplit(n: int)
    requires 0x1_0000 <= n < 0x11_0000
    ensures 0xF0 <= 0xF0 + n / 262144 < 0xF8
    ensures (n / 262144) * 262144 + ((n / 4096) % 64) * 4096 + ((n / 64) % 64) * 64 + n % 64 == n
  {
    SplitBase64(n);
    SplitBase64(n / 64);
    assert n / 64 / 64 == n / 4096;
    assert n / 4096 / 64 == n / 262144;
  }

  /** `x` is 64 times its quotient plus its remainder, and the quotient of the quotient
      is the quotient by 4096. */
  lemma {:induction false} SplitBase64(x: int)
    requires x >= 0
    ensures x == (x / 64) * 64 + x % 64
    ensures (x / 64) % 64 == x / 64 - (x / 4096) * 64
  {
    var q, r := x / 64, x % 64;
    var q2, r2 := q / 64, q % 64;
    assert x == 4096 * q2 + (64 * r2 + r);
    assert 0 <= 64 * r2 + r < 4096;
    assert x / 4096 == q2;
  }


  /** The `k`-th triple of a percent-encoded byte string is that byte's `%XX`. */
  lemma {:induction false} PercentBytesAt(bs: seq<nat>, k: nat)
    requires forall i | 0 <= i < |bs| :: bs[i] < 256
    requires k < |bs|
    ensures PercentBytes(bs)[3 * k..3 * k + 3] == PercentByte(bs[k])
  {
    var head := PercentByte(bs[0]);
    var tail := PercentBytes(bs[1..]);
    assert PercentBytes(bs) == head + tail;
    if k > 0 {
      PercentBytesAt(bs[1..], k - 1);
      assert (head + tail)[3 * k..3 * k + 3] == tail[3 * (k - 1)..3 * (k - 1) + 3];
    } else {
      assert (head + tail)[..3] == head;
    }
  }

  /** Reading `k` bytes from a percent-encoded byte string followed by anything gives
      back its first `k` bytes. */
  lemma {:induction false} BytesOfPercent(bs: seq<nat>, rest: string, k: nat)
    requires forall i | 0 <= i < |bs| :: bs[i] < 256
    requires k <= |bs|
    ensures Bytes(PercentBytes(bs) + rest, k) == Some(bs[..k])
  {
    if k > 0 {
      var x := PercentBytes(bs) + rest;
      BytesOfPercent(bs, rest, k - 1);
      TripleAt(bs, rest, k - 1);
      BytesStep(x, k, bs[..k - 1], bs[k - 1]);
      assert bs[..k] == bs[..k - 1] + [bs[k - 1]];
    }
  }

  /** The `k`-th triple of a percent-encoded byte string, followed by anything, reads
      back as the `k`-th byte. */
  lemma {:induction false} TripleAt(bs: seq<nat>, rest: string, k: nat)
    requires forall i | 0 <= i < |bs| :: bs[i] < 256
    requires k < |bs|
    ensures ByteAt(PercentBytes(bs) + rest, 3 * k) == Some(bs[k])
  {
    var p := PercentBytes(bs);
    var i := 3 * k;
    PercentBytesAt(bs, k);
    assert (p + rest)[i..i + 3] == p[i..i + 3];
    ByteAtPercent(p + rest, i, bs[k]);
  }

  lemma {:induction false} BytesStep(x: string, k: nat, front: seq<nat>, b: nat)
    requires k > 0
    requires Bytes(x, k - 1) == Some(front) && ByteAt(x, 3 * (k - 1)) == Some(b)
    ensures Bytes(x, k) == Some(front + [b])
  {
  }

  /** A `%XX` triple at position `i` reads back as its byte. */
  lemma {:induction false} ByteAtPercent(x: string, i: nat, b: nat)
    requires b < 256 && i + 3 <= |x|
    requires x[i..i + 3] == PercentByte(b)
    ensures ByteAt(x, i) == Some(b)
  {
    assert x[i] == '%' && x[i + 1] == HexDigit(b / 16) && x[i + 2] == HexDigit(b % 16);
    HexRoundTrip(b / 16);
    HexRoundTrip(b % 16);
  }

  /** The encoding of one character, followed by anything, reads back as that
      character and takes exactly its own length. */
  lemma {:induction false} DecodeEncodeChar(c: char, rest: string)
    ensures var e := if Unreserved(c) then [c] else if c == ' ' then "+" else PercentBytes(Utf8(c));
      DecodeFirst(e + rest) == Some((c, |e|))
  {
    if !Unreserved(c) && c != ' ' {
      var bs := Utf8(c);
      var x := PercentBytes(bs) + rest;
      Utf8RoundTrip(c);
      BytesOfPercent(bs, rest, 1);
      BytesOfPercent(bs, rest, |bs|);
      assert bs[..|bs|] == bs;
      assert bs[..1] == [bs[0]];
      assert x[0] == '%';
    }
  }

  /** A string made only of unreserved characters is its own encoding. */
  lemma {:induction false} EncodeUnreserved(s: string)
    requires forall i | 0 <= i < |s| :: Unreserved(s[i])
    ensures Encode(s) == s
  {
    if |s| > 0 {
      EncodeUnreserved(s[1..]);
      assert s == [s[0]] + s[1..];
    }
  }

  function EncodePair(p: (string, string)): (r: string)
    ensures '=' in r && '&' !in r && '?' !in r
  {
    var k := Encode(p.0);
    var v := Encode(p.1);
    PairShape(k, v);
    k + "=" + v
  }

  /** Two encoded halves joined by `=` hold one `=` boundary and no `&`. */
  lemma {:induction false} PairShape(k: string, v: string)
    requires forall i | 0 <= i < |k| :: EncodedChar(k[i])
    requires forall i | 0 <= i < |v| :: EncodedChar(v[i])
    ensures '=' in k + "=" + v && '&' !in k + "=" + v && '?' !in k + "=" + v
  {
    var r := k + "=" + v;
    assert r[|k|] == '=';
    forall i | 0 <= i < |r| ensures r[i] != '&' && r[i] != '?' {
      if i < |k| {
        assert r[i] == k[i];
      } else if i > |k| {
        assert r[i] == v[i - |k| - 1];
      }
    }
  }

  function EncodePairs(ps: seq<(string, string)>): (r: seq<string>)
    ensures |r| == |ps|
    ensures forall i | 0 <= i < |ps| :: r[i] == EncodePair(ps[i])
  {
    if |ps| == 0 then [] else [EncodePair(ps[0])] + EncodePairs(ps[1..])
  }

  /** `queryParams.toString()`. */
  function QueryString(ps: seq<(string, string)>): string
  {
    Join(EncodePairs(ps), "&")
  }

  /** The query string splits back into one `key=value` piece per parameter. */
  lemma {:induction false} QueryStringSplits(ps: seq<(string, string)>)
    requires |ps| > 0
    ensures Split(QueryString(ps), '&') == EncodePairs(ps)
  {
    SplitJoin(EncodePairs(ps), '&');
  }

  /** The pairs with a non-empty value, in order. */
  function NonEmptyPairs(ps: seq<(string, string)>): seq<(string, string)>
  {
    if |ps| == 0 then []
    else if ps[0].1 != "" then [ps[0]] + NonEmptyPairs(ps[1..])
    else NonEmptyPairs(ps[1..])
  }

  lemma {:induction false} NonEmptyPairsCounts(ps: seq<(string, string)>)
    ensures |NonEmptyPairs(ps)| <= |ps|
    ensures forall p :: multiset(NonEmptyPairs(ps))[p] == if p.1 != "" then multiset(ps)[p] else 0
  {
    if |ps| > 0 {
      NonEmptyPairsCounts(ps[1..]);
      assert ps == [ps[0]] + ps[1..];
      assert multiset(ps) == multiset{ps[0]} + multiset(ps[1..]);
    }
  }

  lemma {:induction false} NonEmptyPairsAppend(a: seq<(string, string)>, b: seq<(string, string)>)
    ensures NonEmptyPairs(a + b) == NonEmptyPairs(a) + NonEmptyPairs(b)
  {
    if |a| == 0 {
      assert a + b == b;
    } else {
      var ab := a + b;
      assert ab[0] == a[0] && ab[1..] == a[1..] + b;
      NonEmptyPairsAppend(a[1..], b);
    }
  }

  /** The filters `getTransactions` keeps: every filter with a truthy value, as often
      as it occurs, in their original order (KeptFiltersAppend, KeptFiltersSingle). */
  function KeptFilters(filters: seq<(string, string)>): (r: seq<(string, string)>)
    ensures forall p :: p in r <==> p in filters && p.1 != ""
    ensures |r| <= |filters|
    ensures forall p :: multiset(r)[p] == if p.1 != "" then multiset(filters)[p] else 0
  {
    var r := NonEmptyPairs(filters);
    NonEmptyPairsCounts(filters);
    assert forall p :: p in r <==> p in multiset(r);
    assert forall p :: p in filters <==> p in multiset(filters);
    r
  }

  /** Filters are kept part by part, in their original order. */
  lemma {:induction false} KeptFiltersAppend(a: seq<(string, string)>, b: seq<(string, string)>)
    ensures KeptFilters(a + b) == KeptFilters(a) + KeptFilters(b)
  {
    NonEmptyPairsAppend(a, b);
  }

  /** One filter is kept exactly when its value is non-empty. */
  lemma {:induction false} KeptFiltersSingle(p: (string, string))
    ensures KeptFilters([p]) == if p.1 != "" then [p] else []
  {
    assert [p][1..] == [];
    assert NonEmptyPairs([p]) == if p.1 != "" then [p] else [];
  }

  /** `${base}${queryString ? `?${queryString}` : ''}`. */
  function WithQuery(base: string, ps: seq<(string, string)>): string
  {
    var qs := QueryString(ps);
    if qs == "" then base else base + "?" + qs
  }

  const TransactionsPath: string := "/api/transactions/"
  const MockTransactionsPath: string := "/api/mock-transactions/"
  const AccountIdParam: string := "account_id"

  /** The URL `getTransactions` requests: the transactions path, then a query exactly
      when some filter has a value. */
  function TransactionsUrl(filters: seq<(string, string)>): (r: string)
    ensures TransactionsPath <= r
    ensures '?' in r <==> exists p | p in filters :: p.1 != ""
  {
    var kept := KeptFilters(filters);
    WithQueryShape(TransactionsPath, kept);
    assert (exists p | p in filters :: p.1 != "") ==> |kept| > 0 by {
      if exists p | p in filters :: p.1 != "" {
        var p :| p in filters && p.1 != "";
        assert p in kept;
      }
    }
    WithQuery(TransactionsPath, kept)
  }

  /** The URL `getMockTransactions` requests: the mock path, then a query exactly when
      an account id is given. */
  function MockTransactionsUrl(accountId: string): (r: string)
    ensures MockTransactionsPath <= r
    ensures '?' in r <==> accountId != ""
  {
    var ps := if accountId != "" then [(AccountIdParam, accountId)] else [];
    WithQueryShape(MockTransactionsPath, ps);
    WithQuery(MockTransactionsPath, ps)
  }

  /** A base without '?' is kept as the prefix, and a '?' follows exactly when there
      are parameters. */
  lemma {:induction false} WithQueryShape(base: string, ps: seq<(string, string)>)
    requires '?' !in base
    ensures base <= WithQuery(base, ps)
    ensures '?' in WithQuery(base, ps) <==> |ps| > 0
  {
    QueryStringShape(ps);
    var qs := QueryString(ps);
    if qs != "" {
      var r := base + "?" + qs;
      assert r[|base|] == '?';
      assert r[..|base|] == base;
    }
  }

  /** The query string is empty exactly when there are no parameters, and never
      contains a '?'. */
  lemma {:induction false} QueryStringShape(ps: seq<(string, string)>)
    ensures QueryString(ps) == "" <==> |ps| == 0
    ensures '?' !in QueryString(ps)
  {
    var pieces := EncodePairs(ps);
    if |ps| > 0 {
      QueryStringSplits(ps);
      assert '=' in pieces[0];
    }
    JoinFree(pieces, "&", '?');
  }

  /** The transactions URL carries a '?' exactly when some filter has a value, and the
      query lists those filters, and only those, in their original order. */
  lemma {:induction false} TransactionsUrlSpec(filters: seq<(string, string)>)
    ensures '?' in TransactionsUrl(filters) <==> exists p | p in filters :: p.1 != ""
    ensures var kept := KeptFilters(filters);
      |kept| > 0 ==>
        && TransactionsUrl(filters) == TransactionsPath + "?" + QueryString(kept)
        && Split(QueryString(kept), '&') == EncodePairs(kept)
  {
    var kept := KeptFilters(filters);
    QueryStringShape(kept);
    if exists p | p in filters :: p.1 != "" {
      var p :| p in filters && p.1 != "";
      assert p in kept;
      QueryStringSplits(kept);
    }
  }

  /** A one-parameter query whose key needs no escaping. */
  lemma {:induction false} SingleParameterQuery(key: string, value: string)
    requires forall i | 0 <= i < |key| :: Unreserved(key[i])
    ensures QueryString([(key, value)]) == key + "=" + Encode(value)
  {
    var ps := [(key, value)];
    EncodeUnreserved(key);
    assert EncodePairs(ps) == [EncodePair(ps[0])];
  }

  /** Without an account id the mock URL has no query. */
  lemma {:induction false} MockTransactionsUrlWithoutId()
    ensures MockTransactionsUrl("") == MockTransactionsPath
  {
  }

  /** With an account id the mock URL names it, and nothing else. */
  lemma {:induction false} MockTransactionsUrlWithId(accountId: string)
    requires accountId != ""
    ensures MockTransactionsUrl(accountId) == MockTransactionsPath + "?" + (AccountIdParam + "=" + Encode(accountId))
  {
    SingleParameterQuery(AccountIdParam, accountId);
    var qs := QueryString([(AccountIdParam, accountId)]);
    assert qs[0] == 'a';
  }

  // ---------------------------------------------------------------------------
  // Session token
  // ---------------------------------------------------------------------------

  const TokenKey: string := "token"
  const RefreshKey: string := "refreshToken"
  const LoginPath: string := "/login"

  /** The browser storage and the header every request carries. */
  datatype Session = Session(storage: map<string, string>, authHeader: Option<string>)

  /** A stored value that is present and non-empty, as `getItem` tests it. */
  predicate Stored(s: Session, key: string)
  {
    key in s.storage && s.storage[key] != ""
  }

  /** `setAuthToken`: a truthy token is stored and sent; anything else clears both. */
  function SetAuthToken(s: Session, token: Option<string>): (r: Session)
    ensures token.Some? && token.value != "" ==>
      r.authHeader == Some("Bearer " + token.value) && r.storage == s.storage[TokenKey := token.value]
    ensures !(token.Some? && token.value != "") ==>
      r.authHeader.None? && r.storage == s.storage - {TokenKey}
  {
    if token.Some? && token.value != "" then
      Session(s.storage[TokenKey := token.value], Some("Bearer " + token.value))
    else
      Session(s.storage - {TokenKey}, None)
  }

  /** `logoutUser`. */
  function LogoutUser(s: Session): (r: Session)
    ensures TokenKey !in r.storage && RefreshKey !in r.storage && r.authHeader.None?
    ensures forall k | k in s.storage && k != TokenKey && k != RefreshKey :: k in r.storage && r.storage[k] == s.storage[k]
    ensures forall k | k in r.storage :: k in s.storage
  {
    var cleared := SetAuthToken(s, None);
    Session(cleared.storage - {RefreshKey}, cleared.authHeader)
  }

  /** `checkUserAuth`. */
  function CheckUserAuth(s: Session): (r: bool)
    ensures r <==> TokenKey in s.storage && s.storage[TokenKey] != ""
  {
    Stored(s, TokenKey)
  }

  /** A login followed by a logout leaves the user unauthenticated, whatever came
      before. */
  lemma {:induction false} LogoutUnauthenticates(s: Session)
    ensures !CheckUserAuth(LogoutUser(s))
  {
  }

  // ---------------------------------------------------------------------------
  // The 401 refresh rule
  // ---------------------------------------------------------------------------

  const RefreshPath: string := "/api/token/refresh/"
  const TokenPath: string := "/api/token/"

  /** The failing request's config: the path it was sent to, whether it was already
      retried, and its own header. */
  datatype Request = Request(path: string, retried: bool, authHeader: Option<string>)

  /** The refresh endpoint's answer. axios resolves a 2xx answer, so `code` is a 2xx
      code; any other answer, or none at all (status None), is a rejection carrying
      the `detail` of its body. */
  datatype RefreshReply = RefreshOk(code: int, access: string) | RefreshRejected(status: Option<int>, detail: string)

  /** How the interceptor settles the failed request. */
  datatype Settled =
    | PassError                                   // the original error is rethrown
    | Retried(request: Request)                   // the retried request succeeded
    | ResolvedUndefined                           // refresh answered 2xx but not 200
    | LoggedOut(redirect: string)                 // refresh or retry failed

  /** The condition the interceptor tests before trying a refresh. */
  predicate Intercepts(s: Session, status: Option<int>, req: Request)
  {
    status == Some(401) && !req.retried && Stored(s, RefreshKey)
  }

  /** The same condition with the refresh request itself left out, so that a failed
      refresh always reaches the handler that logs out. */
  predicate ShouldRefresh(s: Session, status: Option<int>, req: Request)
  {
    Intercepts(s, status, req) && req.path != RefreshPath
  }

  /** The error interceptor, with the refresh request left out of it. `retryFails`
      says whether the repeated request fails; its failure is caught by the same
      handler as a failed refresh. */
  function OnError(s: Session, status: Option<int>, req: Request, refresh: RefreshReply, retryFails: bool): (r: (Session, Settled))
    ensures !ShouldRefresh(s, status, req) ==> r == (s, PassError)
    ensures r.1.Retried? <==> ShouldRefresh(s, status, req) && refresh.RefreshOk? && refresh.code == 200 && !retryFails
    ensures r.1.Retried? ==>
      && r.1.request == req.(retried := true, authHeader := Some("Bearer " + refresh.access))
      && r.0.storage == s.storage[TokenKey := refresh.access]
      && r.0.authHeader == Some("Bearer " + refresh.access)
    ensures r.1 == ResolvedUndefined <==> ShouldRefresh(s, status, req) && refresh.RefreshOk? && refresh.code != 200
    ensures r.1 == ResolvedUndefined ==> r.0 == s
    ensures r.1.LoggedOut? <==>
      ShouldRefresh(s, status, req) && (refresh.RefreshRejected? || (refresh.code == 200 && retryFails))
    ensures r.1.LoggedOut? ==>
      && r.1.redirect == LoginPath
      && TokenKey !in r.0.storage && RefreshKey !in r.0.storage
      && (forall k | k in s.storage && k != TokenKey && k != RefreshKey :: k in r.0.storage && r.0.storage[k] == s.storage[k])
      && (forall k | k in r.0.storage :: k in s.storage)
  {
    if !ShouldRefresh(s, status, req) then (s, PassError)
    else
      var marked := req.(retried := true);
      match refresh
      case RefreshRejected(_, _) => (Session(s.storage - {TokenKey, RefreshKey}, s.authHeader), LoggedOut(LoginPath))
      case RefreshOk(code, access) =>
        if code != 200 then (s, ResolvedUndefined)
        else
          var header := Some("Bearer " + access);
          var refreshed := Session(s.storage[TokenKey := access], header);
          if retryFails then
            (Session(refreshed.storage - {TokenKey, RefreshKey}, header), LoggedOut(LoginPath))
          else
            (refreshed, Retried(marked.(authHeader := header)))
  }

  /** A request is refreshed at most once: the retried request never qualifies for
      another refresh, whatever it answers and whatever is stored. */
  lemma {:induction false} RefreshAtMostOnce(s: Session, status: Option<int>, req: Request, refresh: RefreshReply,
                          s2: Session, status2: Option<int>)
    requires OnError(s, status, req, refresh, false).1.Retried?
    ensures !ShouldRefresh(s2, status2, OnError(s, status, req, refresh, false).1.request)
  {
  }

  /** A refresh is attempted only for a 401 on a request not yet retried, other than
      the refresh itself, while a refresh token is stored; any other failure passes
      through untouched. */
  lemma {:induction false} RefreshOnlyOn401(s: Session, status: Option<int>, req: Request, refresh: RefreshReply, retryFails: bool)
    ensures OnError(s, status, req, refresh, retryFails).1 != PassError <==>
      status == Some(401) && !req.retried && req.path != RefreshPath && Stored(s, RefreshKey)
  {
  }

  /** A rejected refresh logs the session out whatever status it was rejected with:
      its own rejection passes the interceptor untouched, and the handler then removes
      both tokens and redirects. */
  lemma {:induction false} RejectedRefreshLogsOut(s: Session, status: Option<int>, req: Request,
                                                  rejected: Option<int>, detail: string, retryFails: bool,
                                                  header: Option<string>, next: RefreshReply)
    requires ShouldRefresh(s, status, req)
    ensures OnError(s, rejected, Request(RefreshPath, false, header), next, retryFails) == (s, PassError)
    ensures var r := OnError(s, status, req, RefreshRejected(rejected, detail), retryFails);
      r.1 == LoggedOut(LoginPath) && TokenKey !in r.0.storage && RefreshKey !in r.0.storage
  {
  }

  /** The interceptor as written: the refresh request goes through it too, and its
      rejection meets it before the handler that logs out. A 401 while the refresh
      token is still stored therefore posts yet another refresh. `answers` are the
      statuses of the refresh endpoint's successive rejections; the result's flag says
      whether the session was logged out, or is still waiting on one more refresh. */
  function RefreshChainAsWritten(s: Session, answers: seq<Option<int>>): (r: (Session, bool))
    requires Stored(s, RefreshKey)
    ensures r.1 <==> exists i | 0 <= i < |answers| :: answers[i] != Some(401)
    ensures r.1 ==> TokenKey !in r.0.storage && RefreshKey !in r.0.storage
    ensures !r.1 ==> r.0 == s
  {
    if |answers| == 0 then (s, false)
    else if Intercepts(s, answers[0], Request(RefreshPath, false, s.authHeader)) then
      var r := RefreshChainAsWritten(s, answers[1..]);
      assert forall i | 1 <= i < |answers| :: answers[i] == answers[1..][i - 1];
      assert forall i | 0 <= i < |answers| - 1 :: answers[1..][i] == answers[i + 1];
      r
    else
      (Session(s.storage - {TokenKey, RefreshKey}, s.authHeader), true)
  }

  /** As written, a refresh endpoint that keeps answering 401, as it does for an
      expired refresh token, never logs the session out: however many answers come
      back, the tokens stay and another refresh is posted. */
  lemma {:induction false} RefreshLoopsOn401(s: Session, n: nat)
    requires Stored(s, RefreshKey)
    ensures RefreshChainAsWritten(s, seq(n, _ => Some(401))) == (s, false)
  {
    var answers: seq<Option<int>> := seq(n, _ => Some(401));
    assert forall i | 0 <= i < |answers| :: answers[i] == Some(401);
  }

  // ---------------------------------------------------------------------------
  // Login
  // ---------------------------------------------------------------------------

  /** What the token endpoint answers: the tokens, or an error status and the
      `detail` of its body. */
  datatype LoginReply = LoginOk(access: string, refresh: string) | LoginError(status: Option<int>, detail: string)

  datatype LoginResult = LoginSucceeded | LoginFailed(error: string)

  /** `loginUser`. The token request goes through the interceptor, so a 401 while a
      refresh token is stored first runs the refresh; the repeated request carries the
      same credentials and fails as the first did. `refresh` is what the refresh
      endpoint would answer. A 2xx refresh other than 200 resolves the request with
      nothing, and reading its `data` throws an error with no response. The third
      component is the page the interceptor sends the browser to, if any.
      The interceptor here is the corrected `OnError`, which keeps the refresh request
      out of the interceptor: a refresh rejected with 401 logs out, whereas the
      interceptor as written re-enters on that 401 and keeps posting refreshes, so the
      login never settles (see `RefreshLoopsOn401`). */
  function LoginUser(s: Session, reply: LoginReply, refresh: RefreshReply): (r: (Session, LoginResult, Option<string>))
    ensures reply.LoginOk? ==>
      && r.1 == LoginSucceeded
      && RefreshKey in r.0.storage && r.0.storage[RefreshKey] == reply.refresh
    ensures reply.LoginOk? && reply.access != "" ==>
      TokenKey in r.0.storage && r.0.storage[TokenKey] == reply.access && r.0.authHeader == Some("Bearer " + reply.access)
    ensures reply.LoginError? ==> r.1.LoginFailed? && r.1.error != ""
    ensures reply.LoginError? && !(reply.status == Some(401) && Stored(s, RefreshKey)) ==>
      && r.0 == s
      && r.1 == LoginFailed(if reply.detail != "" then reply.detail else "Login failed")
    ensures reply.LoginError? && reply.status == Some(401) && Stored(s, RefreshKey) ==>
      if refresh.RefreshOk? && refresh.code != 200 then r == (s, LoginFailed("Login failed"), None)
      else TokenKey !in r.0.storage && RefreshKey !in r.0.storage
    ensures r.2.Some? ==> r.2 == Some(LoginPath)
    ensures r.2.Some? <==>
      reply.LoginError? && reply.status == Some(401) && Stored(s, RefreshKey) && !(refresh.RefreshOk? && refresh.code != 200)
  {
    match reply
    case LoginOk(access, refresh) =>
      var withToken := SetAuthToken(s, Some(access));
      (Session(withToken.storage[RefreshKey := refresh], withToken.authHeader), LoginSucceeded, None)
    case LoginError(status, detail) =>
      var settled := OnError(s, status, Request(TokenPath, false, s.authHeader), refresh, true);
      var shown :=
        if settled.1 == ResolvedUndefined then ""
        else if settled.1.LoggedOut? && refresh.RefreshRejected? then refresh.detail
        else detail;
      var redirect := if settled.1.LoggedOut? then Some(settled.1.redirect) else None;
      (settled.0, LoginFailed(if shown != "" then shown else "Login failed"), redirect)
  }

  /** A successful login with non-empty tokens is seen as authenticated, and a logout
      afterwards removes both tokens again. */
  lemma {:induction false} LoginThenLogout(s: Session, access: string, refresh: string, next: RefreshReply)
    requires access != ""
    ensures CheckUserAuth(LoginUser(s, LoginOk(access, refresh), next).0)
    ensures var after := LogoutUser(LoginUser(s, LoginOk(access, refresh), next).0);
      TokenKey !in after.storage && RefreshKey !in after.storage && after.authHeader.None?
  {
  }

  /** A wrong password while a refresh token is stored logs the session out: the
      refresh succeeds, the repeated login fails again, and the handler removes both
      tokens and sends the browser to '/login'. */
  lemma {:induction false} FailedLoginCanLogOut(s: Session, detail: string, access: string)
    requires Stored(s, RefreshKey) && Stored(s, TokenKey)
    ensures LoginUser(s, LoginError(Some(401), detail), RefreshOk(200, access)).2 == Some(LoginPath)
    ensures !CheckUserAuth(LoginUser(s, LoginError(Some(401), detail), RefreshOk(200, access)).0)
  {
  }
}

=== FILE: balance_overview.dfy ===
/** The balance overview's `processMonthlyData`: the month-bucket fold, or a fixed
    five-month sample series when there are no transactions. */
module BalanceOverview {
  import opened Wrappers
  import opened Ledger
  import opened MonthBuckets
  import ChartHelpers

  /** `sampleData`, January to May 2024, in cents. */
  const SampleData: seq<Bucket> := [
    Bucket(MonthKey(2024, 1), 350000, 280000),
    Bucket(MonthKey(2024, 2), 380000, 300000),
    Bucket(MonthKey(2024, 3), 420000, 320000),
    Bucket(MonthKey(2024, 4), 390000, 310000),
    Bucket(MonthKey(2024, 5), 450000, 330000)
  ]

  function ChartData(input: Option<seq<Txn>>): (r: seq<Bucket>)
    ensures ChartHelpers.NoTransactions(input) ==> r == SampleData
    ensures !ChartHelpers.NoTransactions(input) ==> KeySet(r) == Months(input.value)
    ensures !ChartHelpers.NoTransactions(input) ==>
      forall i | 0 <= i < |r| :: r[i] == ReferenceBucket(input.value, r[i].key)
    ensures Chronological(r)
    ensures forall i | 0 <= i < |r| :: r[i].inflow >= 0 && r[i].outflow >= 0
  {
    if ChartHelpers.NoTransactions(input) then SampleData
    else
      MonthlySpec(input.value, PlusAmount);
      Monthly(input.value, PlusAmount)
  }

  /** With transactions present the chart is the chart helpers' series. */
  lemma {:induction false} MatchesChartHelpers(input: Option<seq<Txn>>)
    requires !ChartHelpers.NoTransactions(input)
    ensures ChartData(input) == ChartHelpers.ProcessMonthlyData(input)
  {
  }

  /** The sample series has five points labelled "1/2024" to "5/2024". */
  lemma {:induction false} SampleLabels()
    ensures |ChartData(None)| == 5
    ensures forall i | 0 <= i < 5 :: ChartData(None)[i].key == MonthKey(2024, i + 1)
    ensures ChartData(None)[0].Name() == "1/2024"
  {
    assert Strings.NatToString(1) == "1";
    assert Strings.NatToString(2024) == "2024";
  }
}

=== FILE: cards.dfy ===
/** The cards page: locking and unlocking a card, and the choice of which reward
    figure a card shows. */
module Cards {

  datatype Rewards = Rewards(points: int, cashbackCents: int)

  datatype Card = Card(id: string, status: string, rewards: Rewards)

  const Active: string := "active"
  const Locked: string := "locked"

  /** The new status of a toggled card: only an active card becomes locked. */
  function Toggled(status: string): (r: string)
    ensures r == Locked <==> status == Active
    ensures r != Locked ==> r == Active
  {
    if status == Active then Locked else Active
  }

  /** `handleToggleCardLock`: the `map` that toggles every card with the given id. */
  function ToggleCardLock(cards: seq<Card>, cardId: string): (r: seq<Card>)
    ensures |r| == |cards|
    ensures forall i | 0 <= i < |cards| && cards[i].id != cardId :: r[i] == cards[i]
    ensures forall i | 0 <= i < |cards| && cards[i].id == cardId ::
      r[i] == cards[i].(status := Toggled(cards[i].status))
  {
    seq(|cards|, i requires 0 <= i < |cards| => ToggleMatching(cards[i], cardId))
  }

  /** The callback of the `map`. */
  function ToggleMatching(c: Card, cardId: string): Card
  {
    if c.id == cardId then c.(status := Toggled(c.status)) else c
  }

  /** An id that matches no card leaves the list as it was. */
  lemma {:induction false} UnknownIdChangesNothing(cards: seq<Card>, cardId: string)
    requires forall c | c in cards :: c.id != cardId
    ensures ToggleCardLock(cards, cardId) == cards
  {
  }

  /** Toggling twice gives back the list exactly when every toggled card was active or
      locked; a card in any other status comes back locked. */
  lemma {:induction false} ToggleTwice(cards: seq<Card>, cardId: string)
    ensures ToggleCardLock(ToggleCardLock(cards, cardId), cardId) == cards <==>
      forall c | c in cards && c.id == cardId :: c.status == Active || c.status == Locked
    ensures forall i | 0 <= i < |cards| && cards[i].id == cardId ::
      ToggleCardLock(ToggleCardLock(cards, cardId), cardId)[i].status ==
        if cards[i].status == Active then Active else Locked
  {
    var twice := ToggleCardLock(ToggleCardLock(cards, cardId), cardId);
    if twice == cards {
      forall c | c in cards && c.id == cardId ensures c.status == Active || c.status == Locked {
        var i :| 0 <= i < |cards| && cards[i] == c;
        assert twice[i] == c;
      }
    }
  }

  /** The reward figure a card shows. */
  datatype RewardsDisplay = PointsShown(points: int) | CashbackShown(cents: int)

  function ShowRewards(r: Rewards): (d: RewardsDisplay)
    ensures d.PointsShown? <==> r.points > 0
    ensures d.PointsShown? ==> d.points == r.points
    ensures d.CashbackShown? ==> d.cents == r.cashbackCents
  {
    if r.points > 0 then PointsShown(r.points) else CashbackShown(r.cashbackCents)
  }
}

=== FILE: categories_tab.dfy ===
/** The categories tab's `categoryData` memo: signed totals per `category ||
    'Uncategorized'`, sorted largest first and cut to the top eight. */
module CategoriesTab {
  import opened Ledger
  import opened CategoryTally
  import OverviewTab

  const TopCount: nat := 8

  function CategoryData(ts: seq<Txn>): (r: seq<Entry>)
    ensures |ts| == 0 ==> r == []
    ensures |r| <= TopCount
    ensures Descending(r)
    ensures DistinctNames(r)
    ensures forall e | e in r :: e.value == CategorySum(Signed, ts, e.name) && e.name in Keys(Signed, ts)
  {
    if |ts| == 0 then []
    else
      SortedTallySpec(Signed, ts);
      var all := SortByValue(Tally(Signed, ts));
      TakeKeeps(all, TopCount);
      Take(all, TopCount)
  }

  /** The tab shows exactly the first `min(8, n)` entries of the overview's signed
      category array for the same input. */
  lemma {:induction false} TopOfOverview(ts: seq<Txn>)
    ensures var all := OverviewTab.Process(ts).categoryData;
      CategoryData(ts) == all[..if |all| < TopCount then |all| else TopCount]
  {
    if |ts| > 0 {
      OverviewTab.CategoryArraysAreSortedTallies(ts);
      TopOfSorted(ts);
    }
  }

  /** The tab's array is the first `min(8, n)` entries of the sorted signed tally. */
  lemma {:induction false} TopOfSorted(ts: seq<Txn>)
    requires |ts| > 0
    ensures var all := SortByValue(Tally(Signed, ts));
      CategoryData(ts) == all[..if |all| < TopCount then |all| else TopCount]
  {
    var all := SortByValue(Tally(Signed, ts));
    assert CategoryData(ts) == Take(all, TopCount);
  }

  /** When the input has at most eight categories nothing is cut. */
  lemma {:induction false} NothingCutForFewCategories(ts: seq<Txn>)
    requires |Keys(Signed, ts)| <= TopCount
    ensures NameSet(CategoryData(ts)) == Keys(Signed, ts)
  {
    if |ts| > 0 {
      var all := SortByValue(Tally(Signed, ts));
      NameSetSize(all);
      TopOfSorted(ts);
      assert all[..|all|] == all;
    }
  }

  /** A list with distinct names has as many names as entries. */
  lemma {:induction false} NameSetSize(es: seq<Entry>)
    requires DistinctNames(es)
    ensures |NameSet(es)| == |es|
  {
    if |es| > 0 {
      assert es == [es[0]] + es[1..];
      NamesCons(es[0], es[1..]);
      NameSetSize(es[1..]);
    }
  }
}

=== FILE: category_tally.dfy ===
/** Per-category totals: the JavaScript object used as a map from category key to a
    running total (kept as an association list in first-seen order, which is the
    order `Object.entries` reports string keys in), and the `sort((a, b) => b.value -
    a.value)` that follows it. */
module CategoryTally {
  import opened Ledger

  /** One `{ name, value }` element of a category chart. */
  datatype Entry = Entry(name: string, value: int)

  /** The three accumulation policies found in the copies. */
  datatype Policy =
    | FirstElementAbs  // chart helpers: key `category?.[0] || 'Uncategorized'`, adds `Math.abs(amount)`
    | Signed           // overview and categories tabs: key `category || 'Uncategorized'`, adds `amount`
    | OutflowOnly      // overview's positive totals: same key, adds `amount` only when it is > 0

  const Uncategorized: string := "Uncategorized"

  /** `category || 'Uncategorized'`. */
  function CategoryKey(t: Txn): string
  {
    if HasCategory(t) then t.category.value else Uncategorized
  }

  /** `category?.[0] || 'Uncategorized'` on the string category the backend sends,
      read here as its first Unicode scalar (JavaScript reads the first UTF-16 code
      unit; the two differ outside the Basic Multilingual Plane). */
  function FirstElementKey(t: Txn): string
  {
    if HasCategory(t) then [t.category.value[0]] else Uncategorized
  }

  function KeyFor(p: Policy, t: Txn): string
  {
    match p
    case FirstElementAbs => FirstElementKey(t)
    case Signed => CategoryKey(t)
    case OutflowOnly => CategoryKey(t)
  }

  function Delta(p: Policy, t: Txn): int
  {
    match p
    case FirstElementAbs => Abs(t.amount)
    case Signed => t.amount
    case OutflowOnly => if t.amount > 0 then t.amount else 0
  }

  function NameSet(es: seq<Entry>): set<string>
  {
    set e | e in es :: e.name
  }

  predicate DistinctNames(es: seq<Entry>)
  {
    forall i, j | 0 <= i < j < |es| :: es[i].name != es[j].name
  }

  /** `a` may precede `b` in a chart sorted largest first. */
  predicate AtLeast(a: Entry, b: Entry)
  {
    a.value >= b.value
  }

  /** Sorted by value, largest first. */
  predicate Descending(es: seq<Entry>)
  {
    forall i, j | 0 <= i < j < |es| :: AtLeast(es[i], es[j])
  }

  lemma {:induction false} NamesCons(e: Entry, s: seq<Entry>)
    ensures NameSet([e] + s) == {e.name} + NameSet(s)
    ensures DistinctNames([e] + s) <==> e.name !in NameSet(s) && DistinctNames(s)
  {
    var es := [e] + s;
    assert es[0] == e;
    assert forall x :: x in es <==> x == e || x in s;
    assert forall j | 0 <= j < |s| :: es[j + 1] == s[j];
    if DistinctNames(es) {
      forall x | x in s ensures x.name != e.name {
        var j :| 0 <= j < |s| && s[j] == x;
        assert es[j + 1] == x;
      }
      forall i, j | 0 <= i < j < |s| ensures s[i].name != s[j].name {
        assert es[i + 1] == s[i] && es[j + 1] == s[j];
      }
    }
    if e.name !in NameSet(s) && DistinctNames(s) {
      forall i, j | 0 <= i < j < |es| ensures es[i].name != es[j].name {
        assert es[j] == s[j - 1];
        if i > 0 {
          assert es[i] == s[i - 1];
        }
      }
    }
  }

  lemma {:induction false} DescendingCons(e: Entry, s: seq<Entry>)
    ensures Descending([e] + s) <==> Descending(s) && forall x | x in s :: AtLeast(e, x)
  {
    var es := [e] + s;
    assert es[0] == e;
    assert forall j | 0 <= j < |s| :: es[j + 1] == s[j];
    if Descending(es) {
      forall x | x in s ensures AtLeast(e, x) {
        var j :| 0 <= j < |s| && s[j] == x;
        assert es[j + 1] == x;
      }
      forall i, j | 0 <= i < j < |s| ensures AtLeast(s[i], s[j]) {
        assert es[i + 1] == s[i] && es[j + 1] == s[j];
      }
    }
    if Descending(s) && forall x | x in s :: AtLeast(e, x) {
      forall i, j | 0 <= i < j < |es| ensures AtLeast(es[i], es[j]) {
        assert es[j] == s[j - 1];
        if i > 0 {
          assert es[i] == s[i - 1];
        }
      }
    }
  }

  /** `totals[name]`, with a missing key read as the 0 the aggregators initialise it to. */
  function ValueOf(es: seq<Entry>, name: string): int
  {
    if |es| == 0 then 0
    else if es[0].name == name then es[0].value
    else ValueOf(es[1..], name)
  }

  lemma {:induction false} ValueOfElement(es: seq<Entry>, i: int)
    requires DistinctNames(es)
    requires 0 <= i < |es|
    ensures ValueOf(es, es[i].name) == es[i].value
  {
    if i > 0 {
      assert es[0].name != es[i].name;
      LessDistinct(es);
      ValueOfElement(es[1..], i - 1);
    }
  }

  lemma {:induction false} LessDistinct(es: seq<Entry>)
    requires |es| > 0 && DistinctNames(es)
    ensures DistinctNames(es[1..])
  {
    NamesCons(es[0], es[1..]);
    assert es == [es[0]] + es[1..];
  }

  /** `if (!totals[k]) totals[k] = 0; totals[k] += delta`: the key is created on first
      sight (at the end, keeping first-seen order) and only its total moves. */
  function Bump(es: seq<Entry>, k: string, delta: int): (r: seq<Entry>)
    ensures NameSet(r) == NameSet(es) + {k}
    ensures DistinctNames(es) ==> DistinctNames(r)
    ensures forall n :: ValueOf(r, n) == ValueOf(es, n) + (if n == k then delta else 0)
  {
    if |es| == 0 then [Entry(k, delta)]
    else if es[0].name == k then
      BumpHead(es, k, delta);
      [Entry(k, es[0].value + delta)] + es[1..]
    else
      var rest := Bump(es[1..], k, delta);
      BumpTail(es, k, delta, rest);
      [es[0]] + rest
  }

  /** The key is at the head: its entry is updated in place. */
  lemma {:induction false} BumpHead(es: seq<Entry>, k: string, delta: int)
    requires |es| > 0 && es[0].name == k
    ensures NameSet([Entry(k, es[0].value + delta)] + es[1..]) == NameSet(es) + {k}
    ensures DistinctNames(es) ==> DistinctNames([Entry(k, es[0].value + delta)] + es[1..])
    ensures forall n :: ValueOf([Entry(k, es[0].value + delta)] + es[1..], n) == ValueOf(es, n) + (if n == k then delta else 0)
  {
    var r := [Entry(k, es[0].value + delta)] + es[1..];
    assert es == [es[0]] + es[1..];
    NamesCons(es[0], es[1..]);
    NamesCons(Entry(k, es[0].value + delta), es[1..]);
    assert r[1..] == es[1..];
  }

  /** The key is further on: the head is kept and the tail is bumped. */
  lemma {:induction false} BumpTail(es: seq<Entry>, k: string, delta: int, rest: seq<Entry>)
    requires |es| > 0 && es[0].name != k
    requires NameSet(rest) == NameSet(es[1..]) + {k}
    requires DistinctNames(es[1..]) ==> DistinctNames(rest)
    requires forall n :: ValueOf(rest, n) == ValueOf(es[1..], n) + (if n == k then delta else 0)
    ensures NameSet([es[0]] + rest) == NameSet(es) + {k}
    ensures DistinctNames(es) ==> DistinctNames([es[0]] + rest)
    ensures forall n :: ValueOf([es[0]] + rest, n) == ValueOf(es, n) + (if n == k then delta else 0)
  {
    BumpTailNames(es, k, rest);
    var r := [es[0]] + rest;
    assert r[0] == es[0] && r[1..] == rest;
  }

  lemma {:induction false} BumpTailNames(es: seq<Entry>, k: string, rest: seq<Entry>)
    requires |es| > 0 && es[0].name != k
    requires NameSet(rest) == NameSet(es[1..]) + {k}
    requires DistinctNames(es[1..]) ==> DistinctNames(rest)
    ensures NameSet([es[0]] + rest) == NameSet(es) + {k}
    ensures DistinctNames(es) ==> DistinctNames([es[0]] + rest)
  {
    assert es == [es[0]] + es[1..];
    NamesCons(es[0], es[1..]);
    NamesCons(es[0], rest);
  }

  /** Independent reference: the total of category `n` is the sum of the increments of
      exactly the transactions whose key is `n`. */
  function CategorySum(p: Policy, ts: seq<Txn>, n: string): int
  {
    if |ts| == 0 then 0
    else
      var t := ts[|ts| - 1];
      CategorySum(p, ts[..|ts| - 1], n) + (if KeyFor(p, t) == n then Delta(p, t) else 0)
  }

  /** The category keys that occur in the input. */
  function Keys(p: Policy, ts: seq<Txn>): set<string>
  {
    set t | t in ts :: KeyFor(p, t)
  }

  /** The totals object after the `forEach` pass: one entry per key of the input,
      each holding that key's sum. */
  function Tally(p: Policy, ts: seq<Txn>): (r: seq<Entry>)
    ensures DistinctNames(r)
    ensures NameSet(r) == Keys(p, ts)
    ensures forall n :: ValueOf(r, n) == CategorySum(p, ts, n)
  {
    if |ts| == 0 then []
    else
      var prefix := ts[..|ts| - 1];
      var t := ts[|ts| - 1];
      assert Keys(p, ts) == Keys(p, prefix) + {KeyFor(p, t)} by {
        assert ts == prefix + [t];
      }
      Bump(Tally(p, prefix), KeyFor(p, t), Delta(p, t))
  }

  /** The tally of a list is the tally of all but its last transaction, bumped by it. */
  lemma {:induction false} TallyStep(p: Policy, ts: seq<Txn>)
    requires |ts| > 0
    ensures Tally(p, ts) == Bump(Tally(p, ts[..|ts| - 1]), KeyFor(p, ts[|ts| - 1]), Delta(p, ts[|ts| - 1]))
  {
  }

  /** One insertion step of the descending sort; `e` goes before the first entry it is
      not smaller than, which keeps earlier entries first among equal values. */
  function InsertByValue(e: Entry, s: seq<Entry>): (r: seq<Entry>)
    requires Descending(s)
    requires DistinctNames(s) && e.name !in NameSet(s)
    ensures Descending(r)
    ensures DistinctNames(r)
    ensures multiset(r) == multiset(s) + multiset{e}
    ensures forall x :: x in r <==> x == e || x in s
    ensures NameSet(r) == NameSet(s) + {e.name}
  {
    if |s| == 0 then [e]
    else if e.value >= s[0].value then
      InsertFront(e, s);
      [e] + s
    else
      var rest := InsertByValue(e, s[1..]);
      InsertBehind(e, s, rest);
      [s[0]] + rest
  }

  /** `e` goes first when it is not smaller than the head. */
  lemma {:induction false} InsertFront(e: Entry, s: seq<Entry>)
    requires Descending(s) && |s| > 0 && e.value >= s[0].value
    requires DistinctNames(s) && e.name !in NameSet(s)
    ensures Descending([e] + s)
    ensures DistinctNames([e] + s)
    ensures NameSet([e] + s) == NameSet(s) + {e.name}
  {
    NamesCons(e, s);
    DescendingCons(e, s);
    forall x | x in s ensures AtLeast(e, x) {
      var j :| 0 <= j < |s| && s[j] == x;
      if j > 0 {
        assert AtLeast(s[0], s[j]);
      }
    }
  }

  /** The head stays first when `e` is smaller and is inserted into the tail. */
  lemma {:induction false} InsertBehind(e: Entry, s: seq<Entry>, rest: seq<Entry>)
    requires Descending(s) && |s| > 0 && e.value < s[0].value
    requires DistinctNames(s) && e.name !in NameSet(s)
    requires Descending(rest) && DistinctNames(rest)
    requires multiset(rest) == multiset(s[1..]) + multiset{e}
    requires forall x :: x in rest <==> x == e || x in s[1..]
    requires NameSet(rest) == NameSet(s[1..]) + {e.name}
    ensures Descending([s[0]] + rest)
    ensures DistinctNames([s[0]] + rest)
    ensures multiset([s[0]] + rest) == multiset(s) + multiset{e}
    ensures forall x :: x in [s[0]] + rest <==> x == e || x in s
    ensures NameSet([s[0]] + rest) == NameSet(s) + {e.name}
  {
    assert s == [s[0]] + s[1..];
    NamesCons(s[0], s[1..]);
    DescendingCons(s[0], s[1..]);
    NamesCons(s[0], rest);
    DescendingCons(s[0], rest);
  }

  function SortByValue(es: seq<Entry>): (r: seq<Entry>)
    requires DistinctNames(es)
    ensures Descending(r)
    ensures DistinctNames(r)
    ensures multiset(r) == multiset(es)
    ensures forall x :: x in r <==> x in es
    ensures NameSet(r) == NameSet(es)
  {
    if |es| == 0 then []
    else
      assert es == [es[0]] + es[1..];
      NamesCons(es[0], es[1..]);
      InsertByValue(es[0], SortByValue(es[1..]))
  }

  /** A sorted category chart: descending, one entry per key of the input, each
      holding exactly that key's total. */
  lemma {:induction false} SortedTallySpec(p: Policy, ts: seq<Txn>)
    ensures Descending(SortByValue(Tally(p, ts)))
    ensures DistinctNames(SortByValue(Tally(p, ts)))
    ensures NameSet(SortByValue(Tally(p, ts))) == Keys(p, ts)
    ensures forall e | e in SortByValue(Tally(p, ts)) :: e.value == CategorySum(p, ts, e.name)
  {
    var tally := Tally(p, ts);
    forall e | e in SortByValue(tally)
      ensures e.value == CategorySum(p, ts, e.name)
    {
      var i :| 0 <= i < |tally| && tally[i] == e;
      ValueOfElement(tally, i);
    }
  }

  function SumValues(es: seq<Entry>): int
  {
    if |es| == 0 then 0 else es[0].value + SumValues(es[1..])
  }

  /** Sum of all increments of a list under a policy. */
  function DeltaTotal(p: Policy, ts: seq<Txn>): int
  {
    if |ts| == 0 then 0 else DeltaTotal(p, ts[..|ts| - 1]) + Delta(p, ts[|ts| - 1])
  }

  lemma {:induction false} BumpSum(es: seq<Entry>, k: string, delta: int)
    ensures SumValues(Bump(es, k, delta)) == SumValues(es) + delta
  {
    if |es| > 0 && es[0].name != k {
      BumpSum(es[1..], k, delta);
      assert Bump(es, k, delta)[1..] == Bump(es[1..], k, delta);
    } else if |es| > 0 {
      assert Bump(es, k, delta)[1..] == es[1..];
    }
  }

  lemma {:induction false} InsertSum(e: Entry, s: seq<Entry>)
    requires Descending(s)
    requires DistinctNames(s) && e.name !in NameSet(s)
    ensures SumValues(InsertByValue(e, s)) == e.value + SumValues(s)
  {
    if |s| > 0 && e.value < s[0].value {
      assert s == [s[0]] + s[1..];
      NamesCons(s[0], s[1..]);
      DescendingCons(s[0], s[1..]);
      var rest := InsertByValue(e, s[1..]);
      InsertSum(e, s[1..]);
      assert InsertByValue(e, s) == [s[0]] + rest;
      assert ([s[0]] + rest)[1..] == rest;
    }
  }

  /** Each transaction's increment lands in exactly one category, and sorting moves
      entries without changing them: the chart's values add up to the sum of all
      increments. */
  lemma {:induction false} SortedTallySum(p: Policy, ts: seq<Txn>)
    ensures SumValues(SortByValue(Tally(p, ts))) == DeltaTotal(p, ts)
  {
    TallySum(p, ts);
    SortSum(Tally(p, ts));
  }

  lemma {:induction false} TallySum(p: Policy, ts: seq<Txn>)
    ensures SumValues(Tally(p, ts)) == DeltaTotal(p, ts)
  {
    if |ts| > 0 {
      TallySum(p, ts[..|ts| - 1]);
      BumpSum(Tally(p, ts[..|ts| - 1]), KeyFor(p, ts[|ts| - 1]), Delta(p, ts[|ts| - 1]));
    }
  }

  lemma {:induction false} SortSum(es: seq<Entry>)
    requires DistinctNames(es)
    ensures SumValues(SortByValue(es)) == SumValues(es)
  {
    if |es| > 0 {
      NamesCons(es[0], es[1..]);
      assert es == [es[0]] + es[1..];
      SortSum(es[1..]);
      InsertSum(es[0], SortByValue(es[1..]));
    }
  }

  /** The outflow-only increments add up to the total outflow: amounts equal to zero
      go to the outflow side but add nothing there. */
  lemma {:induction false} OutflowOnlyTotal(ts: seq<Txn>)
    ensures DeltaTotal(OutflowOnly, ts) == TotalOutflow(ts)
  {
    if |ts| > 0 {
      OutflowOnlyTotal(ts[..|ts| - 1]);
    }
  }

  /** The signed increments add up to the signed total of the amounts. */
  lemma {:induction false} SignedDeltaTotal(ts: seq<Txn>)
    ensures DeltaTotal(Signed, ts) == SignedTotal(ts)
  {
    if |ts| > 0 {
      SignedDeltaTotal(ts[..|ts| - 1]);
    }
  }

  /** The absolute increments add up to total inflow plus total outflow. */
  lemma {:induction false} AbsDeltaTotal(ts: seq<Txn>)
    ensures DeltaTotal(FirstElementAbs, ts) == TotalInflow(ts) + TotalOutflow(ts)
  {
    if |ts| > 0 {
      AbsDeltaTotal(ts[..|ts| - 1]);
    }
  }

  /** Non-negative increments give non-negative totals. */
  lemma {:induction false} NonNegativeSums(p: Policy, ts: seq<Txn>, n: string)
    requires p != Signed
    ensures CategorySum(p, ts, n) >= 0
  {
    if |ts| > 0 {
      NonNegativeSums(p, ts[..|ts| - 1], n);
    }
  }

  /** The signed and the outflow-only totals are keyed identically. */
  lemma {:induction false} SignedAndOutflowKeysAgree(ts: seq<Txn>)
    ensures Keys(Signed, ts) == Keys(OutflowOnly, ts)
  {
  }

  /** The first `min(n, |es|)` entries (`slice(0, n)`). */
  function Take(es: seq<Entry>, n: nat): (r: seq<Entry>)
    ensures |r| <= n && |r| <= |es|
    ensures r == es[..|r|]
    ensures |r| == n || r == es
  {
    if |es| <= n then es else es[..n]
  }

  /** Cutting a chart keeps its order, its distinct names and only its own entries. */
  lemma {:induction false} TakeKeeps(es: seq<Entry>, n: nat)
    ensures Descending(es) ==> Descending(Take(es, n))
    ensures DistinctNames(es) ==> DistinctNames(Take(es, n))
    ensures forall e | e in Take(es, n) :: e in es
  {
    var r := Take(es, n);
    assert forall i | 0 <= i < |r| :: r[i] == es[i];
  }
}

=== FILE: chart_helpers.dfy ===
/** The canonical chart helpers: `processMonthlyData`, `processCategoryData` and
    `calculateTransactionSummary`. Each accepts a possibly-null list (None). */
module ChartHelpers {
  import opened Wrappers
  import opened Ledger
  import opened MonthBuckets
  import opened CategoryTally
  import opened Summary

  /** True for the `!transactions || transactions.length === 0` guard. */
  predicate NoTransactions(input: Option<seq<Txn>>)
  {
    input.None? || |input.value| == 0
  }

  /** `processMonthlyData`: empty for no input; otherwise one bucket per month of the
      input, strictly chronological, each with that month's inflow and outflow sums. */
  function ProcessMonthlyData(input: Option<seq<Txn>>): (r: seq<Bucket>)
    ensures NoTransactions(input) ==> r == []
    ensures Chronological(r)
    ensures input.Some? ==> KeySet(r) == Months(input.value)
    ensures forall i | 0 <= i < |r| :: input.Some? && r[i] == ReferenceBucket(input.value, r[i].key)
    ensures forall i | 0 <= i < |r| :: r[i].inflow >= 0 && r[i].outflow >= 0
  {
    if NoTransactions(input) then []
    else
      MonthlySpec(input.value, PlusAmount);
      Monthly(input.value, PlusAmount)
  }

  /** `processCategoryData`: empty for no input; otherwise one entry per first-element
      key, each the sum of the absolute amounts under that key, largest first. */
  function ProcessCategoryData(input: Option<seq<Txn>>): (r: seq<Entry>)
    ensures NoTransactions(input) ==> r == []
    ensures Descending(r)
    ensures DistinctNames(r)
    ensures input.Some? ==> NameSet(r) == Keys(FirstElementAbs, input.value)
    ensures forall e | e in r :: input.Some? && e.value == CategorySum(FirstElementAbs, input.value, e.name)
    ensures forall e | e in r :: e.value >= 0
  {
    if NoTransactions(input) then []
    else
      var ts := input.value;
      SortedTallySpec(FirstElementAbs, ts);
      forall n { NonNegativeSums(FirstElementAbs, ts, n); }
      SortByValue(Tally(FirstElementAbs, ts))
  }

  /** Two different categories that start with the same character share one key in
      `processCategoryData`, so their totals are merged. */
  lemma {:induction false} FirstElementKeyMerges(t1: Txn, t2: Txn)
    requires HasCategory(t1) && HasCategory(t2)
    requires t1.category.value[0] == t2.category.value[0]
    ensures KeyFor(FirstElementAbs, t1) == KeyFor(FirstElementAbs, t2)
  {
  }

  /** The running state of the summary loop. */
  datatype Running = Running(inflow: int, outflow: int, largest: Pick)

  /** The loop of `calculateTransactionSummary`: its running totals are the list's
      inflow and outflow totals and its running largest is the scan's pick. */
  function SummaryLoop(ts: seq<Txn>): (r: Running)
    ensures r.inflow == TotalInflow(ts)
    ensures r.outflow == TotalOutflow(ts)
    ensures r.largest == Scan(ts)
  {
    if |ts| == 0 then Running(0, 0, Placeholder)
    else
      var acc := SummaryLoop(ts[..|ts| - 1]);
      var t := ts[|ts| - 1];
      var totals :=
        if t.amount < 0 then acc.(inflow := acc.inflow - t.amount)
        else acc.(outflow := acc.outflow + t.amount);
      totals.(largest := Track(acc.largest, t))
  }

  /** The zero-valued summary returned for no input. */
  const EmptyStats: Stats := Stats(0, 0, 0, 0, NullLargest, 0.0)

  /** `calculateTransactionSummary`. */
  function CalculateTransactionSummary(input: Option<seq<Txn>>): (r: Stats)
    ensures NoTransactions(input) ==> r == EmptyStats
    ensures !NoTransactions(input) ==>
      var ts := input.value;
      && r.totalTransactions == |ts|
      && r.totalInflow == TotalInflow(ts)
      && r.totalOutflow == TotalOutflow(ts)
      && r.netCashFlow == r.totalInflow - r.totalOutflow
      && r.largestTransaction == LargestOf(Scan(ts))
      && r.averageTransaction == Average(r.totalInflow, r.totalOutflow, |ts|)
  {
    if NoTransactions(input) then EmptyStats
    else
      var ts := input.value;
      var loop := SummaryLoop(ts);
      Stats(
        |ts|,
        loop.inflow,
        loop.outflow,
        loop.inflow - loop.outflow,
        LargestOf(loop.largest),
        if |ts| > 0 then Average(loop.inflow, loop.outflow, |ts|) else 0.0)
  }

  /** On a non-empty list the summary is the reference summary. */
  lemma {:induction false} SummaryIsReference(ts: seq<Txn>)
    requires |ts| > 0
    ensures CalculateTransactionSummary(Some(ts)) == ReferenceStats(ts)
  {
  }

  /** The summary's totals equal the sums of the monthly buckets' inflows and outflows
      over the same input, and both are non-negative. */
  lemma {:induction false} SummaryMatchesMonthlyBuckets(input: Option<seq<Txn>>)
    ensures CalculateTransactionSummary(input).totalInflow == SumInflow(ProcessMonthlyData(input))
    ensures CalculateTransactionSummary(input).totalOutflow == SumOutflow(ProcessMonthlyData(input))
    ensures CalculateTransactionSummary(input).totalInflow >= 0
    ensures CalculateTransactionSummary(input).totalOutflow >= 0
  {
    if !NoTransactions(input) {
      MonthlySums(input.value, PlusAmount);
      TotalsSplitSignedSum(input.value);
    }
  }

  /** The category chart accounts for every amount once, by absolute value: its values
      add up to total inflow plus total outflow. */
  lemma {:induction false} CategoryDataMatchesTotals(input: Option<seq<Txn>>)
    ensures SumValues(ProcessCategoryData(input)) ==
      CalculateTransactionSummary(input).totalInflow + CalculateTransactionSummary(input).totalOutflow
  {
    if !NoTransactions(input) {
      SortedTallySum(FirstElementAbs, input.value);
      AbsDeltaTotal(input.value);
    }
  }

  /** The average is total magnitude over count, so it is never negative. */
  lemma {:induction false} AverageNonNegative(input: Option<seq<Txn>>)
    ensures CalculateTransactionSummary(input).averageTransaction >= 0.0
  {
    if !NoTransactions(input) {
      var ts := input.value;
      TotalsSplitSignedSum(ts);
      Summary.AverageNonNegative(TotalInflow(ts), TotalOutflow(ts), |ts|);
    }
  }
}

=== FILE: dashboard.dfy ===
/** The dashboard page: the total balance over the linked accounts, the click guard that
    opens the transactions dialog only for checking accounts, the dialog's reset on
    close and the guard on opening the bank-link page. */
module Dashboard {
  import opened Wrappers
  import opened Strings
  import opened Ledger

  /** `current_balance` as `parseFloat` sees it: a falsy value (null, "", 0), a number
      in cents, or a string that does not parse (NaN). */
  datatype Balance = Falsy | Numeric(cents: int) | NotANumber

  datatype Account = Account(id: string, name: string, subtype: Option<string>, balance: Balance)

  /** What one account adds to the total: only a parsed number counts. */
  function Contribution(b: Balance): (r: int)
    ensures b.Numeric? ==> r == b.cents
    ensures !b.Numeric? ==> r == 0
  {
    match b
    case Numeric(c) => c
    case _ => 0
  }

  /** `totalBalance`: the `reduce` from 0 over the accounts in order. */
  function TotalBalance(accounts: seq<Account>): (r: int)
    ensures |accounts| == 0 ==> r == 0
  {
    if |accounts| == 0 then 0
    else TotalBalance(accounts[..|accounts| - 1]) + Contribution(accounts[|accounts| - 1].balance)
  }

  /** The total of two lists side by side is the sum of their totals. */
  lemma {:induction false} TotalBalanceAppend(a: seq<Account>, b: seq<Account>)
    ensures TotalBalance(a + b) == TotalBalance(a) + TotalBalance(b)
  {
    if |b| == 0 {
      assert a + b == a;
    } else {
      assert (a + b)[..|a + b| - 1] == a + b[..|b| - 1];
      TotalBalanceAppend(a, b[..|b| - 1]);
    }
  }

  /** The accounts whose balance parses to a number. */
  function NumericAccounts(accounts: seq<Account>): (r: seq<Account>)
    ensures forall a | a in r :: a in accounts && a.balance.Numeric?
  {
    if |accounts| == 0 then []
    else
      var rest := NumericAccounts(accounts[1..]);
      if accounts[0].balance.Numeric? then [accounts[0]] + rest else rest
  }

  /** Sum of the parsed balances, added head first. */
  function SumCents(accounts: seq<Account>): int
    requires forall a | a in accounts :: a.balance.Numeric?
  {
    if |accounts| == 0 then 0 else accounts[0].balance.cents + SumCents(accounts[1..])
  }

  /** Falsy and unparsable balances count as zero: the total is the plain sum of the
      balances that parse. */
  lemma {:induction false} TotalIsSumOfNumeric(accounts: seq<Account>)
    ensures TotalBalance(accounts) == SumCents(NumericAccounts(accounts))
  {
    if |accounts| > 0 {
      TotalIsSumOfNumeric(accounts[1..]);
      assert accounts == [accounts[0]] + accounts[1..];
      TotalBalanceAppend([accounts[0]], accounts[1..]);
      assert [accounts[0]][..0] == [];
    }
  }

  /** The part of the dashboard state the handlers below touch. */
  datatype State = State(
    transactionsDialogOpen: bool,
    selectedAccount: Option<Account>,
    transactions: seq<Txn>,
    activeTab: nat)

  /** `account.subtype && account.subtype.toLowerCase() === 'checking'`: the subtype is
      "checking" in any mix of letter cases. */
  predicate IsChecking(a: Account)
    ensures IsChecking(a) <==>
      a.subtype.Some? && |a.subtype.value| == 8
      && forall i | 0 <= i < 8 :: LowerChar(a.subtype.value[i]) == "checking"[i]
  {
    a.subtype.Some? && a.subtype.value != "" && ToLower(a.subtype.value) == "checking"
  }

  /** `handleAccountClick`: only a checking account opens the dialog. */
  function AccountClick(s: State, a: Account): (r: State)
    ensures IsChecking(a) ==> r.transactionsDialogOpen && r.selectedAccount == Some(a)
    ensures IsChecking(a) ==> r.transactions == s.transactions && r.activeTab == s.activeTab
    ensures !IsChecking(a) ==> r == s
  {
    if IsChecking(a) then s.(selectedAccount := Some(a), transactionsDialogOpen := true) else s
  }

  /** `handleCloseTransactionsDialog`. */
  function CloseTransactionsDialog(s: State): (r: State)
    ensures !r.transactionsDialogOpen && r.selectedAccount.None?
    ensures r.transactions == [] && r.activeTab == 0
  {
    State(false, None, [], 0)
  }

  /** Closing after any click leaves the same state as closing straight away: the
      dialog keeps nothing from the account that opened it. */
  lemma {:induction false} CloseForgetsClick(s: State, a: Account)
    ensures CloseTransactionsDialog(AccountClick(s, a)) == CloseTransactionsDialog(s)
  {
  }

  /** Upper case letters in the subtype do not matter. */
  lemma {:induction false} CheckingIgnoresCase()
    ensures IsChecking(Account("1", "Main", Some("CHECKING"), Falsy))
  {
    var low := ToLower("CHECKING");
    assert |low| == 8;
    assert forall i | 0 <= i < 8 :: low[i] == "checking"[i];
    assert low == "checking";
  }

  /** Other subtypes, and a missing one, do not open the dialog. */
  lemma {:induction false} OnlyCheckingOpens()
    ensures !IsChecking(Account("1", "Savings", Some("savings"), Falsy))
    ensures !IsChecking(Account("1", "Card", None, Falsy))
  {
    assert ToLower("savings")[0] == 's';
  }

  /** `handleOpenPlaidLink`: the route navigated to, if any. */
  function OpenPlaidLink(linkToken: Option<string>): (r: Option<string>)
    ensures r.Some? <==> linkToken.Some? && linkToken.value != ""
    ensures r.Some? ==> r.value == "/link-account"
  {
    if linkToken.Some? && linkToken.value != "" then Some("/link-account") else None
  }
}

=== FILE: finance_views.dfy ===
/** The backend's finance endpoints over an abstract store: the transaction listing
    with its filters, unlinking one account or all of a user's accounts, the rule that
    turns bank transactions into stored rows, and the guard on the token exchange.

    The database is three maps from primary keys to rows; a Plaid item belongs to a
    user, an account to an item and a transaction to an account. */
module FinanceViews {
  import opened Wrappers
  import opened Strings
  import opened Ledger

  datatype Item = Item(user: nat)
  datatype BankAccount = BankAccount(item: nat, plaidAccountId: string, name: string)
  datatype Row = Row(account: nat, transactionId: string, date: Date, name: string, amount: int, category: Option<string>)

  datatype Store = Store(items: map<nat, Item>, accounts: map<nat, BankAccount>, txns: map<nat, Row>)

  /** Every foreign key points at an existing row. */
  predicate Valid(s: Store)
  {
    && (forall a | a in s.accounts :: s.accounts[a].item in s.items)
    && (forall t | t in s.txns :: s.txns[t].account in s.accounts)
  }

  /** The owner of an account, when its item exists. */
  predicate OwnedBy(s: Store, a: nat, user: nat)
  {
    a in s.accounts && s.accounts[a].item in s.items && s.items[s.accounts[a].item].user == user
  }

  /** `Account.objects.filter(plaid_item__in=PlaidItem.objects.filter(user=user))`. */
  function UserAccounts(s: Store, user: nat): (r: set<nat>)
    ensures forall a :: a in r <==> OwnedBy(s, a, user)
  {
    set a | a in s.accounts && OwnedBy(s, a, user)
  }

  // ---------------------------------------------------------------------------
  // Listing
  // ---------------------------------------------------------------------------

  /** The query parameters; an absent or empty parameter is None. */
  datatype Query = Query(startDate: Option<Date>, endDate: Option<Date>, accountId: Option<nat>, category: Option<string>)

  /** A transaction the listing returns, stated in one place. */
  predicate Listed(s: Store, user: nat, q: Query, t: nat)
  {
    && t in s.txns
    && OwnedBy(s, s.txns[t].account, user)
    && (q.accountId.Some? ==> s.txns[t].account == q.accountId.value)
    && (q.startDate.Some? ==> DateLe(q.startDate.value, s.txns[t].date))
    && (q.endDate.Some? ==> DateLe(s.txns[t].date, q.endDate.value))
    && (q.category.Some? ==> s.txns[t].category == q.category)
  }

  function NarrowAccounts(accounts: set<nat>, accountId: Option<nat>): set<nat>
  {
    if accountId.Some? then accounts * {accountId.value} else accounts
  }

  function FromDate(s: Store, ts: set<nat>, start: Option<Date>): set<nat>
    requires ts <= s.txns.Keys
  {
    if start.Some? then set t | t in ts && DateLe(start.value, s.txns[t].date) else ts
  }

  function UntilDate(s: Store, ts: set<nat>, end: Option<Date>): set<nat>
    requires ts <= s.txns.Keys
  {
    if end.Some? then set t | t in ts && DateLe(s.txns[t].date, end.value) else ts
  }

  function InCategory(s: Store, ts: set<nat>, category: Option<string>): set<nat>
    requires ts <= s.txns.Keys
  {
    if category.Some? then set t | t in ts && s.txns[t].category == category else ts
  }

  /** `TransactionsList.get`: the user's accounts, narrowed to the requested one, then
      their transactions narrowed by each given filter in turn. */
  function TransactionsList(s: Store, user: nat, q: Query): (r: set<nat>)
    ensures forall t :: t in r <==> Listed(s, user, q, t)
  {
    var accounts := NarrowAccounts(UserAccounts(s, user), q.accountId);
    var ts := set t | t in s.txns && s.txns[t].account in accounts;
    var ts1 := FromDate(s, ts, q.startDate);
    var ts2 := UntilDate(s, ts1, q.endDate);
    InCategory(s, ts2, q.category)
  }

  // ---------------------------------------------------------------------------
  // Unlinking
  // ---------------------------------------------------------------------------

  datatype Response = Ok(message: string) | Forbidden | NotFound | BadRequest(error: string)

  /** The accounts of one item. */
  function AccountsOf(s: Store, item: nat): set<nat>
  {
    set a | a in s.accounts && s.accounts[a].item == item
  }

  /** Removes one account and the transactions that point at it. */
  function DropAccount(s: Store, account: nat): (r: Store)
    ensures r.items == s.items
    ensures r.accounts == s.accounts - {account}
    ensures forall t :: t in r.txns <==> t in s.txns && s.txns[t].account != account
    ensures forall t | t in r.txns :: r.txns[t] == s.txns[t]
  {
    Store(s.items, s.accounts - {account}, map t | t in s.txns && s.txns[t].account != account :: s.txns[t])
  }

  /** `UnlinkAccount.delete`. */
  function UnlinkAccount(s: Store, user: nat, account: nat): (r: (Store, Response))
    ensures account !in s.accounts ==> r == (s, NotFound)
    ensures account in s.accounts && !OwnedBy(s, account, user) ==> r == (s, Forbidden)
    ensures OwnedBy(s, account, user) ==>
      var item := s.accounts[account].item;
      && r.1.Ok?
      && r.0.accounts == s.accounts - {account}
      && (forall t :: t in r.0.txns <==> t in s.txns && s.txns[t].account != account)
      && (forall t | t in r.0.txns :: r.0.txns[t] == s.txns[t])
      && (r.0.items == if AccountsOf(s, item) == {account} then s.items - {item} else s.items)
  {
    if account !in s.accounts then (s, NotFound)
    else if !OwnedBy(s, account, user) then (s, Forbidden)
    else
      var item := s.accounts[account].item;
      var dropped := DropAccount(s, account);
      assert account in AccountsOf(s, item);
      if |AccountsOf(s, item)| == 1 then
        assert AccountsOf(s, item) == {account} by {
          forall a | a in AccountsOf(s, item) ensures a == account {
            if a != account {
              assert {a, account} <= AccountsOf(s, item);
              assert |{a, account}| == 2;
              SubsetCard({a, account}, AccountsOf(s, item));
            }
          }
        }
        (dropped.(items := s.items - {item}), Ok("Account and associated item have been unlinked"))
      else
        assert AccountsOf(s, item) != {account};
        (dropped, Ok("Account has been unlinked"))
  }

  lemma {:induction false} SubsetCard(a: set<nat>, b: set<nat>)
    requires a <= b
    ensures |a| <= |b|
  {
    if a != {} {
      var x :| x in a;
      SubsetCard(a - {x}, b - {x});
    }
  }

  /** Unlinking keeps the store consistent: the item is removed only together with its
      last account, and no transaction is left pointing at the removed account. */
  lemma {:induction false} UnlinkAccountKeepsValid(s: Store, user: nat, account: nat)
    requires Valid(s)
    ensures Valid(UnlinkAccount(s, user, account).0)
  {
    var r := UnlinkAccount(s, user, account).0;
    if OwnedBy(s, account, user) {
      var item := s.accounts[account].item;
      forall a | a in r.accounts ensures r.accounts[a].item in r.items {
        if AccountsOf(s, item) == {account} {
          assert a !in AccountsOf(s, item);
        }
      }
    }
  }

  /** After a successful unlink the listing for that account is empty. */
  lemma {:induction false} UnlinkedAccountListsNothing(s: Store, user: nat, account: nat, q: Query)
    requires OwnedBy(s, account, user)
    requires q.accountId == Some(account)
    ensures TransactionsList(UnlinkAccount(s, user, account).0, user, q) == {}
  {
    var r := UnlinkAccount(s, user, account).0;
    forall t | t in TransactionsList(r, user, q) ensures false {
    }
  }

  /** The items, accounts and transactions of one user. */
  function UserItems(s: Store, user: nat): set<nat>
  {
    set i | i in s.items && s.items[i].user == user
  }

  const NothingToUnlink: string := "No accounts to unlink"

  function UnlinkedMessage(count: nat): string
  {
    "Successfully unlinked " + NatToString(count) + " accounts"
  }

  /** `UnlinkAllAccounts.delete`, apart from the logged 500 path. */
  function UnlinkAllAccounts(s: Store, user: nat): (r: (Store, Response))
    ensures UserItems(s, user) == {} ==> r == (s, Ok(NothingToUnlink))
    ensures UserItems(s, user) != {} ==>
      && r.1 == Ok(UnlinkedMessage(|UserAccounts(s, user)|))
      && UserItems(r.0, user) == {}
      && (forall i :: i in r.0.items <==> i in s.items && s.items[i].user != user)
      && (forall a :: a in r.0.accounts <==> a in s.accounts && s.accounts[a].item !in UserItems(s, user))
      && (forall t :: t in r.0.txns <==>
            t in s.txns && !(s.txns[t].account in s.accounts && s.accounts[s.txns[t].account].item in UserItems(s, user)))
      && (forall i | i in r.0.items :: r.0.items[i] == s.items[i])
      && (forall a | a in r.0.accounts :: r.0.accounts[a] == s.accounts[a])
      && (forall t | t in r.0.txns :: r.0.txns[t] == s.txns[t])
  {
    var items := UserItems(s, user);
    if items == {} then (s, Ok(NothingToUnlink))
    else
      var accounts := set a | a in s.accounts && s.accounts[a].item in items;
      assert accounts == UserAccounts(s, user);
      var txns := map t | t in s.txns && !(s.txns[t].account in accounts) :: s.txns[t];
      var r := Store(s.items - items, s.accounts - accounts, txns);
      assert UserItems(r, user) == {};
      (r, Ok(UnlinkedMessage(|accounts|)))
  }

  /** Unlinking everything keeps the store consistent and leaves the user nothing to
      list, whatever the filters. */
  lemma {:induction false} UnlinkAllEmptiesListing(s: Store, user: nat, q: Query)
    requires Valid(s)
    ensures Valid(UnlinkAllAccounts(s, user).0)
    ensures TransactionsList(UnlinkAllAccounts(s, user).0, user, q) == {}
  {
    var r := UnlinkAllAccounts(s, user).0;
    forall a ensures !OwnedBy(r, a, user) {
      if a in r.accounts && r.accounts[a].item in r.items {
        var i := r.accounts[a].item;
        if UserItems(s, user) != {} {
          assert i in s.items && s.items[i].user != user;
          assert r.items[i] == s.items[i];
        } else {
          assert r == s;
          assert i !in UserItems(s, user);
        }
      }
    }
  }

  /** Another user's listing is not affected by unlinking all of one user's accounts. */
  lemma {:induction false} UnlinkAllSparesOthers(s: Store, user: nat, other: nat, q: Query)
    requires Valid(s)
    requires other != user
    ensures TransactionsList(UnlinkAllAccounts(s, user).0, other, q) == TransactionsList(s, other, q)
  {
    var r := UnlinkAllAccounts(s, user).0;
    forall t ensures Listed(r, other, q, t) <==> Listed(s, other, q, t) {
      if t in s.txns && OwnedBy(s, s.txns[t].account, other) {
        assert s.items[s.accounts[s.txns[t].account].item].user == other;
      }
    }
  }

  // ---------------------------------------------------------------------------
  // Importing bank transactions
  // ---------------------------------------------------------------------------

  /** A transaction as the bank API reports it; `category` is its category path. */
  datatype BankTxn = BankTxn(accountId: string, transactionId: string, amount: int, date: Date, name: string, category: seq<string>)

  const Uncategorized: string := "Uncategorized"

  /** `transaction['category'][0] if transaction.get('category') else 'Uncategorized'`. */
  function ImportedCategory(t: BankTxn): (r: string)
    ensures |t.category| > 0 ==> r == t.category[0]
    ensures |t.category| == 0 ==> r == Uncategorized
  {
    if |t.category| > 0 then t.category[0] else Uncategorized
  }

  /** The rows `_fetch_transactions` creates, in order. `byPlaidId` is the dictionary of
      the item's accounts keyed by the bank's account id; a transaction of any other
      account is skipped. */
  function ImportRows(byPlaidId: map<string, nat>, bank: seq<BankTxn>): (r: seq<Row>)
    ensures |r| <= |bank|
    ensures forall row | row in r :: row.account in byPlaidId.Values && row.category.Some?
  {
    if |bank| == 0 then []
    else
      var t := bank[0];
      var rest := ImportRows(byPlaidId, bank[1..]);
      if t.accountId in byPlaidId then
        [Row(byPlaidId[t.accountId], t.transactionId, t.date, t.name, t.amount, Some(ImportedCategory(t)))] + rest
      else rest
  }

  /** The bank transactions whose account is known. */
  function Known(byPlaidId: map<string, nat>, bank: seq<BankTxn>): seq<BankTxn>
  {
    if |bank| == 0 then []
    else if bank[0].accountId in byPlaidId then [bank[0]] + Known(byPlaidId, bank[1..])
    else Known(byPlaidId, bank[1..])
  }

  /** Exactly the known transactions are imported, one row each, in order, with the
      mapped account, the bank's id, amount, date and name, and the first category (or
      the fallback). */
  lemma {:induction false} ImportRowsSpec(byPlaidId: map<string, nat>, bank: seq<BankTxn>)
    ensures var known := Known(byPlaidId, bank);
      var rows := ImportRows(byPlaidId, bank);
      && |rows| == |known|
      && forall i | 0 <= i < |rows| ::
        && known[i].accountId in byPlaidId
        && rows[i].account == byPlaidId[known[i].accountId]
        && rows[i].transactionId == known[i].transactionId
        && rows[i].amount == known[i].amount
        && rows[i].date == known[i].date
        && rows[i].name == known[i].name
        && rows[i].category == Some(ImportedCategory(known[i]))
  {
    if |bank| > 0 {
      ImportRowsSpec(byPlaidId, bank[1..]);
    }
  }

  // ---------------------------------------------------------------------------
  // Token exchange
  // ---------------------------------------------------------------------------

  const MissingToken: string := "Missing public_token"

  /** The check at the top of `ExchangePublicToken.post`: a missing or empty token is
      answered with 400 and nothing else happens. None means the request may go on to
      the bank calls. */
  function ExchangeGuard(s: Store, publicToken: Option<string>): (r: (Store, Option<Response>))
    ensures r.0 == s
    ensures r.1.Some? <==> publicToken.None? || publicToken.value == ""
    ensures r.1.Some? ==> r.1.value == BadRequest(MissingToken)
  {
    if publicToken.None? || publicToken.value == "" then (s, Some(BadRequest(MissingToken))) else (s, None)
  }
}

=== FILE: gradient.dfy ===
/** `getGradientByName`: an account name is hashed to a hue by summing its character
    codes, and the hue picks the colours of the account's card. */
module Gradient {

  /** The `reduce` that adds each character's code to the accumulator, left to right. */
  function CharSum(s: string): (r: nat)
    ensures |s| == 0 ==> r == 0
  {
    if |s| == 0 then 0 else s[|s| - 1] as nat + CharSum(s[..|s| - 1])
  }

  /** `hash % 360`. */
  function Hue(name: string): (r: nat)
    ensures r < 360
    ensures |name| == 0 ==> r == 0
    ensures (CharSum(name) - r) % 360 == 0
  {
    CharSum(name) % 360
  }

  /** One `hsla(h, s%, l%, a)` stop; the alpha is kept in hundredths. */
  datatype Hsla = Hsla(hue: nat, saturation: nat, lightness: nat, alphaPercent: nat)

  datatype Colours = Colours(
    background: (Hsla, Hsla),
    border: (Hsla, Hsla),
    icon: Hsla)

  function GradientByName(name: string): (r: Colours)
    ensures r.background.0.hue < 360 && r.background.1.hue < 360
    ensures r.border.0.hue < 360 && r.border.1.hue < 360 && r.icon.hue < 360
    ensures r.icon.hue == r.background.0.hue == r.border.0.hue == Hue(name)
    ensures r.background.1.hue == (Hue(name) + 30) % 360
    ensures r.border.1.hue == (Hue(name) + 40) % 360
  {
    var hue := Hue(name);
    Colours(
      (Hsla(hue, 30, 95, 80), Hsla((hue + 30) % 360, 25, 90, 80)),
      (Hsla(hue, 60, 75, 100), Hsla((hue + 40) % 360, 70, 65, 100)),
      Hsla(hue, 60, 55, 100))
  }

  /** The sum of a concatenation is the sum of the parts. */
  lemma {:induction false} CharSumAppend(a: string, b: string)
    ensures CharSum(a + b) == CharSum(a) + CharSum(b)
  {
    if |b| == 0 {
      assert a + b == a;
    } else {
      var ab := a + b;
      assert ab[..|ab| - 1] == a + b[..|b| - 1];
      assert ab[|ab| - 1] == b[|b| - 1];
      CharSumAppend(a, b[..|b| - 1]);
    }
  }

  /** Removing the character at `i` takes its code out of the sum. */
  lemma {:induction false} CharSumRemove(t: string, i: nat)
    requires i < |t|
    ensures CharSum(t) == t[i] as nat + CharSum(t[..i] + t[i + 1..])
  {
    var p, c, q := t[..i], t[i], t[i + 1..];
    assert t == (p + [c]) + q;
    CharSumAppend(p + [c], q);
    assert (p + [c])[..|p|] == p;
    CharSumAppend(p, q);
  }

  /** The sum depends only on the multiset of characters. */
  lemma {:induction false} CharSumPermutation(s: string, t: string)
    requires multiset(s) == multiset(t)
    ensures CharSum(s) == CharSum(t)
  {
    if |s| > 0 {
      var c := s[0];
      assert c in multiset(t);
      var i :| 0 <= i < |t| && t[i] == c;
      var rest := t[..i] + t[i + 1..];
      SameRest(s, t, i);
      CharSumPermutation(s[1..], rest);
      CharSumRemove(t, i);
      CharSumAppend([c], s[1..]);
      assert [c] + s[1..] == s;
      assert [c][..0] == [];
    }
  }

  /** Taking the first character off `s` and the same character off `t` keeps the
      two multisets equal. */
  lemma {:induction false} SameRest(s: string, t: string, i: nat)
    requires multiset(s) == multiset(t) && |s| > 0
    requires i < |t| && t[i] == s[0]
    ensures multiset(s[1..]) == multiset(t[..i] + t[i + 1..])
  {
    var c := s[0];
    var rest := t[..i] + t[i + 1..];
    assert t == t[..i] + [c] + t[i + 1..];
    assert multiset(t) == multiset(rest) + multiset{c};
    assert s == [c] + s[1..];
    assert multiset(s) == multiset(s[1..]) + multiset{c};
    assert multiset(s[1..]) == multiset(s) - multiset{c};
    assert multiset(rest) == multiset(t) - multiset{c};
  }

  /** Names that are rearrangements of each other get the same colours. */
  lemma {:induction false} GradientPermutationInvariant(s: string, t: string)
    requires multiset(s) == multiset(t)
    ensures GradientByName(s) == GradientByName(t)
  {
    CharSumPermutation(s, t);
  }

  /** The hue of a concatenation is determined by the hues of the parts. */
  lemma {:induction false} HueAppend(a: string, b: string)
    ensures Hue(a + b) == (Hue(a) + Hue(b)) % 360
  {
    CharSumAppend(a, b);
    ModAdd(CharSum(a), CharSum(b));
  }

  lemma {:induction false} ModAdd(x: nat, y: nat)
    ensures (x + y) % 360 == (x % 360 + y % 360) % 360
  {
    var k := x / 360 + y / 360;
    var r := x % 360 + y % 360;
    assert x + y == 360 * k + r;
    assert 0 <= r < 720;
    if r < 360 {
      assert (x + y) / 360 == k;
    } else {
      assert (x + y) / 360 == k + 1;
    }
  }
}

=== FILE: ledger.dfy ===
/** The transaction record the dashboard receives from the backend, and the amount
    and month conventions every aggregator copy shares.

    Amounts are integer cents. The system's sign convention is inverted relative to
    accounting: a NEGATIVE amount is money coming in (inflow) and any other amount,
    zero included, is money going out (outflow). */
module Ledger {
  import opened Wrappers
  import Strings

  /** A calendar date, already parsed from the ISO string the backend sends. */
  datatype Date = Date(year: nat, month: nat, day: nat)

  /** Chronological order on dates (the `<`/`>` the aggregators apply to `Date` objects). */
  predicate DateLe(a: Date, b: Date)
  {
    a.year < b.year
    || (a.year == b.year && (a.month < b.month || (a.month == b.month && a.day <= b.day)))
  }

  lemma {:induction false} DateLeTotal(a: Date, b: Date)
    ensures DateLe(a, b) || DateLe(b, a)
  {
  }

  lemma {:induction false} DateLeTransitive(a: Date, b: Date, c: Date)
    requires DateLe(a, b) && DateLe(b, c)
    ensures DateLe(a, c)
  {
  }

  /** A transaction as serialised by the backend. `merchantName` is "" when the
      backend sends null; `category` is None when the field is null or absent. */
  datatype Txn = Txn(
    id: string,
    date: Date,
    amount: int,
    name: string,
    merchantName: string,
    category: Option<string>,
    accountId: string)

  /** A category is "truthy" in JavaScript when it is present and non-empty. */
  predicate HasCategory(t: Txn)
  {
    t.category.Some? && t.category.value != ""
  }

  function Abs(x: int): (r: int)
    ensures r >= 0 && (r == x || r == -x)
  {
    if x < 0 then -x else x
  }

  /** The part of an amount that counts as inflow: `-amount` for a negative amount. */
  function InflowPart(amount: int): (r: int)
    ensures r >= 0
    ensures r > 0 <==> amount < 0
  {
    if amount < 0 then -amount else 0
  }

  /** The part of an amount that counts as outflow: the amount itself unless it is negative. */
  function OutflowPart(amount: int): (r: int)
    ensures r >= 0
    ensures r > 0 <==> amount > 0
  {
    if amount < 0 then 0 else amount
  }

  lemma {:induction false} PartsSplitAmount(amount: int)
    ensures OutflowPart(amount) - InflowPart(amount) == amount
    ensures OutflowPart(amount) + InflowPart(amount) == Abs(amount)
  {
  }

  /** Sum of the inflow parts of a list, accumulated left to right. */
  function TotalInflow(ts: seq<Txn>): int
  {
    if |ts| == 0 then 0 else TotalInflow(ts[..|ts| - 1]) + InflowPart(ts[|ts| - 1].amount)
  }

  /** Sum of the outflow parts of a list, accumulated left to right. */
  function TotalOutflow(ts: seq<Txn>): int
  {
    if |ts| == 0 then 0 else TotalOutflow(ts[..|ts| - 1]) + OutflowPart(ts[|ts| - 1].amount)
  }

  /** Signed sum of all amounts. */
  function SignedTotal(ts: seq<Txn>): int
  {
    if |ts| == 0 then 0 else SignedTotal(ts[..|ts| - 1]) + ts[|ts| - 1].amount
  }

  /** Both totals are sums of non-negative parts, and outflow minus inflow is the
      signed total: the net cash flow `inflow - outflow` is minus the signed sum. */
  lemma {:induction false} TotalsSplitSignedSum(ts: seq<Txn>)
    ensures TotalInflow(ts) >= 0 && TotalOutflow(ts) >= 0
    ensures TotalOutflow(ts) - TotalInflow(ts) == SignedTotal(ts)
  {
    if |ts| > 0 {
      TotalsSplitSignedSum(ts[..|ts| - 1]);
      PartsSplitAmount(ts[|ts| - 1].amount);
    }
  }

  /** The (month, year) group a transaction falls into. */
  datatype MonthKey = MonthKey(year: nat, month: nat)

  function KeyOf(t: Txn): MonthKey
  {
    MonthKey(t.date.year, t.date.month)
  }

  /** Strict chronological order on month keys. */
  predicate MonthBefore(a: MonthKey, b: MonthKey)
  {
    a.year < b.year || (a.year == b.year && a.month < b.month)
  }

  /** The bucket label `"{month}/{year}"` the aggregators build with a template literal. */
  function MonthName(k: MonthKey): (r: string)
    ensures ParseMonthName(r) == Some(k)
  {
    var m := Strings.NatToString(k.month);
    var y := Strings.NatToString(k.year);
    assert '/' !in m && '/' !in y;
    assert Strings.Join([m, y], "/") == m + "/" + y;
    Strings.SplitJoin([m, y], '/');
    Strings.ParseNatOfNatToString(k.month);
    Strings.ParseNatOfNatToString(k.year);
    m + "/" + y
  }

  /** How the sort comparator reads a label back: `name.split('/')` and numeric
      conversion of both halves. None for a label that is not two digit strings. */
  function ParseMonthName(s: string): Option<MonthKey>
  {
    var parts := Strings.Split(s, '/');
    if |parts| == 2 && Strings.AllDigits(parts[0]) && Strings.AllDigits(parts[1])
    then Some(MonthKey(Strings.ParseNat(parts[1]), Strings.ParseNat(parts[0])))
    else None
  }

  /** The comparator recovers exactly the (month, year) a label was built from, so
      sorting by the parsed label is sorting by the key, and two buckets share a
      label only when they share a key. */
  lemma {:induction false} ParseMonthNameRoundTrip(k: MonthKey)
    ensures ParseMonthName(MonthName(k)) == Some(k)
  {
    var m := Strings.NatToString(k.month);
    var y := Strings.NatToString(k.year);
    assert '/' !in m && '/' !in y;
    assert Strings.Join([m, y], "/") == MonthName(k);
    Strings.SplitJoin([m, y], '/');
    Strings.ParseNatOfNatToString(k.month);
    Strings.ParseNatOfNatToString(k.year);
  }

  lemma {:induction false} MonthNameInjective(a: MonthKey, b: MonthKey)
    requires MonthName(a) == MonthName(b)
    ensures a == b
  {
    ParseMonthNameRoundTrip(a);
    ParseMonthNameRoundTrip(b);
  }
}

=== FILE: month_buckets.dfy ===
/** The month-bucket fold shared, in near-identical copies, by the chart helpers, the
    overview tab, the monthly-spending tab and the balance overview: group the
    transactions by (month, year) in first-seen order, credit each amount to its
    bucket's inflow or outflow, then sort the buckets chronologically. */
module MonthBuckets {
  import opened Ledger

  /** One chart point `{ name: "M/YYYY", inflow, outflow }`; the label is derived
      from the key (see Ledger.ParseMonthNameRoundTrip). */
  datatype Bucket = Bucket(key: MonthKey, inflow: int, outflow: int)
  {
    function Name(): string
    {
      MonthName(key)
    }
  }

  /** How a copy writes the outflow update: `outflow += amount` (chart helpers,
      balance overview) or `outflow -= -amount` (overview and monthly-spending tabs). */
  datatype Spelling = PlusAmount | MinusNegated

  /** One transaction's effect on its bucket: a negative amount is subtracted from
      inflow (making inflow grow), anything else, zero included, goes to outflow. */
  function Credit(b: Bucket, amount: int, sp: Spelling): (r: Bucket)
    ensures r.key == b.key
    ensures r.inflow == b.inflow + InflowPart(amount)
    ensures r.outflow == b.outflow + OutflowPart(amount)
  {
    if amount < 0 then b.(inflow := b.inflow - amount)
    else
      match sp
      case PlusAmount => b.(outflow := b.outflow + amount)
      case MinusNegated => b.(outflow := b.outflow - -amount)
  }

  function KeySet(bs: seq<Bucket>): set<MonthKey>
  {
    set b | b in bs :: b.key
  }

  predicate DistinctKeys(bs: seq<Bucket>)
  {
    forall i, j | 0 <= i < j < |bs| :: bs[i].key != bs[j].key
  }

  /** Key set and distinctness of a list split at its head. */
  lemma {:induction false} KeysCons(b: Bucket, s: seq<Bucket>)
    ensures KeySet([b] + s) == {b.key} + KeySet(s)
    ensures DistinctKeys([b] + s) <==> b.key !in KeySet(s) && DistinctKeys(s)
  {
    KeySetCons(b, s);
    if DistinctKeys([b] + s) {
      DistinctKeysSplit(b, s);
    }
    if b.key !in KeySet(s) && DistinctKeys(s) {
      DistinctKeysJoin(b, s);
    }
  }

  lemma {:induction false} DistinctKeysSplit(b: Bucket, s: seq<Bucket>)
    requires DistinctKeys([b] + s)
    ensures b.key !in KeySet(s) && DistinctKeys(s)
  {
    var bs := [b] + s;
    assert bs[0] == b;
    assert forall j | 0 <= j < |s| :: bs[j + 1] == s[j];
    forall x | x in s ensures x.key != b.key {
      var j :| 0 <= j < |s| && s[j] == x;
      assert bs[j + 1] == x;
    }
    forall i, j | 0 <= i < j < |s| ensures s[i].key != s[j].key {
      assert bs[i + 1] == s[i] && bs[j + 1] == s[j];
    }
  }

  lemma {:induction false} DistinctKeysJoin(b: Bucket, s: seq<Bucket>)
    requires b.key !in KeySet(s) && DistinctKeys(s)
    ensures DistinctKeys([b] + s)
  {
    var bs := [b] + s;
    forall i, j | 0 <= i < j < |bs| ensures bs[i].key != bs[j].key {
      assert bs[j] == s[j - 1];
      if i > 0 {
        assert bs[i] == s[i - 1];
      } else {
        assert bs[j] in s;
      }
    }
  }

  lemma {:induction false} KeySetCons(b: Bucket, s: seq<Bucket>)
    ensures KeySet([b] + s) == {b.key} + KeySet(s)
  {
    assert forall x :: x in [b] + s <==> x == b || x in s;
  }

  /** Chronological order of a list split at its head. */
  lemma {:induction false} ChronologicalCons(b: Bucket, s: seq<Bucket>)
    ensures Chronological([b] + s) <==>
      Chronological(s) && forall x | x in s :: MonthBefore(b.key, x.key)
  {
    var bs := [b] + s;
    assert bs[0] == b;
    assert forall j | 0 <= j < |s| :: bs[j + 1] == s[j];
    if Chronological(bs) {
      forall x | x in s ensures MonthBefore(b.key, x.key) {
        var j :| 0 <= j < |s| && s[j] == x;
        assert bs[j + 1] == x;
      }
      forall i, j | 0 <= i < j < |s| ensures MonthBefore(s[i].key, s[j].key) {
        assert bs[i + 1] == s[i] && bs[j + 1] == s[j];
      }
    }
    if Chronological(s) && forall x | x in s :: MonthBefore(b.key, x.key) {
      forall i, j | 0 <= i < j < |bs| ensures MonthBefore(bs[i].key, bs[j].key) {
        assert bs[j] == s[j - 1];
        if i > 0 {
          assert bs[i] == s[i - 1];
        }
      }
    }
  }

  /** The bucket stored under `k`, or the fresh `{inflow: 0, outflow: 0}` bucket an
      aggregator creates on first sight of a month. */
  function Lookup(bs: seq<Bucket>, k: MonthKey): (r: Bucket)
    ensures r.key == k
    ensures k !in KeySet(bs) ==> r == Bucket(k, 0, 0)
  {
    if |bs| == 0 then Bucket(k, 0, 0)
    else if bs[0].key == k then bs[0]
    else Lookup(bs[1..], k)
  }

  lemma {:induction false} LookupElement(bs: seq<Bucket>, i: int)
    requires DistinctKeys(bs)
    requires 0 <= i < |bs|
    ensures Lookup(bs, bs[i].key) == bs[i]
  {
    if i > 0 {
      assert bs[0].key != bs[i].key;
      LookupElement(bs[1..], i - 1);
    }
  }

  /** The body of the `forEach` callback: find or create the month's bucket, then
      credit the amount to it. Every other bucket is left as it was. */
  function AddTxn(bs: seq<Bucket>, t: Txn, sp: Spelling): (r: seq<Bucket>)
    ensures KeySet(r) == KeySet(bs) + {KeyOf(t)}
    ensures DistinctKeys(bs) ==> DistinctKeys(r)
    ensures forall k ::
              Lookup(r, k) == if k == KeyOf(t) then Credit(Lookup(bs, k), t.amount, sp) else Lookup(bs, k)
  {
    if |bs| == 0 then [Credit(Bucket(KeyOf(t), 0, 0), t.amount, sp)]
    else if bs[0].key == KeyOf(t) then
      AddAtHead(bs, t, sp);
      [Credit(bs[0], t.amount, sp)] + bs[1..]
    else
      var rest := AddTxn(bs[1..], t, sp);
      AddBehind(bs, t, sp, rest);
      [bs[0]] + rest
  }

  /** The month is the head's: that bucket is credited in place. */
  lemma {:induction false} AddAtHead(bs: seq<Bucket>, t: Txn, sp: Spelling)
    requires |bs| > 0 && bs[0].key == KeyOf(t)
    ensures KeySet([Credit(bs[0], t.amount, sp)] + bs[1..]) == KeySet(bs) + {KeyOf(t)}
    ensures DistinctKeys(bs) ==> DistinctKeys([Credit(bs[0], t.amount, sp)] + bs[1..])
    ensures forall k :: (Lookup([Credit(bs[0], t.amount, sp)] + bs[1..], k)
      == if k == KeyOf(t) then Credit(Lookup(bs, k), t.amount, sp) else Lookup(bs, k))
  {
    var r := [Credit(bs[0], t.amount, sp)] + bs[1..];
    assert bs == [bs[0]] + bs[1..];
    KeysCons(bs[0], bs[1..]);
    KeysCons(Credit(bs[0], t.amount, sp), bs[1..]);
    assert r[1..] == bs[1..];
  }

  /** The month is further on: the head is kept and the rest is updated. */
  lemma {:induction false} AddBehind(bs: seq<Bucket>, t: Txn, sp: Spelling, rest: seq<Bucket>)
    requires |bs| > 0 && bs[0].key != KeyOf(t)
    requires KeySet(rest) == KeySet(bs[1..]) + {KeyOf(t)}
    requires DistinctKeys(bs[1..]) ==> DistinctKeys(rest)
    requires forall k :: Lookup(rest, k) == if k == KeyOf(t) then Credit(Lookup(bs[1..], k), t.amount, sp) else Lookup(bs[1..], k)
    ensures KeySet([bs[0]] + rest) == KeySet(bs) + {KeyOf(t)}
    ensures DistinctKeys(bs) ==> DistinctKeys([bs[0]] + rest)
    ensures forall k :: (Lookup([bs[0]] + rest, k)
      == if k == KeyOf(t) then Credit(Lookup(bs, k), t.amount, sp) else Lookup(bs, k))
  {
    AddBehindKeys(bs, KeyOf(t), rest);
    var r := [bs[0]] + rest;
    assert r[0] == bs[0] && r[1..] == rest;
  }

  lemma {:induction false} AddBehindKeys(bs: seq<Bucket>, k: MonthKey, rest: seq<Bucket>)
    requires |bs| > 0 && bs[0].key != k
    requires KeySet(rest) == KeySet(bs[1..]) + {k}
    requires DistinctKeys(bs[1..]) ==> DistinctKeys(rest)
    ensures KeySet([bs[0]] + rest) == KeySet(bs) + {k}
    ensures DistinctKeys(bs) ==> DistinctKeys([bs[0]] + rest)
  {
    assert bs == [bs[0]] + bs[1..];
    KeysCons(bs[0], bs[1..]);
    KeysCons(bs[0], rest);
  }

  /** Independent reference: the inflow of month `k` is the sum of the inflow parts
      of exactly the transactions dated in that month. */
  function MonthInflow(ts: seq<Txn>, k: MonthKey): (r: int)
    ensures r >= 0
  {
    if |ts| == 0 then 0
    else
      var t := ts[|ts| - 1];
      MonthInflow(ts[..|ts| - 1], k) + (if KeyOf(t) == k then InflowPart(t.amount) else 0)
  }

  function MonthOutflow(ts: seq<Txn>, k: MonthKey): (r: int)
    ensures r >= 0
  {
    if |ts| == 0 then 0
    else
      var t := ts[|ts| - 1];
      MonthOutflow(ts[..|ts| - 1], k) + (if KeyOf(t) == k then OutflowPart(t.amount) else 0)
  }

  function ReferenceBucket(ts: seq<Txn>, k: MonthKey): Bucket
  {
    Bucket(k, MonthInflow(ts, k), MonthOutflow(ts, k))
  }

  /** The months that occur in the input. */
  function Months(ts: seq<Txn>): set<MonthKey>
  {
    set t | t in ts :: KeyOf(t)
  }

  /** The grouping pass over the whole list, in input order. It yields exactly one
      bucket per month of the input, and each bucket holds that month's inflow and
      outflow sums. */
  function Group(ts: seq<Txn>, sp: Spelling): (r: seq<Bucket>)
    ensures DistinctKeys(r)
    ensures KeySet(r) == Months(ts)
    ensures forall k :: Lookup(r, k) == ReferenceBucket(ts, k)
  {
    if |ts| == 0 then []
    else
      var g := Group(ts[..|ts| - 1], sp);
      GroupStep(ts, sp, g);
      AddTxn(g, ts[|ts| - 1], sp)
  }

  /** Adding the last transaction to the grouping of the others groups the whole list. */
  lemma {:induction false} GroupStep(ts: seq<Txn>, sp: Spelling, g: seq<Bucket>)
    requires |ts| > 0
    requires DistinctKeys(g)
    requires KeySet(g) == Months(ts[..|ts| - 1])
    requires forall k :: Lookup(g, k) == ReferenceBucket(ts[..|ts| - 1], k)
    ensures DistinctKeys(AddTxn(g, ts[|ts| - 1], sp))
    ensures KeySet(AddTxn(g, ts[|ts| - 1], sp)) == Months(ts)
    ensures forall k :: Lookup(AddTxn(g, ts[|ts| - 1], sp), k) == ReferenceBucket(ts, k)
  {
    var prefix := ts[..|ts| - 1];
    assert Months(ts) == Months(prefix) + {KeyOf(ts[|ts| - 1])} by {
      assert ts == prefix + [ts[|ts| - 1]];
    }
  }

  /** Strictly ascending by (year, month). */
  predicate Chronological(bs: seq<Bucket>)
  {
    forall i, j | 0 <= i < j < |bs| :: MonthBefore(bs[i].key, bs[j].key)
  }

  /** One insertion step of the chronological sort. */
  function InsertByMonth(b: Bucket, s: seq<Bucket>): (r: seq<Bucket>)
    requires Chronological(s)
    requires b.key !in KeySet(s)
    ensures Chronological(r)
    ensures multiset(r) == multiset(s) + multiset{b}
    ensures forall x :: x in r <==> x == b || x in s
    ensures KeySet(r) == KeySet(s) + {b.key}
  {
    if |s| == 0 then [b]
    else if MonthBefore(b.key, s[0].key) then
      MonthFront(b, s);
      [b] + s
    else
      var rest := InsertByMonth(b, s[1..]);
      MonthBehind(b, s, rest);
      [s[0]] + rest
  }

  /** `b` goes first when its month comes before the head's. */
  lemma {:induction false} MonthFront(b: Bucket, s: seq<Bucket>)
    requires Chronological(s) && |s| > 0 && MonthBefore(b.key, s[0].key)
    ensures Chronological([b] + s)
    ensures KeySet([b] + s) == KeySet(s) + {b.key}
  {
    KeysCons(b, s);
    ChronologicalCons(b, s);
    forall x | x in s ensures MonthBefore(b.key, x.key) {
      var j :| 0 <= j < |s| && s[j] == x;
      if j > 0 {
        assert MonthBefore(s[0].key, s[j].key);
      }
    }
  }

  /** The head stays first when `b` comes after it and is inserted into the tail. */
  lemma {:induction false} MonthBehind(b: Bucket, s: seq<Bucket>, rest: seq<Bucket>)
    requires Chronological(s) && |s| > 0 && !MonthBefore(b.key, s[0].key)
    requires b.key !in KeySet(s)
    requires Chronological(rest)
    requires multiset(rest) == multiset(s[1..]) + multiset{b}
    requires forall x :: x in rest <==> x == b || x in s[1..]
    requires KeySet(rest) == KeySet(s[1..]) + {b.key}
    ensures Chronological([s[0]] + rest)
    ensures multiset([s[0]] + rest) == multiset(s) + multiset{b}
    ensures forall x :: x in [s[0]] + rest <==> x == b || x in s
    ensures KeySet([s[0]] + rest) == KeySet(s) + {b.key}
  {
    assert s == [s[0]] + s[1..];
    KeysCons(s[0], s[1..]);
    ChronologicalCons(s[0], s[1..]);
    KeysCons(s[0], rest);
    ChronologicalCons(s[0], rest);
  }

  /** The chronological sort `Object.values(...).sort(byParsedName)`: a permutation of
      its input, strictly ascending because month keys are distinct. */
  function SortByMonth(bs: seq<Bucket>): (r: seq<Bucket>)
    requires DistinctKeys(bs)
    ensures Chronological(r)
    ensures multiset(r) == multiset(bs)
    ensures forall x :: x in r <==> x in bs
    ensures KeySet(r) == KeySet(bs)
  {
    if |bs| == 0 then []
    else
      assert bs == [bs[0]] + bs[1..];
      InsertByMonth(bs[0], SortByMonth(bs[1..]))
  }

  /** The whole per-copy computation for a non-empty list. */
  function Monthly(ts: seq<Txn>, sp: Spelling): seq<Bucket>
  {
    SortByMonth(Group(ts, sp))
  }

  /** What every copy's monthly series is: strictly chronological, one bucket per
      month of the input and no other, each bucket carrying exactly its month's
      inflow and outflow sums, both non-negative. */
  lemma {:induction false} MonthlySpec(ts: seq<Txn>, sp: Spelling)
    ensures Chronological(Monthly(ts, sp))
    ensures KeySet(Monthly(ts, sp)) == Months(ts)
    ensures forall i | 0 <= i < |Monthly(ts, sp)| ::
      Monthly(ts, sp)[i] == ReferenceBucket(ts, Monthly(ts, sp)[i].key)
    ensures forall i | 0 <= i < |Monthly(ts, sp)| ::
      Monthly(ts, sp)[i].inflow >= 0 && Monthly(ts, sp)[i].outflow >= 0
  {
    var g := Group(ts, sp);
    var r := Monthly(ts, sp);
    forall i | 0 <= i < |r|
      ensures r[i] == ReferenceBucket(ts, r[i].key)
    {
      assert r[i] in g;
      var j :| 0 <= j < |g| && g[j] == r[i];
      LookupElement(g, j);
    }
  }

  /** The spelling of the outflow update does not matter for numeric amounts. */
  lemma {:induction false} GroupSpellingIrrelevant(ts: seq<Txn>)
    ensures Group(ts, PlusAmount) == Group(ts, MinusNegated)
  {
    if |ts| > 0 {
      GroupSpellingIrrelevant(ts[..|ts| - 1]);
      AddTxnSpellingIrrelevant(Group(ts[..|ts| - 1], PlusAmount), ts[|ts| - 1]);
    }
  }

  lemma {:induction false} AddTxnSpellingIrrelevant(bs: seq<Bucket>, t: Txn)
    ensures AddTxn(bs, t, PlusAmount) == AddTxn(bs, t, MinusNegated)
  {
    if |bs| > 0 && bs[0].key != KeyOf(t) {
      AddTxnSpellingIrrelevant(bs[1..], t);
    }
  }

  function SumInflow(bs: seq<Bucket>): int
  {
    if |bs| == 0 then 0 else bs[0].inflow + SumInflow(bs[1..])
  }

  function SumOutflow(bs: seq<Bucket>): int
  {
    if |bs| == 0 then 0 else bs[0].outflow + SumOutflow(bs[1..])
  }

  lemma {:induction false} AddTxnSums(bs: seq<Bucket>, t: Txn, sp: Spelling)
    ensures SumInflow(AddTxn(bs, t, sp)) == SumInflow(bs) + InflowPart(t.amount)
    ensures SumOutflow(AddTxn(bs, t, sp)) == SumOutflow(bs) + OutflowPart(t.amount)
  {
    if |bs| == 0 {
    } else if bs[0].key == KeyOf(t) {
      assert AddTxn(bs, t, sp)[1..] == bs[1..];
    } else {
      AddTxnSums(bs[1..], t, sp);
      assert AddTxn(bs, t, sp)[1..] == AddTxn(bs[1..], t, sp);
    }
  }

  /** Every transaction is counted in exactly one bucket: the buckets' inflows and
      outflows add up to the list's totals. */
  lemma {:induction false} GroupSums(ts: seq<Txn>, sp: Spelling)
    ensures SumInflow(Group(ts, sp)) == TotalInflow(ts)
    ensures SumOutflow(Group(ts, sp)) == TotalOutflow(ts)
  {
    if |ts| > 0 {
      GroupSums(ts[..|ts| - 1], sp);
      AddTxnSums(Group(ts[..|ts| - 1], sp), ts[|ts| - 1], sp);
    }
  }

  lemma {:induction false} InsertSums(b: Bucket, s: seq<Bucket>)
    requires Chronological(s)
    requires b.key !in KeySet(s)
    ensures SumInflow(InsertByMonth(b, s)) == b.inflow + SumInflow(s)
    ensures SumOutflow(InsertByMonth(b, s)) == b.outflow + SumOutflow(s)
  {
    if |s| > 0 && !MonthBefore(b.key, s[0].key) {
      InsertSums(b, s[1..]);
      assert InsertByMonth(b, s)[1..] == InsertByMonth(b, s[1..]);
    }
  }

  lemma {:induction false} SortSums(bs: seq<Bucket>)
    requires DistinctKeys(bs)
    ensures SumInflow(SortByMonth(bs)) == SumInflow(bs)
    ensures SumOutflow(SortByMonth(bs)) == SumOutflow(bs)
  {
    if |bs| > 0 {
      SortSums(bs[1..]);
      InsertSums(bs[0], SortByMonth(bs[1..]));
    }
  }

  /** The monthly series accounts for every transaction exactly once. */
  lemma {:induction false} MonthlySums(ts: seq<Txn>, sp: Spelling)
    ensures SumInflow(Monthly(ts, sp)) == TotalInflow(ts)
    ensures SumOutflow(Monthly(ts, sp)) == TotalOutflow(ts)
  {
    GroupSums(ts, sp);
    SortSums(Group(ts, sp));
  }
}

=== FILE: monthly_spending_tab.dfy ===
/** The monthly-spending tab's `monthlyData` memo: the month-bucket fold with the
    outflow written `-= -amount`, on a list the caller never passes as null. */
module MonthlySpendingTab {
  import opened Wrappers
  import opened Ledger
  import opened MonthBuckets
  import ChartHelpers

  function MonthlyData(ts: seq<Txn>): (r: seq<Bucket>)
    ensures |ts| == 0 ==> r == []
    ensures Chronological(r)
    ensures KeySet(r) == Months(ts)
    ensures forall i | 0 <= i < |r| :: r[i] == ReferenceBucket(ts, r[i].key)
    ensures forall i | 0 <= i < |r| :: r[i].inflow >= 0 && r[i].outflow >= 0
  {
    if |ts| == 0 then []
    else
      MonthlySpec(ts, MinusNegated);
      Monthly(ts, MinusNegated)
  }

  /** For numeric amounts this copy agrees with the chart helpers. */
  lemma {:induction false} MatchesChartHelpers(ts: seq<Txn>)
    ensures MonthlyData(ts) == ChartHelpers.ProcessMonthlyData(Some(ts))
  {
    GroupSpellingIrrelevant(ts);
  }
}

=== FILE: overview_tab.dfy ===
/** The overview tab's `processedTransactionData`: a single pass that builds the month
    buckets, the signed and the outflow-only category totals, the running inflow and
    outflow and the largest transaction at once, followed by the sorts. */
module OverviewTab {
  import opened Wrappers
  import opened Ledger
  import opened MonthBuckets
  import opened CategoryTally
  import opened Summary
  import ChartHelpers

  /** Everything the `forEach` callback updates. */
  datatype Acc = Acc(
    months: seq<Bucket>,
    categoryTotals: seq<Entry>,
    positiveCategoryTotals: seq<Entry>,
    inflow: int,
    outflow: int,
    largest: Pick)

  /** One call of the callback. The outflow side is written `-= -amount`; the signed
      total `categoryTotals[c] -= -amount` adds the amount; the positive total's key
      is created for every transaction but only a positive amount is added to it. */
  function Step(acc: Acc, t: Txn): (r: Acc)
    ensures r.months == AddTxn(acc.months, t, PlusAmount)
    ensures r.categoryTotals == Bump(acc.categoryTotals, KeyFor(Signed, t), Delta(Signed, t))
    ensures r.positiveCategoryTotals == Bump(acc.positiveCategoryTotals, KeyFor(OutflowOnly, t), Delta(OutflowOnly, t))
    ensures r.inflow == acc.inflow + InflowPart(t.amount) && r.outflow == acc.outflow + OutflowPart(t.amount)
    ensures r.largest == acc.largest || r.largest == Picked(t)
    ensures Abs(PickAmount(r.largest)) >= Abs(PickAmount(acc.largest)) && Abs(PickAmount(r.largest)) >= Abs(t.amount)
    ensures Abs(t.amount) <= Abs(PickAmount(acc.largest)) ==> r.largest == acc.largest
  {
    var c := CategoryKey(t);
    AddTxnSpellingIrrelevant(acc.months, t);
    Acc(
      AddTxn(acc.months, t, MinusNegated),
      Bump(acc.categoryTotals, c, t.amount),
      Bump(acc.positiveCategoryTotals, c, if t.amount > 0 then t.amount else 0),
      if t.amount < 0 then acc.inflow - t.amount else acc.inflow,
      if t.amount < 0 then acc.outflow else acc.outflow - -t.amount,
      Track(acc.largest, t))
  }

  /** The `forEach` pass over the whole list: it computes, component by component, the
      separate folds the other copies use. */
  function Pass(ts: seq<Txn>): (r: Acc)
    ensures r == Acc(Group(ts, MinusNegated), Tally(Signed, ts), Tally(OutflowOnly, ts),
                     TotalInflow(ts), TotalOutflow(ts), Scan(ts))
  {
    if |ts| == 0 then Acc([], [], [], 0, 0, Placeholder)
    else
      var acc := Pass(ts[..|ts| - 1]);
      StepExtendsFolds(ts, acc);
      Step(acc, ts[|ts| - 1])
  }

  /** The separate folds of all but the last transaction, stepped by the last one, are
      the separate folds of the whole list. */
  lemma {:induction false} StepExtendsFolds(ts: seq<Txn>, acc: Acc)
    requires |ts| > 0
    requires var p := ts[..|ts| - 1];
      acc == Acc(Group(p, MinusNegated), Tally(Signed, p), Tally(OutflowOnly, p), TotalInflow(p), TotalOutflow(p), Scan(p))
    ensures Step(acc, ts[|ts| - 1]) ==
      Acc(Group(ts, MinusNegated), Tally(Signed, ts), Tally(OutflowOnly, ts), TotalInflow(ts), TotalOutflow(ts), Scan(ts))
  {
    var t := ts[|ts| - 1];
    TallyStep(Signed, ts);
    TallyStep(OutflowOnly, ts);
    AddTxnSpellingIrrelevant(acc.months, t);
    var r := Step(acc, t);
    assert r.months == Group(ts, MinusNegated);
    assert r.categoryTotals == Tally(Signed, ts);
    assert r.positiveCategoryTotals == Tally(OutflowOnly, ts);
    assert r.inflow == TotalInflow(ts) && r.outflow == TotalOutflow(ts);
    assert r.largest == Scan(ts);
  }

  /** The month buckets of the pass are the `-= -amount` grouping. */
  lemma {:induction false} PassMonths(ts: seq<Txn>)
    ensures Pass(ts).months == Group(ts, MinusNegated)
  {
    if |ts| > 0 {
      PassMonths(ts[..|ts| - 1]);
    }
  }

  /** The signed category totals of the pass are the signed tally. */
  lemma {:induction false} PassSignedTotals(ts: seq<Txn>)
    ensures Pass(ts).categoryTotals == Tally(Signed, ts)
  {
    if |ts| > 0 {
      PassSignedTotals(ts[..|ts| - 1]);
      TallyStep(Signed, ts);
    }
  }

  /** The positive category totals of the pass are the outflow-only tally. */
  lemma {:induction false} PassPositiveTotals(ts: seq<Txn>)
    ensures Pass(ts).positiveCategoryTotals == Tally(OutflowOnly, ts)
  {
    if |ts| > 0 {
      var p, t := ts[..|ts| - 1], ts[|ts| - 1];
      PassPositiveTotals(p);
      TallyStep(OutflowOnly, ts);
      assert Pass(ts).positiveCategoryTotals == Bump(Pass(p).positiveCategoryTotals, KeyFor(OutflowOnly, t), Delta(OutflowOnly, t));
    }
  }

  /** The running inflow, outflow and largest transaction of the pass. */
  lemma {:induction false} PassRunning(ts: seq<Txn>)
    ensures Pass(ts).inflow == TotalInflow(ts)
    ensures Pass(ts).outflow == TotalOutflow(ts)
    ensures Pass(ts).largest == Scan(ts)
  {
    PassFlows(ts);
    PassLargest(ts);
  }

  lemma {:induction false} PassFlows(ts: seq<Txn>)
    ensures Pass(ts).inflow == TotalInflow(ts)
    ensures Pass(ts).outflow == TotalOutflow(ts)
  {
    if |ts| > 0 {
      var p, t := ts[..|ts| - 1], ts[|ts| - 1];
      PassFlows(p);
      assert Pass(ts) == Step(Pass(p), t);
      assert Pass(ts).inflow == Pass(p).inflow + InflowPart(t.amount);
      assert Pass(ts).outflow == Pass(p).outflow + OutflowPart(t.amount);
    }
  }

  lemma {:induction false} PassLargest(ts: seq<Txn>)
    ensures Pass(ts).largest == Scan(ts)
  {
    if |ts| > 0 {
      var p := ts[..|ts| - 1];
      PassLargest(p);
      assert Pass(ts).largest == Track(Pass(p).largest, ts[|ts| - 1]);
    }
  }

  /** The single pass computes, component by component, the same thing as the
      separate folds of the other copies. */
  lemma {:induction false} PassMatchesSeparateFolds(ts: seq<Txn>)
    ensures Pass(ts) == Acc(Group(ts, MinusNegated), Tally(Signed, ts), Tally(OutflowOnly, ts),
                            TotalInflow(ts), TotalOutflow(ts), Scan(ts))
  {
    PassMonths(ts);
    PassSignedTotals(ts);
    PassPositiveTotals(ts);
    PassRunning(ts);
  }

  /** The `summary` object built from the pass's running values. */
  function StatsOf(acc: Acc, count: nat): Stats
    requires count > 0
  {
    Stats(count, acc.inflow, acc.outflow, acc.inflow - acc.outflow, LargestOf(acc.largest),
      Average(acc.inflow, acc.outflow, count))
  }

  datatype Overview = Overview(
    monthlyData: seq<Bucket>,
    categoryData: seq<Entry>,
    positiveCategoryData: seq<Entry>,
    summary: Option<Stats>)

  /** `processedTransactionData`. On an empty list every array is empty and the
      summary is the empty object `{}` (None), not a zeroed summary. */
  function Process(ts: seq<Txn>): (r: Overview)
    ensures |ts| == 0 ==> r == Overview([], [], [], None)
    ensures r.summary.Some? <==> |ts| > 0
    ensures Chronological(r.monthlyData)
    ensures Descending(r.categoryData) && Descending(r.positiveCategoryData)
    ensures DistinctNames(r.categoryData) && DistinctNames(r.positiveCategoryData)
  {
    if |ts| == 0 then Overview([], [], [], None)
    else
      PassMatchesSeparateFolds(ts);
      var acc := Pass(ts);
      Overview(
        SortByMonth(acc.months),
        SortByValue(acc.categoryTotals),
        SortByValue(acc.positiveCategoryTotals),
        Some(StatsOf(acc, |ts|)))
  }

  /** On a non-empty list the two category arrays are the sorted separate tallies. */
  lemma {:induction false} CategoryArraysAreSortedTallies(ts: seq<Txn>)
    requires |ts| > 0
    ensures Process(ts).categoryData == SortByValue(Tally(Signed, ts))
    ensures Process(ts).positiveCategoryData == SortByValue(Tally(OutflowOnly, ts))
  {
    PassSignedTotals(ts);
    PassPositiveTotals(ts);
  }

  /** The overview's monthly series is the chart helpers' series for the same input. */
  lemma {:induction false} MonthlyMatchesChartHelpers(ts: seq<Txn>)
    ensures Process(ts).monthlyData == ChartHelpers.ProcessMonthlyData(Some(ts))
  {
    PassMatchesSeparateFolds(ts);
    GroupSpellingIrrelevant(ts);
  }

  /** On a non-empty list the overview's summary is the chart helpers' summary: the
      same counts, totals, net flow, average and largest transaction. */
  lemma {:induction false} SummaryMatchesChartHelpers(ts: seq<Txn>)
    requires |ts| > 0
    ensures Process(ts).summary == Some(ChartHelpers.CalculateTransactionSummary(Some(ts)))
  {
    SummaryIsReference(ts);
    ChartHelpers.SummaryIsReference(ts);
  }

  /** On a non-empty list the summary is the reference summary. */
  lemma {:induction false} SummaryIsReference(ts: seq<Txn>)
    requires |ts| > 0
    ensures Process(ts).summary == Some(ReferenceStats(ts))
  {
    PassStatsAreReference(ts);
  }

  lemma {:induction false} PassStatsAreReference(ts: seq<Txn>)
    requires |ts| > 0
    ensures StatsOf(Pass(ts), |ts|) == ReferenceStats(ts)
  {
    PassRunning(ts);
  }

  /** The two category arrays: each a permutation of its totals, keyed by the same
      categories (those of the input). */
  lemma {:induction false} CategoryArraysSpec(ts: seq<Txn>)
    ensures |ts| > 0 ==> multiset(Process(ts).categoryData) == multiset(Tally(Signed, ts))
    ensures |ts| > 0 ==> multiset(Process(ts).positiveCategoryData) == multiset(Tally(OutflowOnly, ts))
    ensures NameSet(Process(ts).categoryData) == NameSet(Process(ts).positiveCategoryData)
    ensures NameSet(Process(ts).categoryData) == Keys(Signed, ts)
  {
    if |ts| > 0 {
      CategoryArraysAreSortedTallies(ts);
      CategoryNames(ts);
    }
  }

  /** Both sorted tallies are keyed by the input's categories. */
  lemma {:induction false} CategoryNames(ts: seq<Txn>)
    ensures NameSet(SortByValue(Tally(Signed, ts))) == Keys(Signed, ts)
    ensures NameSet(SortByValue(Tally(OutflowOnly, ts))) == Keys(Signed, ts)
  {
    SortedTallySpec(Signed, ts);
    SortedTallySpec(OutflowOnly, ts);
    assert Keys(OutflowOnly, ts) == Keys(Signed, ts);
  }

  /** The signed array holds signed sums and the positive one non-negative sums of
      outflow amounts. */
  lemma {:induction false} CategoryValuesSpec(ts: seq<Txn>)
    ensures forall e | e in Process(ts).categoryData :: e.value == CategorySum(Signed, ts, e.name)
    ensures forall e | e in Process(ts).positiveCategoryData ::
      e.value == CategorySum(OutflowOnly, ts, e.name) && e.value >= 0
  {
    if |ts| > 0 {
      CategoryArraysAreSortedTallies(ts);
      SortedTallySpec(Signed, ts);
      SortedTallySpec(OutflowOnly, ts);
      forall n { NonNegativeSums(OutflowOnly, ts, n); }
    }
  }

  /** The positive category values add up to the summary's total outflow. */
  lemma {:induction false} PositiveCategoriesSumToOutflow(ts: seq<Txn>)
    requires |ts| > 0
    ensures SumValues(Process(ts).positiveCategoryData) == Process(ts).summary.value.totalOutflow
  {
    PassMatchesSeparateFolds(ts);
    SortedTallySum(OutflowOnly, ts);
    OutflowOnlyTotal(ts);
  }

  /** The signed category values add up to outflow minus inflow. */
  lemma {:induction false} SignedCategoriesSumToNegatedNetFlow(ts: seq<Txn>)
    requires |ts| > 0
    ensures SumValues(Process(ts).categoryData) == -Process(ts).summary.value.netCashFlow
  {
    PassMatchesSeparateFolds(ts);
    SortedTallySum(Signed, ts);
    SignedDeltaTotal(ts);
    TotalsSplitSignedSum(ts);
  }

  /** The summary fields on a non-empty list, and the monthly buckets' sums agree with
      the summary totals. */
  lemma {:induction false} SummarySpec(ts: seq<Txn>)
    requires |ts| > 0
    ensures Process(ts).summary.value.totalTransactions == |ts|
    ensures Process(ts).summary.value.netCashFlow ==
      Process(ts).summary.value.totalInflow - Process(ts).summary.value.totalOutflow
    ensures Process(ts).summary.value.averageTransaction == Average(TotalInflow(ts), TotalOutflow(ts), |ts|)
    ensures Process(ts).summary.value.largestTransaction == LargestOf(Scan(ts))
    ensures SumInflow(Process(ts).monthlyData) == Process(ts).summary.value.totalInflow
    ensures SumOutflow(Process(ts).monthlyData) == Process(ts).summary.value.totalOutflow
  {
    PassRunning(ts);
    PassMonths(ts);
    MonthlySums(ts, MinusNegated);
  }

  /** A signed category total can be negative: a single income transaction gives its
      category a negative value. */
  lemma {:induction false} SignedCategoryCanBeNegative()
    ensures
      var income := Txn("1", Date(2024, 1, 5), -10000, "Salary", "", Some("Income"), "acc");
      Process([income]).categoryData == [Entry("Income", -10000)]
      && Process([income]).positiveCategoryData == [Entry("Income", 0)]
  {
  }
}

=== FILE: register.dfy ===
/** The registration form's submit handler: the password check, the redirect after a
    successful registration and the formatting of the error the backend returns. */
module Register {
  import opened Wrappers
  import opened Strings

  /** A value in the backend's error object: one message or a list of them. */
  datatype FieldValue = Single(message: string) | Many(messages: seq<string>)

  /** `result.error`: absent (or null), a plain string, or an object whose entries are
      listed in key order. */
  datatype ErrorValue = Absent | Text(text: string) | Fields(entries: seq<(string, FieldValue)>)

  /** What `register` resolves to. */
  datatype Reply = Success(hasTokens: bool) | Failure(error: ErrorValue)

  const MismatchMessage: string := "Passwords do not match"
  const DefaultMessage: string := "Registration failed"

  /** `${key}: ${Array.isArray(value) ? value.join(', ') : value}`. */
  function Line(key: string, v: FieldValue): (r: string)
    ensures |r| >= |key| + 2 && r[..|key| + 2] == key + ": "
  {
    var shown := match v
      case Single(m) => m
      case Many(ms) => Join(ms, ", ");
    key + ": " + shown
  }

  function Lines(entries: seq<(string, FieldValue)>): (r: seq<string>)
    ensures |r| == |entries|
    ensures forall i | 0 <= i < |entries| :: r[i] == Line(entries[i].0, entries[i].1)
  {
    if |entries| == 0 then [] else [Line(entries[0].0, entries[0].1)] + Lines(entries[1..])
  }

  /** The message shown for a failed registration. An object error becomes one line per
      entry; a falsy error (absent or "") falls back to the default message. */
  function ErrorMessage(e: ErrorValue): (r: string)
    ensures e.Absent? ==> r == DefaultMessage
    ensures e.Text? ==> r == if e.text == "" then DefaultMessage else e.text
    ensures e.Fields? && |e.entries| == 0 ==> r == ""
  {
    match e
    case Absent => DefaultMessage
    case Text(s) => if s == "" then DefaultMessage else s
    case Fields(entries) => Join(Lines(entries), "\n")
  }

  /** No newline anywhere in a value. */
  predicate ValueFree(v: FieldValue)
  {
    match v
    case Single(m) => '\n' !in m
    case Many(ms) => forall i | 0 <= i < |ms| :: '\n' !in ms[i]
  }

  /** A line holds a newline only if its key or value does. */
  lemma {:induction false} LineFree(key: string, v: FieldValue)
    requires '\n' !in key && ValueFree(v)
    ensures '\n' !in Line(key, v)
  {
    if v.Many? {
      JoinFree(v.messages, ", ", '\n');
    }
  }

  lemma {:induction false} LinesFree(entries: seq<(string, FieldValue)>)
    requires forall i | 0 <= i < |entries| :: '\n' !in entries[i].0 && ValueFree(entries[i].1)
    ensures forall i | 0 <= i < |entries| :: '\n' !in Lines(entries)[i]
  {
    forall i | 0 <= i < |entries| ensures '\n' !in Lines(entries)[i] {
      LineFree(entries[i].0, entries[i].1);
    }
  }

  /** A formatted object error splits back into its lines, one per entry, as long as
      no key or value holds a newline itself. */
  lemma {:induction false} ErrorLinesRoundTrip(entries: seq<(string, FieldValue)>)
    requires |entries| > 0
    requires forall i | 0 <= i < |entries| :: '\n' !in entries[i].0 && ValueFree(entries[i].1)
    ensures Split(ErrorMessage(Fields(entries)), '\n') == Lines(entries)
  {
    LinesFree(entries);
    SplitLines(Lines(entries));
  }

  lemma {:induction false} SplitLines(ls: seq<string>)
    requires |ls| > 0
    requires forall i | 0 <= i < |ls| :: '\n' !in ls[i]
    ensures Split(Join(ls, "\n"), '\n') == ls
  {
    SplitJoin(ls, '\n');
  }

  /** The form's visible state. */
  datatype Form = Form(password: string, password2: string, error: Option<string>, loading: bool)

  /** The result of a submit: the new state, whether `register` was called, and the
      route navigated to, if any. */
  datatype Outcome = Outcome(form: Form, registerCalled: bool, navigateTo: Option<string>)

  /** `onSubmit`, with the backend's reply as a parameter. */
  function Submit(f: Form, reply: Reply): (r: Outcome)
    ensures f.password != f.password2 ==>
      r == Outcome(f.(error := Some(MismatchMessage)), false, None)
    ensures f.password == f.password2 ==> r.registerCalled
    ensures f.password == f.password2 && reply.Success? ==>
      && r.form.error.None? && r.form.loading
      && r.navigateTo == Some(if reply.hasTokens then "/dashboard" else "/login")
    ensures f.password == f.password2 && reply.Failure? ==>
      && r.form.error == Some(ErrorMessage(reply.error))
      && !r.form.loading
      && r.navigateTo.None?
  {
    if f.password != f.password2 then Outcome(f.(error := Some(MismatchMessage)), false, None)
    else
      var pending := f.(loading := true, error := None);
      match reply
      case Success(hasTokens) =>
        Outcome(pending, true, Some(if hasTokens then "/dashboard" else "/login"))
      case Failure(e) =>
        Outcome(pending.(error := Some(ErrorMessage(e)), loading := false), true, None)
  }

  /** A submit navigates away exactly when the passwords agree and registration
      succeeds; otherwise the form stays with an error and is no longer loading,
      unless the check failed before loading started. */
  lemma {:induction false} SubmitNavigatesIffSuccess(f: Form, reply: Reply)
    ensures Submit(f, reply).navigateTo.Some? <==> f.password == f.password2 && reply.Success?
    ensures Submit(f, reply).navigateTo.None? ==> Submit(f, reply).form.error.Some?
    ensures Submit(f, reply).navigateTo.None? ==> Submit(f, reply).form.loading == (f.loading && f.password != f.password2)
  {
  }

  /** The object format on two entries: a list value is joined with commas and the
      entries with a newline, e.g. `username: taken, too short\nemail: invalid`. */
  lemma {:induction false} TwoEntryFormat(k1: string, a: string, b: string, k2: string, c: string)
    ensures ErrorMessage(Fields([(k1, Many([a, b])), (k2, Single(c))]))
      == (k1 + ": " + (a + ", " + b)) + "\n" + (k2 + ": " + c)
  {
    var x, y := k1 + ": " + (a + ", " + b), k2 + ": " + c;
    TwoLines(k1, a, b, k2, c);
    assert [x, y][1..] == [y];
    assert Join([x, y], "\n") == x + "\n" + y;
  }

  lemma {:induction false} TwoLines(k1: string, a: string, b: string, k2: string, c: string)
    ensures Lines([(k1, Many([a, b])), (k2, Single(c))]) == [k1 + ": " + (a + ", " + b), k2 + ": " + c]
  {
    var entries := [(k1, Many([a, b])), (k2, Single(c))];
    assert Join([a, b], ", ") == a + ", " + b by {
      assert [a, b][1..] == [b];
    }
  }
}

=== FILE: strings.dfy ===
/** Character-level helpers shared by the model: decimal rendering and parsing of
    naturals, JavaScript's `split` and `join` on one-character separators, ASCII
    lower-casing, substring search and lexicographic order. */
module Strings {

  predicate IsDigit(c: char)
  {
    '0' <= c <= '9'
  }

  predicate AllDigits(s: string)
  {
    forall i | 0 <= i < |s| :: IsDigit(s[i])
  }

  function DigitChar(d: nat): (c: char)
    requires d < 10
    ensures IsDigit(c)
  {
    (('0' as int) + d) as char
  }

  function DigitValue(c: char): (d: nat)
    requires IsDigit(c)
    ensures d < 10
  {
    (c as int) - ('0' as int)
  }

  /** Decimal rendering of a natural number without leading zeros, as JavaScript's
      template literals and Python's f-strings print integers. */
  function NatToString(n: nat): (s: string)
    ensures |s| > 0
    ensures AllDigits(s)
    ensures n < 10 <==> |s| == 1
  {
    if n < 10 then [DigitChar(n)] else NatToString(n / 10) + [DigitChar(n % 10)]
  }

  /** Reads a string of decimal digits back as a natural (JavaScript's `Number` on a
      digit string). */
  function ParseNat(s: string): nat
    requires AllDigits(s)
  {
    if |s| == 0 then 0 else ParseNat(s[..|s| - 1]) * 10 + DigitValue(s[|s| - 1])
  }

  lemma {:induction false} ParseNatOfNatToString(n: nat)
    ensures ParseNat(NatToString(n)) == n
  {
    var s := NatToString(n);
    if n < 10 {
      assert s[..|s| - 1] == [];
    } else {
      assert s[..|s| - 1] == NatToString(n / 10);
      ParseNatOfNatToString(n / 10);
    }
  }

  /** Distinct naturals have distinct decimal renderings. */
  lemma {:induction false} NatToStringInjective(m: nat, n: nat)
    requires NatToString(m) == NatToString(n)
    ensures m == n
  {
    ParseNatOfNatToString(m);
    ParseNatOfNatToString(n);
  }

  /** Position of the first occurrence of `c` in `s`. */
  function IndexOf(s: string, c: char): (r: nat)
    requires c in s
    ensures r < |s| && s[r] == c
    ensures c !in s[..r]
  {
    if s[0] == c then 0 else 1 + IndexOf(s[1..], c)
  }

  /** JavaScript's `s.split(c)` for a one-character separator: the pieces between
      separators, so the result always has at least one element. */
  function Split(s: string, c: char): (r: seq<string>)
    ensures |r| > 0
    decreases |s|
  {
    if c !in s then [s]
    else
      var i := IndexOf(s, c);
      [s[..i]] + Split(s[i + 1..], c)
  }

  /** JavaScript's `xs.join(sep)`. */
  function Join(xs: seq<string>, sep: string): string
  {
    if |xs| == 0 then ""
    else if |xs| == 1 then xs[0]
    else xs[0] + sep + Join(xs[1..], sep)
  }

  lemma {:induction false} IndexOfAfterPrefix(a: string, c: char, b: string)
    requires c !in a
    ensures c in a + [c] + b
    ensures IndexOf(a + [c] + b, c) == |a|
  {
    var s := a + [c] + b;
    assert s[|a|] == c;
    assert s[..|a|] == a;
  }

  /** Splitting a join on a separator that occurs in no piece gives the pieces back. */
  lemma {:induction false} SplitJoin(xs: seq<string>, c: char)
    requires |xs| > 0
    requires forall i | 0 <= i < |xs| :: c !in xs[i]
    ensures Split(Join(xs, [c]), c) == xs
  {
    if |xs| == 1 {
    } else {
      var rest := Join(xs[1..], [c]);
      var s := xs[0] + [c] + rest;
      assert Join(xs, [c]) == s;
      IndexOfAfterPrefix(xs[0], c, rest);
      assert s[..|xs[0]|] == xs[0];
      assert s[|xs[0]| + 1..] == rest;
      SplitJoin(xs[1..], c);
      assert Split(s, c) == [xs[0]] + xs[1..];
    }
  }

  /** A join contains the separator character only where one of the pieces does or
      between two pieces. */
  lemma {:induction false} JoinFree(xs: seq<string>, sep: string, c: char)
    requires c !in sep
    requires forall i | 0 <= i < |xs| :: c !in xs[i]
    ensures c !in Join(xs, sep)
  {
    if |xs| > 1 {
      JoinFree(xs[1..], sep, c);
      assert Join(xs, sep) == xs[0] + sep + Join(xs[1..], sep);
    }
  }

  /** ASCII lower-casing of one character. */
  function LowerChar(c: char): char
  {
    if 'A' <= c <= 'Z' then ((c as int) + 32) as char else c
  }

  /** `s.toLowerCase()`, restricted to ASCII letters. */
  function ToLower(s: string): (r: string)
    ensures |r| == |s|
    ensures forall i | 0 <= i < |s| :: r[i] == LowerChar(s[i])
  {
    if |s| == 0 then "" else [LowerChar(s[0])] + ToLower(s[1..])
  }

  /** `hay.includes(needle)`, computed by trying each starting position. */
  function Contains(hay: string, needle: string): bool
  {
    if needle <= hay then true
    else if |hay| == 0 then false
    else Contains(hay[1..], needle)
  }

  /** The needle occurs in the haystack starting at position `i`. */
  predicate OccursAt(hay: string, needle: string, i: int)
  {
    0 <= i <= |hay| - |needle| && hay[i..i + |needle|] == needle
  }

  /** `Contains` holds exactly when the needle occurs at some position. */
  lemma {:induction false} ContainsIff(hay: string, needle: string)
    ensures Contains(hay, needle) <==> exists i :: OccursAt(hay, needle, i)
  {
    if needle <= hay {
      assert OccursAt(hay, needle, 0);
    } else if |hay| == 0 {
    } else {
      ContainsIff(hay[1..], needle);
      forall i | OccursAt(hay, needle, i) ensures i > 0 && OccursAt(hay[1..], needle, i - 1) {
        ShiftOccurrence(hay, needle, i);
      }
      if Contains(hay[1..], needle) {
        var i :| OccursAt(hay[1..], needle, i);
        assert hay[1..][i..i + |needle|] == hay[i + 1..i + 1 + |needle|];
        assert OccursAt(hay, needle, i + 1);
      }
    }
  }

  /** An occurrence past the first position is an occurrence in the tail. */
  lemma {:induction false} ShiftOccurrence(hay: string, needle: string, i: int)
    requires !(needle <= hay) && OccursAt(hay, needle, i)
    ensures i > 0 && OccursAt(hay[1..], needle, i - 1)
  {
    var tail := hay[1..];
    assert tail[i - 1..i - 1 + |needle|] == hay[i..i + |needle|];
  }

  /** Lexicographic order by code point. */
  predicate StrLe(a: string, b: string)
  {
    if |a| == 0 then true
    else if |b| == 0 then false
    else a[0] < b[0] || (a[0] == b[0] && StrLe(a[1..], b[1..]))
  }

  lemma {:induction false} StrLeTotal(a: string, b: string)
    ensures StrLe(a, b) || StrLe(b, a)
  {
    if |a| > 0 && |b| > 0 && a[0] == b[0] {
      StrLeTotal(a[1..], b[1..]);
    }
  }

  lemma {:induction false} StrLeTransitive(a: string, b: string, c: string)
    requires StrLe(a, b) && StrLe(b, c)
    ensures StrLe(a, c)
  {
    if |a| > 0 && |b| > 0 && |c| > 0 && a[0] == b[0] && b[0] == c[0] {
      StrLeTransitive(a[1..], b[1..], c[1..]);
    }
  }
}

=== FILE: summary.dfy ===
/** The summary statistics record and the largest-transaction scan, both shared by the
    chart helpers and the overview tab. */
module Summary {
  import opened Ledger

  /** The running `largestTransaction`: the `{ amount: 0 }` placeholder it starts from,
      or a transaction of the input. */
  datatype Pick = Placeholder | Picked(txn: Txn)

  function PickAmount(p: Pick): int
  {
    match p
    case Placeholder => 0
    case Picked(t) => t.amount
  }

  /** `if (Math.abs(t.amount) > Math.abs(largest.amount)) largest = t`. */
  function Track(cur: Pick, t: Txn): (r: Pick)
    ensures r == cur || r == Picked(t)
    ensures Abs(PickAmount(r)) >= Abs(PickAmount(cur)) && Abs(PickAmount(r)) >= Abs(t.amount)
    ensures Abs(t.amount) <= Abs(PickAmount(cur)) ==> r == cur
  {
    if Abs(t.amount) > Abs(PickAmount(cur)) then Picked(t) else cur
  }

  /** Position `i` holds the first transaction of greatest absolute amount. */
  predicate FirstLargestAt(ts: seq<Txn>, i: int)
  {
    && 0 <= i < |ts|
    && (forall j | 0 <= j < |ts| :: Abs(ts[j].amount) <= Abs(ts[i].amount))
    && (forall j | 0 <= j < i :: Abs(ts[j].amount) < Abs(ts[i].amount))
  }

  /** What the scan promises about its result `r` for the list `ts`. */
  ghost predicate ScanResult(ts: seq<Txn>, r: Pick)
  {
    && (forall j | 0 <= j < |ts| :: Abs(ts[j].amount) <= Abs(PickAmount(r)))
    && (r.Placeholder? <==> forall j | 0 <= j < |ts| :: ts[j].amount == 0)
    && (r.Picked? ==> exists i :: FirstLargestAt(ts, i) && ts[i] == r.txn)
  }

  /** One step of the scan keeps its promise. */
  lemma {:induction false} TrackStep(ts: seq<Txn>, cur: Pick)
    requires |ts| > 0 && ScanResult(ts[..|ts| - 1], cur)
    ensures ScanResult(ts, Track(cur, ts[|ts| - 1]))
  {
    var prefix := ts[..|ts| - 1];
    var r := Track(cur, ts[|ts| - 1]);
    assert forall j | 0 <= j < |prefix| :: ts[j] == prefix[j];
    if r == cur && cur.Picked? {
      var i :| FirstLargestAt(prefix, i) && prefix[i] == cur.txn;
      assert FirstLargestAt(ts, i);
    } else if r != cur {
      assert FirstLargestAt(ts, |ts| - 1);
    }
  }

  /** The scan over the whole list. It stays on the placeholder exactly when every
      amount is zero; otherwise it is the first transaction of greatest absolute
      amount (strictly-greater comparison, so earlier transactions win ties). */
  function Scan(ts: seq<Txn>): (r: Pick)
    ensures forall j | 0 <= j < |ts| :: Abs(ts[j].amount) <= Abs(PickAmount(r))
    ensures r.Placeholder? <==> forall j | 0 <= j < |ts| :: ts[j].amount == 0
    ensures r.Picked? ==> exists i :: FirstLargestAt(ts, i) && ts[i] == r.txn
  {
    if |ts| == 0 then Placeholder
    else
      var cur := Scan(ts[..|ts| - 1]);
      TrackStep(ts, cur);
      Track(cur, ts[|ts| - 1])
  }

  /** The summary object. `largestTransaction` is `null` only in the empty-input
      summary of the chart helpers. */
  datatype Largest = NullLargest | LargestOf(pick: Pick)

  datatype Stats = Stats(
    totalTransactions: nat,
    totalInflow: int,
    totalOutflow: int,
    netCashFlow: int,
    largestTransaction: Largest,
    averageTransaction: real)

  /** `(totalInflow + totalOutflow) / count` as JavaScript's real division. */
  function Average(totalInflow: int, totalOutflow: int, count: nat): real
    requires count > 0
  {
    (totalInflow + totalOutflow) as real / count as real
  }

  /** The summary of a non-empty list, stated from the separate folds. */
  function ReferenceStats(ts: seq<Txn>): Stats
    requires |ts| > 0
  {
    var inflow, outflow := TotalInflow(ts), TotalOutflow(ts);
    Stats(|ts|, inflow, outflow, inflow - outflow, LargestOf(Scan(ts)), Average(inflow, outflow, |ts|))
  }

  /** The average of non-negative totals is non-negative. */
  lemma {:induction false} AverageNonNegative(totalInflow: int, totalOutflow: int, count: nat)
    requires count > 0
    requires totalInflow >= 0 && totalOutflow >= 0
    ensures Average(totalInflow, totalOutflow, count) >= 0.0
  {
    var num := (totalInflow + totalOutflow) as real;
    var den := count as real;
    var q := num / den;
    assert q * den == num;
  }
}

=== FILE: transactions_view.dfy ===
/** The transactions page's table: the filter and sort behind `filteredTransactions`,
    the sort-header toggle, the page slice, the state the filter controls update, the
    category list of the filter drop-down and the category colours. */
module TransactionsView {
  import opened Wrappers
  import opened Strings
  import opened Ledger

  // ---------------------------------------------------------------------------
  // Filtering
  // ---------------------------------------------------------------------------

  /** The filter controls. A date bound is None while its picker is empty. */
  datatype Criteria = Criteria(
    search: string,
    categoryFilter: string,
    startDate: Option<Date>,
    endDate: Option<Date>)

  /** The callback given to `filter`: each test rejects only when its control is set.
      It keeps exactly what the controls describe (Shown). */
  predicate Keep(c: Criteria, t: Txn)
    ensures Keep(c, t) <==> Shown(c, t)
  {
    ContainsIff(ToLower(t.name), ToLower(c.search));
    DateLeTotal(t.date, c.startDate.GetOr(t.date));
    DateLeTotal(t.date, c.endDate.GetOr(t.date));
    && (c.search == "" || Contains(ToLower(t.name), ToLower(c.search)))
    && (c.categoryFilter == "" || c.categoryFilter == "all" || t.category == Some(c.categoryFilter))
    && (c.startDate.None? || !(DateLe(t.date, c.startDate.value) && t.date != c.startDate.value))
    && (c.endDate.None? || !(DateLe(c.endDate.value, t.date) && t.date != c.endDate.value))
  }

  /** What a reader of the page sees: the lower-cased search text occurs somewhere in
      the lower-cased name, the category is the one chosen, and the date lies inside
      the inclusive range. */
  ghost predicate Shown(c: Criteria, t: Txn)
  {
    && (c.search == "" || exists i :: OccursAt(ToLower(t.name), ToLower(c.search), i))
    && (c.categoryFilter in {"", "all"} || t.category == Some(c.categoryFilter))
    && (c.startDate.Some? ==> DateLe(c.startDate.value, t.date))
    && (c.endDate.Some? ==> DateLe(t.date, c.endDate.value))
  }

  /** The callback keeps exactly the transactions the controls describe. */
  lemma {:induction false} KeepIffShown(c: Criteria, t: Txn)
    ensures Keep(c, t) <==> Shown(c, t)
  {
    ContainsIff(ToLower(t.name), ToLower(c.search));
    if c.startDate.Some? {
      DateLeTotal(t.date, c.startDate.value);
    }
    if c.endDate.Some? {
      DateLeTotal(t.date, c.endDate.value);
    }
  }

  /** The kept transactions of a list, the last one decided after the others. */
  function KeptOf(c: Criteria, ts: seq<Txn>): seq<Txn>
  {
    if |ts| == 0 then []
    else
      var kept := KeptOf(c, ts[..|ts| - 1]);
      if Keep(c, ts[|ts| - 1]) then kept + [ts[|ts| - 1]] else kept
  }

  /** Each transaction occurs in the kept list as often as in the input when it is
      kept, and not at all otherwise. */
  lemma {:induction false} KeptCounts(c: Criteria, ts: seq<Txn>)
    ensures |KeptOf(c, ts)| <= |ts|
    ensures forall t :: multiset(KeptOf(c, ts))[t] == if Keep(c, t) then multiset(ts)[t] else 0
  {
    if |ts| > 0 {
      var prefix, x := ts[..|ts| - 1], ts[|ts| - 1];
      KeptCounts(c, prefix);
      assert ts == prefix + [x];
      assert multiset(ts) == multiset(prefix) + multiset{x};
    }
  }

  /** Keeping from a concatenation keeps from each part, in order. */
  lemma {:induction false} KeptAppend(c: Criteria, a: seq<Txn>, b: seq<Txn>)
    ensures KeptOf(c, a + b) == KeptOf(c, a) + KeptOf(c, b)
  {
    if |b| == 0 {
      assert a + b == a;
    } else {
      var ab := a + b;
      var front := b[..|b| - 1];
      assert ab[..|ab| - 1] == a + front;
      assert ab[|ab| - 1] == b[|b| - 1];
      KeptAppend(c, a, front);
    }
  }

  /** `transactions.filter(...)`: every copy of every kept transaction, in the order of
      the input (FilterAppend, FilterSingle). */
  function Filter(c: Criteria, ts: seq<Txn>): (r: seq<Txn>)
    ensures |r| <= |ts|
    ensures forall t :: t in r <==> t in ts && Keep(c, t)
    ensures multiset(r) <= multiset(ts)
    ensures forall t :: multiset(r)[t] == if Keep(c, t) then multiset(ts)[t] else 0
  {
    var r := KeptOf(c, ts);
    KeptCounts(c, ts);
    assert forall t :: t in r <==> t in multiset(r);
    assert forall t :: t in ts <==> t in multiset(ts);
    r
  }

  /** Filtering a concatenation filters each part and keeps them in order. */
  lemma {:induction false} FilterAppend(c: Criteria, a: seq<Txn>, b: seq<Txn>)
    ensures Filter(c, a + b) == Filter(c, a) + Filter(c, b)
  {
    KeptAppend(c, a, b);
  }

  /** A one-element list is kept whole or dropped whole. */
  lemma {:induction false} FilterSingle(c: Criteria, t: Txn)
    ensures Filter(c, [t]) == if Keep(c, t) then [t] else []
  {
    assert [t][..0] == [];
    assert KeptOf(c, [t]) == if Keep(c, t) then [t] else [];
  }

  // ---------------------------------------------------------------------------
  // Sorting
  // ---------------------------------------------------------------------------

  datatype SortField = ByDate | ByAmount | ByName
  datatype Direction = Asc | Desc
  datatype SortState = SortState(field: SortField, direction: Direction)

  /** Ascending order on one field; names compare by character codes. */
  predicate KeyLe(f: SortField, a: Txn, b: Txn)
  {
    match f
    case ByDate => DateLe(a.date, b.date)
    case ByAmount => a.amount <= b.amount
    case ByName => StrLe(a.name, b.name)
  }

  /** `a` may come before `b` under the chosen field and direction. */
  predicate Before(s: SortState, a: Txn, b: Txn)
  {
    if s.direction == Asc then KeyLe(s.field, a, b) else KeyLe(s.field, b, a)
  }

  lemma {:induction false} BeforeTotal(s: SortState, a: Txn, b: Txn)
    ensures Before(s, a, b) || Before(s, b, a)
  {
    match s.field
    case ByDate => DateLeTotal(a.date, b.date);
    case ByAmount =>
    case ByName => StrLeTotal(a.name, b.name);
  }

  lemma {:induction false} BeforeTransitive(s: SortState, a: Txn, b: Txn, c: Txn)
    requires Before(s, a, b) && Before(s, b, c)
    ensures Before(s, a, c)
  {
    match s.field
    case ByDate =>
      if s.direction == Asc {
        DateLeTransitive(a.date, b.date, c.date);
      } else {
        DateLeTransitive(c.date, b.date, a.date);
      }
    case ByAmount =>
    case ByName =>
      if s.direction == Asc {
        StrLeTransitive(a.name, b.name, c.name);
      } else {
        StrLeTransitive(c.name, b.name, a.name);
      }
  }

  predicate Sorted(s: SortState, xs: seq<Txn>)
  {
    forall i, j | 0 <= i < j < |xs| :: Before(s, xs[i], xs[j])
  }

  /** Inserts `x` behind every element it does not have to precede, so equal keys
      keep their input order as in a stable sort. */
  function Insert(s: SortState, xs: seq<Txn>, x: Txn): (r: seq<Txn>)
    requires Sorted(s, xs)
    ensures Sorted(s, r)
    ensures multiset(r) == multiset(xs) + multiset{x}
  {
    if |xs| == 0 then [x]
    else if Before(s, xs[|xs| - 1], x) then
      InsertAtEnd(s, xs, x);
      xs + [x]
    else
      var front := Insert(s, xs[..|xs| - 1], x);
      InsertEarlier(s, xs, x, front);
      front + [xs[|xs| - 1]]
  }

  /** `x` goes last when the last element may precede it. */
  lemma {:induction false} InsertAtEnd(s: SortState, xs: seq<Txn>, x: Txn)
    requires Sorted(s, xs) && |xs| > 0 && Before(s, xs[|xs| - 1], x)
    ensures Sorted(s, xs + [x])
  {
    var last := xs[|xs| - 1];
    forall i | 0 <= i < |xs| ensures Before(s, xs[i], x) {
      if i < |xs| - 1 {
        BeforeTransitive(s, xs[i], last, x);
      }
    }
    var r := xs + [x];
    forall i, j | 0 <= i < j < |r| ensures Before(s, r[i], r[j]) {
      assert r[i] == xs[i];
    }
  }

  /** Otherwise the last element stays last and `x` is inserted among the others. */
  lemma {:induction false} InsertEarlier(s: SortState, xs: seq<Txn>, x: Txn, front: seq<Txn>)
    requires Sorted(s, xs) && |xs| > 0 && !Before(s, xs[|xs| - 1], x)
    requires Sorted(s, front)
    requires multiset(front) == multiset(xs[..|xs| - 1]) + multiset{x}
    ensures Sorted(s, front + [xs[|xs| - 1]])
    ensures multiset(front + [xs[|xs| - 1]]) == multiset(xs) + multiset{x}
  {
    var prefix := xs[..|xs| - 1];
    var last := xs[|xs| - 1];
    assert xs == prefix + [last];
    BeforeTotal(s, last, x);
    assert forall e | e in multiset(front) :: e in prefix || e == x;
    forall i | 0 <= i < |front| ensures Before(s, front[i], last) {
      assert front[i] in multiset(front);
    }
    var r := front + [last];
    forall i, j | 0 <= i < j < |r| ensures Before(s, r[i], r[j]) {
      assert r[i] == front[i];
    }
  }

  /** The stable sort with the comparator of the chosen field and direction. */
  function Sort(s: SortState, xs: seq<Txn>): (r: seq<Txn>)
    ensures Sorted(s, r)
    ensures multiset(r) == multiset(xs)
  {
    if |xs| == 0 then []
    else
      assert xs == xs[..|xs| - 1] + [xs[|xs| - 1]];
      Insert(s, Sort(s, xs[..|xs| - 1]), xs[|xs| - 1])
  }

  /** `filteredTransactions`: the kept transactions in the chosen order. It is a
      rearrangement of part of the input, so no record is added or altered. */
  function FilteredTransactions(c: Criteria, s: SortState, ts: seq<Txn>): (r: seq<Txn>)
    ensures Sorted(s, r)
    ensures multiset(r) == multiset(Filter(c, ts))
    ensures multiset(r) <= multiset(ts)
    ensures forall t :: t in r <==> t in ts && Keep(c, t)
    ensures forall t :: multiset(r)[t] == if Keep(c, t) then multiset(ts)[t] else 0
  {
    var kept := Filter(c, ts);
    var r := Sort(s, kept);
    assert forall t :: t in r <==> t in multiset(kept);
    r
  }

  /** `handleSortChange`: the current field flips its direction, a new field starts
      descending. */
  function HandleSortChange(s: SortState, f: SortField): (r: SortState)
    ensures r.field == f
    ensures s.field == f ==> r.direction != s.direction
    ensures s.field != f ==> r.direction == Desc
  {
    if s.field == f then SortState(f, if s.direction == Asc then Desc else Asc)
    else SortState(f, Desc)
  }

  /** Clicking the same header twice restores the sort exactly when it was already
      the sort field; from another field two clicks leave it ascending. */
  lemma {:induction false} SortChangeTwice(s: SortState, f: SortField)
    ensures HandleSortChange(HandleSortChange(s, f), f) == s <==> s.field == f
    ensures s.field != f ==> HandleSortChange(HandleSortChange(s, f), f) == SortState(f, Asc)
  {
  }

  // ---------------------------------------------------------------------------
  // Paging
  // ---------------------------------------------------------------------------

  function Min(a: int, b: int): int
  {
    if a <= b then a else b
  }

  /** `filtered.slice(page * rows, page * rows + rows)`; `slice` clamps both ends to
      the length. */
  function PageOf(xs: seq<Txn>, page: nat, rows: nat): (r: seq<Txn>)
    ensures |r| <= rows
    ensures page * rows >= |xs| ==> r == []
    ensures forall t | t in r :: t in xs
  {
    xs[Min(page * rows, |xs|)..Min(page * rows + rows, |xs|)]
  }

  /** Pages `0 .. n-1` shown one after another. */
  function Pages(xs: seq<Txn>, rows: nat, n: nat): seq<Txn>
  {
    if n == 0 then [] else Pages(xs, rows, n - 1) + PageOf(xs, n - 1, rows)
  }

  /** Consecutive pages tile the list: the first `n` pages are its first
      `min(n * rows, |xs|)` elements, with no gap and no overlap. */
  lemma {:induction false} PagesTile(xs: seq<Txn>, rows: nat, n: nat)
    ensures Pages(xs, rows, n) == xs[..Min(n * rows, |xs|)]
  {
    if n > 0 {
      PagesTile(xs, rows, n - 1);
      var k := (n - 1) * rows;
      MulStep(n, rows);
      var a := Min(k, |xs|);
      var b := Min(k + rows, |xs|);
      assert PageOf(xs, n - 1, rows) == xs[a..b];
      SliceJoin(xs, a, b);
    }
  }

  lemma {:induction false} MulStep(n: nat, rows: nat)
    requires n > 0
    ensures (n - 1) * rows + rows == n * rows
  {
  }

  lemma {:induction false} SliceJoin(xs: seq<Txn>, a: nat, b: nat)
    requires a <= b <= |xs|
    ensures xs[..a] + xs[a..b] == xs[..b]
  {
  }

  /** Enough pages show every filtered transaction, in order. */
  lemma {:induction false} AllPagesShowEverything(xs: seq<Txn>, rows: nat, n: nat)
    requires n * rows >= |xs|
    ensures Pages(xs, rows, n) == xs
  {
    PagesTile(xs, rows, n);
  }

  // ---------------------------------------------------------------------------
  // Table state
  // ---------------------------------------------------------------------------

  /** The component state the table depends on. */
  datatype Table = Table(
    criteria: Criteria,
    selectedAccount: string,
    sort: SortState,
    page: nat,
    rowsPerPage: nat,
    useMockData: bool,
    error: Option<string>)

  /** The initial state: newest first, ten rows, mock data on. */
  function Initial(accountFromUrl: string): (r: Table)
    ensures r.page == 0 && r.rowsPerPage == 10 && r.sort == SortState(ByDate, Desc)
    ensures r.selectedAccount == if accountFromUrl == "" then "all" else accountFromUrl
  {
    Table(Criteria("", "all", None, None),
          if accountFromUrl == "" then "all" else accountFromUrl,
          SortState(ByDate, Desc), 0, 10, true, None)
  }

  /** The page the table body renders: at most one page of kept transactions, and
      nothing once the page lies past the end. */
  function Displayed(v: Table, ts: seq<Txn>): (r: seq<Txn>)
    ensures |r| <= v.rowsPerPage
    ensures forall t | t in r :: t in ts && Keep(v.criteria, t)
    ensures v.page * v.rowsPerPage >= |Filter(v.criteria, ts)| ==> r == []
  {
    PageOf(FilteredTransactions(v.criteria, v.sort, ts), v.page, v.rowsPerPage)
  }

  /** `handleSearchChange`: the page is NOT reset. */
  function ChangeSearch(v: Table, text: string): (r: Table)
    ensures r.criteria.search == text && r.page == v.page
    ensures r.(criteria := v.criteria) == v
    ensures r.criteria.(search := v.criteria.search) == v.criteria
  {
    v.(criteria := v.criteria.(search := text))
  }

  /** `handleAccountChange`: resets the page. */
  function ChangeAccount(v: Table, account: string): (r: Table)
    ensures r.selectedAccount == account && r.page == 0
    ensures r.(selectedAccount := v.selectedAccount, page := v.page) == v
  {
    v.(selectedAccount := account, page := 0)
  }

  /** `handleCategoryChange`: resets the page. */
  function ChangeCategory(v: Table, category: string): (r: Table)
    ensures r.criteria.categoryFilter == category && r.page == 0
    ensures r.(criteria := v.criteria, page := v.page) == v
    ensures r.criteria.(categoryFilter := v.criteria.categoryFilter) == v.criteria
  {
    v.(criteria := v.criteria.(categoryFilter := category), page := 0)
  }

  /** The date pickers: the page is not reset. */
  function ChangeDates(v: Table, start: Option<Date>, end: Option<Date>): (r: Table)
    ensures r.criteria.startDate == start && r.criteria.endDate == end && r.page == v.page
    ensures r.(criteria := v.criteria) == v
  {
    v.(criteria := v.criteria.(startDate := start, endDate := end))
  }

  /** A click on a sortable header. */
  function ChangeSort(v: Table, f: SortField): (r: Table)
    ensures r.sort.field == f && r.page == v.page
    ensures r.(sort := v.sort) == v
  {
    v.(sort := HandleSortChange(v.sort, f))
  }

  /** `handleChangePage`. */
  function ChangePage(v: Table, page: nat): (r: Table)
    ensures r.page == page
    ensures r.(page := v.page) == v
  {
    v.(page := page)
  }

  /** `handleChangeRowsPerPage`: the value arrives already parsed; resets the page. */
  function ChangeRowsPerPage(v: Table, rows: nat): (r: Table)
    ensures r.rowsPerPage == rows && r.page == 0
    ensures r.(rowsPerPage := v.rowsPerPage, page := v.page) == v
  {
    v.(rowsPerPage := rows, page := 0)
  }

  /** `handleToggleMockData`: flips between mock and live data, resets the page and clears the error. */
  function ToggleMockData(v: Table): (r: Table)
    ensures r.useMockData == !v.useMockData && r.page == 0 && r.error.None?
    ensures r.(useMockData := v.useMockData, page := v.page, error := v.error) == v
  {
    v.(useMockData := !v.useMockData, page := 0, error := None)
  }

  /** The first page of the filtered list. */
  function FirstPage(v: Table, ts: seq<Txn>): seq<Txn>
  {
    var f := FilteredTransactions(v.criteria, v.sort, ts);
    f[..Min(v.rowsPerPage, |f|)]
  }

  /** After a category, account or rows-per-page change the table shows the first
      rows of the filtered list. */
  lemma {:induction false} ResetShowsFirstRows(v: Table, ts: seq<Txn>, category: string, account: string, rows: nat)
    ensures Displayed(ChangeCategory(v, category), ts) == FirstPage(ChangeCategory(v, category), ts)
    ensures Displayed(ChangeAccount(v, account), ts) == FirstPage(ChangeAccount(v, account), ts)
    ensures Displayed(ChangeRowsPerPage(v, rows), ts) == FirstPage(ChangeRowsPerPage(v, rows), ts)
  {
  }

  /** Because a search does not reset the page, narrowing the search while on a later
      page can leave the table empty although matches exist. */
  lemma {:induction false} SearchCanEmptyTheTable()
    ensures
      var t := Txn("1", Date(2024, 3, 1), 500, "x", "", None, "a");
      var v := Table(Criteria("", "all", None, None), "all", SortState(ByDate, Desc), 1, 1, true, None);
      var w := ChangeSearch(v, "x");
      |FilteredTransactions(w.criteria, w.sort, [t])| == 1
      && Displayed(w, [t]) == []
  {
    var t := Txn("1", Date(2024, 3, 1), 500, "x", "", None, "a");
    assert ToLower("x") == "x";
    assert Contains("x", "x");
    assert Filter(Criteria("x", "all", None, None), [t]) == [t];
  }

  // ---------------------------------------------------------------------------
  // Category drop-down and colours
  // ---------------------------------------------------------------------------

  /** `Array.from(new Set(transactions.map(t => t.category)))`: each category once, in
      the order of its first occurrence; a missing category is a value of its own. */
  function UniqueCategories(ts: seq<Txn>): (r: seq<Option<string>>)
    ensures forall i, j | 0 <= i < j < |r| :: r[i] != r[j]
    ensures forall c :: c in r <==> exists t | t in ts :: t.category == c
    ensures |r| <= |ts|
  {
    if |ts| == 0 then []
    else
      var prefix := ts[..|ts| - 1];
      var t := ts[|ts| - 1];
      assert ts == prefix + [t];
      var seen := UniqueCategories(prefix);
      if t.category in seen then seen else seen + [t.category]
  }

  const DefaultColor: string := "#6993FF"

  /** The colour table of `getCategoryColor`. */
  const CategoryColors: map<string, string> := map[
    "Food & Drink" := "#FF7F50",
    "Shopping" := "#6993FF",
    "Housing" := "#9C27B0",
    "Transportation" := "#4CAF50",
    "Income" := "#66BB6A",
    "Healthcare" := "#F44336",
    "Travel" := "#FF9800",
    "Groceries" := "#795548",
    "Entertainment" := "#FF5722"]

  /** `categoryMap[category] || '#6993FF'`. */
  function CategoryColor(category: Option<string>): (r: string)
    ensures category.None? || category.value !in CategoryColors ==> r == DefaultColor
    ensures category.Some? && category.value in CategoryColors ==> r == CategoryColors[category.value]
    ensures r in CategoryColors.Values
  {
    assert CategoryColors["Shopping"] == DefaultColor;
    if category.Some? && category.value in CategoryColors then CategoryColors[category.value]
    else DefaultColor
  }
}

=== FILE: wrappers.dfy ===
/** The frontend and the backend use `null`, `undefined` and missing keys freely;
    the model writes each such value as an Option. */
module Wrappers {

  datatype Option<+T> = None | Some(value: T) {

    /** The value when present, otherwise the given default (JavaScript's `x || d`
        for a value that is never falsy when present). */
    function GetOr(default: T): T
    {
      match this
      case Some(v) => v
      case None => default
    }
  }
}
